=== FILE: README.md ===
# Search strategies, modelled in Dafny

This project models the search algorithms of the Search_Strategies
repository as pure Dafny functions over immutable states, and proves what
each search returns:

- the uninformed searches:
  - `breadth_first_search` and the logging `bfs` (`BreadthFirst`, `OpenClosed`);
  - the recursive `depth_first_search` (`DepthFirst`);
  - the SL/NSL/DE `backtrack` (`Backtrack`);
  - `uniform_cost_search` (`UniformCost`).
- the informed searches:
  - greedy `best_first_search` (`GreedyBestFirst`);
  - `hill_climbing` (`HillClimbing`);
  - the helpers `get_g` and `heuristic` (`Informed`).
- the adversarial module: the search kernel of `a_star` (`AStar`) and
  minimax with alpha-beta pruning (`AlphaBeta`).

Shared vocabulary lives in `Graphs`: adjacency lists as `map<N, seq<N>>`,
paths and reachability. `ExtInt` adds integers extended with -inf and +inf,
for Python's `float('inf')` sentinels.

Each `while` loop is a recursive `Run` over a state datatype that holds the
loop's variables. It carries an explicit termination measure, and the
loop invariant is proved step by step. Each top-level search states, in its
contract:

- what a success means: a real path from the start to the goal, with its
  cost where the search reports one;
- that failure happens exactly when the goal is unreachable;
- any order the search promises: the shortest path for BFS, the least cost
  for UCS, the preorder for DFS.

Where a priority queue pops "some least entry" (`heapq` in UCS, `sort` plus
`pop(0)` in A*), the pop is a selector parameter `sel`. Its predicate only
demands that `sel` return an index of least key, so each property is proved
for every tie-break. `UniformCost.Cheapest` and `AStar.LeastF` are selectors
that meet it; `LeastF` takes the first least entry, as the stable sort does.

Some behaviour of the code worth knowing:

- `breadth_first_search` returns `(visited, None)` on failure, although its
  docstring (uninformed/breadth_first_search.py:13) says `(None, None)`.
  The model follows the code.
- The alpha-beta example tree of adversarial/__init__.py evaluates to 15
  from A, its minimax value (`AlphaBeta.FixtureValue`).
- `hill_climbing` compares the candidate edge's value with the previous
  edge's value. The stop test as written never lets it move; see Findings.
- `uniform_cost_search` checks for negative costs only while expanding a
  node. A negative edge that is never expanded raises nothing.
- `a_star` defaults a missing edge cost to 1 and a missing heuristic to 0,
  but the start's heuristic is read with `heuristics[start]` (a
  precondition here).

## Model

| member | source | states |
|---|---|---|
| Informed.GetG | informed/__init__.py:2-3 | the lookup is finite exactly when the pair has a cost, is that cost, and is +inf otherwise, never -inf |
| Informed.Heuristic | informed/__init__.py:7-8 | the distance is non-negative, zero exactly at the goal, and is the larger of n - goal and goal - n |
| Informed.HeuristicSymmetric | informed/__init__.py:7-8 | the distance is symmetric in its two nodes |
| AlphaBeta.RootIsMinimax | adversarial/alpha_beta_pruning.py:3-23 | called with the full window (-inf, +inf), alphabeta returns exactly the minimax value of the tree, for either player |
| AlphaBeta.FailSoftWindow | adversarial/alpha_beta_pruning.py:8-23 | for any open window alpha < beta, the pruned value equals minimax when minimax lies inside the window, and lies on the same side as minimax when it falls outside |
| AlphaBeta.LeafIsItsValue | adversarial/alpha_beta_pruning.py:4-6 | a numeric leaf evaluates to itself whatever the flag and bounds |
| AlphaBeta.EmptyNode | adversarial/alpha_beta_pruning.py:8-17 | a node without children yields -inf as MAX and +inf as MIN |
| AlphaBeta.OnlyChildFlipsFlag | adversarial/alpha_beta_pruning.py:10-19 | a node with one child has that child's value for the opposite player |
| AlphaBeta.StopFrom | adversarial/alpha_beta_pruning.py:10-22 | the number of children a loop evaluates is the first count after which the window is closed (beta <= alpha), or all children |
| AlphaBeta.MaxLoopIsTruncatedRun | adversarial/alpha_beta_pruning.py:8-15 | the MAX loop with its break returns the value that evaluating the children in order without a break reaches at the cut-off point |
| AlphaBeta.MinLoopIsTruncatedRun | adversarial/alpha_beta_pruning.py:16-23 | the MIN loop with its break returns the no-break value at the cut-off point |
| AlphaBeta.EvaluatedPrefix | adversarial/alpha_beta_pruning.py:10-22 | the children alphabeta evaluates form a prefix of the child list, and the node's value is the max (MAX) or min (MIN) over exactly that prefix |
| AlphaBeta.LeavesEvaluatedBounded | adversarial/alpha_beta_pruning.py:3-23 | pruning evaluates no more leaves than the tree has |
| AlphaBeta.FixtureValue | adversarial/__init__.py:3-15 | the example tree rooted at A evaluates to 15 |
| BreadthFirst.Discover | uninformed/breadth_first_search.py:42-45 | the neighbour loop marks every neighbour seen, keeps the old queue as a prefix, and appends only unseen neighbours, each with the popped path extended by it |
| BreadthFirst.DiscoverNodes | uninformed/breadth_first_search.py:42-45 | the queue gains exactly the unseen neighbours, each once, so it never repeats a node |
| BreadthFirst.NextPreservesInv | uninformed/breadth_first_search.py:33-45 | one dequeue-and-expand pass keeps the queue layered by path length, every queued path shortest, and the visited order duplicate-free; it shrinks the loop measure |
| BreadthFirst.HeadBeforeGoal | uninformed/breadth_first_search.py:33-42 | a dequeued node that is not the goal ends its queued path, a path from the start on which the goal does not occur: every earlier node on it was dequeued before and was not the goal |
| BreadthFirst.NextAncestry | uninformed/breadth_first_search.py:34-45 | after a pass, every node on a queued path before its last one has been dequeued |
| BreadthFirst.UnkeyedSiblingExample | uninformed/breadth_first_search.py:33-47 | on {0: [1, 2]} the search from 0 for 1 returns ([0, 1], [0, 1]) although 2, reached before the goal, has no entry |
| BreadthFirst.KeyErrorExample | uninformed/breadth_first_search.py:33-42 | on {0: [2]} the search from 0 for 1 dequeues 2 and raises KeyError for 2 |
| BreadthFirst.RunCorrect | uninformed/breadth_first_search.py:33-47 | from an invariant state the loop either raises KeyError for a non-goal node without an entry that lies at the end of a goal-free path from the start, which cannot happen when every such node has an entry, or returns a duplicate-free visit order and, on success, a shortest path to the goal; it returns failure exactly when the goal is unreachable |
| BreadthFirst.BreadthFirstSearch | uninformed/breadth_first_search.py:9-47 | KeyError only for a non-goal node without an entry reached along a goal-free path, and never when every such node has one; otherwise visited starts at the start and repeats no node, a returned path runs from start to goal, is no longer than any other, and the goal was visited last, and path is None exactly when the goal is unreachable |
| OpenClosed.Children | uninformed/breadth_first_search.py:71-74 | children are exactly the neighbours on neither list, each with its multiplicity in the neighbour list; the list is duplicate-free when the neighbour list is, and empty when every neighbour is listed |
| OpenClosed.StepPreservesInv | uninformed/breadth_first_search.py:60-76 | one pass keeps both lists within the reachable nodes, keeps every successor of a closed node on a list, and keeps the goal off the closed list |
| OpenClosed.RunCorrect | uninformed/breadth_first_search.py:60-81 | the loop succeeds exactly when the goal is reachable; on success the closed list runs from the start to the goal over reachable nodes |
| OpenClosed.Bfs | uninformed/breadth_first_search.py:50-81 | SUCCESS exactly when the goal is reachable; the closed list then starts at the start, ends at the goal, holds only reachable nodes, and repeats none when no neighbour list repeats a node |
| DepthFirst.Visit | uninformed/depth_first_search.py:28-46 | a call raises KeyError only for a non-goal node without an entry reached along a goal-free path, never when every such node has one; otherwise it records its node first, on failure leaves the shared path as it found it, and on success returns a path from the start to the goal with the goal as the last visit |
| DepthFirst.Loop | uninformed/depth_first_search.py:41-45 | the neighbour loop stops at the first successful child and passes on the first KeyError, with the same guarantees about its key as a call; otherwise it leaves the path unchanged |
| DepthFirst.VisitMissesGoal | uninformed/depth_first_search.py:28-46 | a failing call records the whole preorder walk from its node, and that walk contains no goal |
| DepthFirst.VisitStopsAtGoal | uninformed/depth_first_search.py:28-43 | a successful call records the preorder walk from its node, cut off at the first goal |
| DepthFirst.PreorderHoldsReachable | uninformed/depth_first_search.py:41-44 | every node reachable from the start appears in the preorder walk, so a search that misses the goal has covered everything reachable |
| DepthFirst.DepthFirstSearch | uninformed/depth_first_search.py:5-25 | on a graph with no cycle reachable from the start: KeyError only for a non-goal node without an entry reached along a goal-free path, never when every such node has one; otherwise, on success, the visit order is a prefix of the preorder walk that starts at the start and meets the goal only at its end, and the path runs from start to goal; (None, None) exactly when the goal is unreachable |
| DepthFirst.UnkeyedSiblingExample | uninformed/depth_first_search.py:28-46 | on {A: [B, C], B: [D]} the search from A for D returns ([A, B, D], [A, B, D]) although C, reached before the goal, has no entry |
| DepthFirst.KeyErrorExample | uninformed/depth_first_search.py:28-46 | on {A: [C, B], B: [D]} the search from A for D enters C first and raises KeyError for C |
| Backtrack.KidsCover | uninformed/backtrack.py:64-68 | the children of CS are exactly its successors that are on none of SL, NSL and DE |
| Backtrack.UnwindMoves | uninformed/backtrack.py:70-76 | the dead-end unwinding removes the same nodes from the front of SL and of NSL, at least one when CS heads SL, and puts them in reverse order in front of DE |
| Backtrack.LoopHead | uninformed/backtrack.py:55-62 | while NSL is non-empty, CS heads both SL and NSL, and SL read backwards is a path from the start to CS, so the returned SL is a reversed path |
| Backtrack.ExpandInv | uninformed/backtrack.py:64-80 | one pass keeps SL a reversed path and keeps every successor of a dead end on some list; it also strictly shrinks the measure (nodes not yet listed, then the length of NSL) |
| Backtrack.ExpandOnce | uninformed/backtrack.py:64-80 | with duplicate-free neighbour lists, no node is ever on NSL and DE together or twice; DE only grows at its front, and a node newly put on NSL was on no list before |
| Backtrack.RunCorrect | uninformed/backtrack.py:55-84 | from an invariant state the loop returns SL with the goal at its head and a path from start to goal when read backwards, and returns FAIL exactly when the goal is unreachable |
| Backtrack.EmptySound | uninformed/backtrack.py:82-84 | an empty NSL means every node reachable from the start is a dead end and the goal is not reachable |
| Backtrack.BacktrackSearch | uninformed/backtrack.py:43-84 | an empty graph gives FAIL; a found SL has the goal first and reads backwards as a path from the start used (the given one, or the first key) to the goal; FAIL exactly when the goal is unreachable |
| Backtrack.DocstringExample | uninformed/backtrack.py:27-41 | on {A: [B, C], B: [D]} with goal D from A the result is [D, B, A] |
| Backtrack.DeadEndExample | uninformed/backtrack.py:70-80 | on a graph where B is a dead end, the search backtracks from B to C and returns [D, C, A] |
| UniformCost.Improve | uninformed/uniform_cost_search.py:36-37 | best_cost is lowered only on strict improvement, and never rises for any node; a non-improving cost leaves it unchanged |
| UniformCost.Pushed | uninformed/uniform_cost_search.py:36-38 | an entry is pushed exactly when the new cost improves strictly on the best known, and it carries that cost and the path extended by the neighbour |
| UniformCost.RelaxBest | uninformed/uniform_cost_search.py:31-38 | after a pass over the edges no best cost has risen, new keys are edge targets, and every target costs at most the popped cost plus its edge |
| UniformCost.RelaxChanged | uninformed/uniform_cost_search.py:36-38 | every best cost the pass changes has a pushed entry at its new cost |
| UniformCost.RelaxQuiet | uninformed/uniform_cost_search.py:36-38 | a pass pushes nothing exactly when it changes no best cost |
| UniformCost.StaleStep | uninformed/uniform_cost_search.py:24-26 | skipping an entry dearer than its node's best cost keeps the invariant |
| UniformCost.PopPreservesInv | uninformed/uniform_cost_search.py:21-38 | a pass that neither returns nor raises keeps every queued path a costed path from the start and every node relaxed or pending, and shrinks the measure |
| UniformCost.FoundOptimal | uninformed/uniform_cost_search.py:22-29 | with non-negative costs, a popped, non-stale goal entry costs no more than any path from the start to the goal |
| UniformCost.StopSound | uninformed/uniform_cost_search.py:28-33 | a pass that stops either returns a costed path to the goal, optimal when costs are non-negative, or raises because a reachable node has a negative out-edge |
| UniformCost.EmptySound | uninformed/uniform_cost_search.py:21-40 | an exhausted queue means the goal is unreachable |
| UniformCost.Cheapest | uninformed/uniform_cost_search.py:22 | on a non-empty queue the index is in range and its entry costs no more than any other, so a heappop of least cost exists |
| UniformCost.MinSelectorExists | uninformed/uniform_cost_search.py:22 | `Cheapest` meets the least-cost selector predicate, so the results proved for every such selector apply to a real pop |
| UniformCost.RunCorrect | uninformed/uniform_cost_search.py:21-40 | from an invariant state the loop's answer is sound, for every least-cost choice of heappop |
| UniformCost.StartIsGoal | uninformed/uniform_cost_search.py:18-29 | when start is the goal the answer is cost 0 with the one-node path |
| UniformCost.UniformCostSearch | uninformed/uniform_cost_search.py:4-40 | a found path runs from start to goal and costs what is returned, the least possible when costs are non-negative; (inf, None) only when the goal is unreachable, and exactly then when costs are non-negative; the error only when a reachable node has a negative edge |
| GreedyBestFirst.MinIndex | informed/best_first_search.py:40-41 | heappop takes an entry least in (h, counter) order |
| GreedyBestFirst.PopOrder | informed/best_first_search.py:31-41 | with counters increasing along the queue, the popped entry has the least h, and every earlier entry has strictly greater h: ties go to the first pushed |
| GreedyBestFirst.Reconstruct | informed/best_first_search.py:50-56 | following parent links from the goal and reversing gives a path from the start to the goal |
| GreedyBestFirst.PushKeeps | informed/best_first_search.py:62-66 | the neighbour loop keeps every earlier parent entry; every key it adds is a neighbour that was neither visited nor already in parent, with the expanded node as its parent; afterwards every neighbour is visited or has a parent |
| GreedyBestFirst.PushCounts | informed/best_first_search.py:62-66 | the counter rises by the number of entries pushed, and the pushed entries carry counter+1, counter+2, … in order, each with h(neighbour, goal) as its priority |
| GreedyBestFirst.PushNew | informed/best_first_search.py:62-66 | the pushed nodes are exactly the new keys of parent, each pushed once, and parent gains exactly that many keys |
| GreedyBestFirst.ExpandKeepsInv | informed/best_first_search.py:44-66 | an expansion keeps every parent an earlier visit with an edge to its child, and keeps every successor of a visited node in parent |
| GreedyBestFirst.ExpandKeepsFresh | informed/best_first_search.py:42-66 | no two queued entries share a node and no queued node is visited, so the `continue` branch is never taken |
| GreedyBestFirst.GoalSound | informed/best_first_search.py:49-60 | popping the goal returns True with a path from the start to the goal, and the goal is the last node recorded |
| GreedyBestFirst.RunCorrect | informed/best_first_search.py:40-68 | the loop's outcome is sound: success exactly when the goal is reachable, with a real path |
| GreedyBestFirst.BestFirstSearch | informed/best_first_search.py:8-68 | visited_order starts at the start, repeats nothing and holds only reachable nodes; True exactly when the goal is reachable, with found_path a path from start to goal; otherwise found_path is empty and the goal was never expanded |
| HillClimbing.Valid | informed/hill_climbing.py:11-13 | valid_neighbors holds exactly the neighbours with a heuristic entry for the edge from the current node |
| HillClimbing.BestAt | informed/hill_climbing.py:18 | next_state sits at the first position of least heuristic value among the valid neighbours |
| HillClimbing.NextIsFirstBest | informed/hill_climbing.py:11-18 | next_state is the first neighbour, in neighbour-list order, whose edge value is least among those with an entry |
| HillClimbing.Candidate | informed/hill_climbing.py:6-18 | there is a candidate move exactly when some neighbour has an entry, and it is such a neighbour |
| HillClimbing.ClimbShrinks | informed/hill_climbing.py:21-25 | each move strictly lowers the number of table values below the last edge's, so the loop ends |
| HillClimbing.Climb | informed/hill_climbing.py:5-30 | the loop only ever extends the path it was given |
| HillClimbing.ClimbWalk | informed/hill_climbing.py:5-25 | every move follows an edge with a heuristic entry whose value is strictly below the previous edge's value |
| HillClimbing.ClimbStopsAtGoal | informed/hill_climbing.py:27-28 | no node inside the returned path, except the start and the end, is the goal |
| HillClimbing.ClimbEnds | informed/hill_climbing.py:5-30 | the loop ends at the goal, reached by a move, or where the stop test or a node without usable neighbours halts it |
| HillClimbing.HillClimbing | informed/hill_climbing.py:1-30 | the returned path starts at the start |
| HillClimbing.AsWrittenStaysAtStart | informed/hill_climbing.py:21-22 | as written, the function returns the one-node path [start] for every graph, goal and table |
| HillClimbing.StopTestCounterexample | informed/hill_climbing.py:21-22 | on {s: [a]} with edge (s, a) valued 1, the code as written returns [s] while the intended test moves to [s, a] |
| HillClimbing.HillClimbingIntended | informed/hill_climbing.py:1-30 | the intended reading's path also starts at the start |
| HillClimbing.IntendedClimb | informed/hill_climbing.py:1-30 | with the intended stop test the result is a path from the start along edges with entries and strictly falling values; it stops at the first goal, and its first move is the first best valid neighbour when one exists |
| AStar.LeastF | adversarial/a_star.py:44-46 | on a non-empty open list the index is in range, its entry has the least f, and every earlier entry has strictly greater f: the entry the stable sort puts first |
| AStar.MinFExists | adversarial/a_star.py:44-46 | `LeastF` meets the least-f selector predicate, so the results proved for every such selector apply to the stable sort's pop |
| AStar.Pushes | adversarial/a_star.py:70-77 | every neighbour outside the closed set gets an entry with path extended by it, g raised by the edge cost (default 1) and f = g + h (default 0); closed neighbours get none |
| AStar.Pop | adversarial/a_star.py:44-77 | the pass returns (path, g) exactly when the chosen entry is the goal; otherwise it closes the node, keeps the rest of the list in order and appends only entries for nodes not closed |
| AStar.PopPreservesInv | adversarial/a_star.py:44-77 | a pass keeps each entry's path a path from the start whose cost is its g, with f = g + h; keeps closed nodes reachable and their successors listed; shrinks the measure |
| AStar.EmptySound | adversarial/a_star.py:79 | an exhausted open list means the goal is unreachable |
| AStar.RunCorrect | adversarial/a_star.py:44-79 | from an invariant state the answer is sound for every least-f choice at each pop |
| AStar.AStarSearch | adversarial/a_star.py:41-79 | a returned path runs from start to goal and its cost is the sum of its edge costs; (None, inf) exactly when the goal is unreachable |

## Left out

- Printing and logging. The `tabulate` tables and `print` calls are left
  out. Their log rows join node lists into strings, which matters for two
  searches:
- OpenClosed.Bfs: only string nodes are modelled; the generic node type
  stands for strings. `states` joins the lists with `",".join`
  (uninformed/breadth_first_search.py:58, called at lines 61 and 78), so
  any non-string node raises TypeError on the first pass, e.g. in
  `bfs({0: [1]}, 0, 1)`. That TypeError is left out.
- Backtrack.BacktrackSearch: only string nodes are modelled, as for `bfs`.
  `states` joins with `"".join` (uninformed/backtrack.py:53, called at
  lines 56 and 80), and line 61 joins SL again, so a non-string node raises
  TypeError. That TypeError is left out.
- Drawing in `a_star`. `AStar` models the search kernel with the networkx
  and matplotlib drawing removed, including the optional `drawing`
  argument. The drawing code can raise where the kernel returns, and these
  exceptions are left out:
  - a KeyError at adversarial/a_star.py:51 when a popped node lies on no
    edge, e.g. `{S: []}` searched from S;
  - a RecursionError from `get_hierarchy_pos` (adversarial/a_star.py:13-22,
    called at line 56) when a search succeeds and the drawing has a cycle
    reachable from the first key, since the layout recursion keeps no
    visited set;
  - an IndexError at line 56 when the graph is empty and a caller-supplied
    drawing holds the start, which is also the goal. Without such a drawing,
    line 51 raises the KeyError first.
- Floating point. Costs and heuristic values are integers, and `inf` is the
  extended integer `PosInf`. Python's mixed int/float arithmetic is not
  modelled.
- Heap layout. `heapq` is modelled by the entry it pops, not by the array
  it keeps. In UCS and A* that entry is any of least key (the `sel`
  parameter). In greedy best-first search the (h, counter) key is unique,
  so the entry is determined.
- UniformCost.UniformCostSearch: a negative edge is modelled as a test made
  before the relaxation pass. The ValueError ends the call and discards what
  the pass had relaxed, so the answer is the same.
- AStar.AStarSearch: does not state optimality. The code closes a node when
  it is popped and checks the closed set only when pushing, so no
  least-cost promise follows without consistency assumptions on the
  heuristics. The contract states path, cost and completeness only.
- KeyError in `breadth_first_search` and `depth_first_search` is modelled
  as the `Graphs.Checked.KeyError` result. A `heuristics[start]` KeyError in
  `a_star` is not: it is a precondition that the start has a heuristic.
- BreadthFirst.BreadthFirstSearch: on KeyError the contract names a
  missing key reached along a goal-free path, and it proves that
  `Graphs.KeysBeforeGoal` rules the error out. It does not say exactly
  which graphs raise: that depends on the order in which nodes are
  dequeued, and `UnkeyedSiblingExample` shows a graph that fails
  `KeysBeforeGoal` but returns normally.
- DepthFirst.DepthFirstSearch: states KeyError as the BFS contract does,
  with the same limit. It also requires that no path from the start
  revisits a node (`AcyclicFrom`). The source loops only on a cycle that it
  enters before it reaches the goal, so this also excludes cyclic graphs on
  which it returns normally, such as `{0: [1, 0]}` searched from 0 for 1.
- AlphaBeta: the name-to-children dictionary and the node names are
  replaced by a `Tree` value whose inner nodes hold their children. This
  drops the KeyError on a name missing from the dictionary
  (adversarial/alpha_beta_pruning.py:10,18), non-termination on a
  dictionary whose names form a cycle, and float leaves such as -inf and
  +inf: leaves are integers.
- Falsy nodes. `if not start` in `backtrack` and `if goal and` in
  `hill_climbing` also treat "", 0 and similar values as absent. The model
  writes absence as `Option.None`, and any present value counts as given.
- Dictionary order. `list(graph.keys())[0]` in `backtrack` is modelled by an
  explicit `keys` sequence that lists the graph's keys.
- Backtrack.ExpandOnce: needs neighbour lists without repeats. `backtrack`
  filters children against SL, NSL and DE but not against each other, so a
  repeated neighbour can appear twice on NSL.
- HillClimbing.HillClimbing: its contract says only that the path starts at
  the start. AsWrittenStaysAtStart states the full behaviour, which is that
  nothing else is ever added. The default `start=None` is not a separate
  case: it is the search from the node None, which a caller expresses by
  choosing a node type that has such a value.
- The module-level `visited_order` and `found_path` lists of
  `best_first_search` are modelled as part of the returned value, not as
  shared mutable state.
- main.py, the `graphs` fixture package and its heuristics and cost tables
  are not part of this model.

## Findings

| source | as written | input that shows it | evidently intended | confidence | as-written member | corrected member |
|---|---|---|---|---|---|---|
| informed/hill_climbing.py:21 | the conditional expression binds looser than `>=`, so on the one-node start path the whole test is the truthy `float('inf')` and the loop breaks before its first move | graph {s: [a]}, heuristic {(s, a): 1}, start s: returns [s] | compare the candidate's value with the parenthesised `(get((path[-2], current), inf) if len(path) > 1 else inf)`, so the climb moves while edge values fall strictly | not executed | HillClimbing.StopTestCounterexample | HillClimbing.IntendedClimb |

=== FILE: a_star.dfy ===
/** The search kernel of `a_star` (adversarial/a_star.py): an open list of
    (f, g, node, path) entries from which an entry of least `f` is taken, and
    a closed set that is consulted when pushing, not when popping. Drawing is
    not part of this model. */
module AStar {
  import opened Graphs
  import opened ExtInt

  /** `g_costs`: edge costs keyed by (from, to). */
  type Costs<N(==)> = map<(N, N), int>

  /** `heuristics`: estimated cost to the goal, keyed by node. */
  type Heuristics<N> = map<N, int>

  /** An open-list entry (f, g, node, path). */
  datatype Entry<N> = Entry(f: int, g: int, node: N, path: seq<N>)

  datatype State<N> = State(open: seq<Entry<N>>, closed: set<N>)

  /** The returned pair: (path, g) on success, (None, inf) otherwise. */
  datatype Result<N> = Result(path: Option<seq<N>>, cost: EInt)

  datatype Turn<N> = Continue(next: State<N>) | Stop(answer: Result<N>)

  /** `g_costs.get((current, neighbor), 1)`. */
  function EdgeCost<N>(costs: Costs<N>, a: N, b: N): int
  {
    if (a, b) in costs then costs[(a, b)] else 1
  }

  /** `heuristics.get(n, 0)`. */
  function H<N>(heur: Heuristics<N>, n: N): int
  {
    if n in heur then heur[n] else 0
  }

  /** The sum of the edge costs along `p`. */
  function PathCost<N>(costs: Costs<N>, p: seq<N>): int
  {
    if |p| <= 1 then 0
    else PathCost(costs, p[..|p| - 1]) + EdgeCost(costs, p[|p| - 2], p[|p| - 1])
  }

  /** The sort on `f` followed by `pop(0)` takes some entry of least `f`;
      `sel` stands for that choice. */
  ghost predicate MinF<N(!new)>(sel: seq<Entry<N>> -> nat)
  {
    forall q: seq<Entry<N>> :: |q| > 0 ==>
      sel(q) < |q| && forall j :: 0 <= j < |q| ==> q[sel(q)].f <= q[j].f
  }

  /** The first least-f index of a non-empty open list, 0 of an empty one:
      the entry a stable sort by f followed by `pop(0)` takes. */
  function LeastF<N>(q: seq<Entry<N>>): (i: nat)
    ensures |q| > 0 ==> i < |q| && forall j :: 0 <= j < |q| ==> q[i].f <= q[j].f
    ensures |q| > 0 ==> forall j :: 0 <= j < i ==> q[i].f < q[j].f
    decreases |q|
  {
    if |q| <= 1 then 0
    else
      var t := q[1..];
      var k := LeastF(t);
      assert forall j :: 1 <= j < |q| ==> q[j] == t[j - 1];
      if t[k].f < q[0].f then k + 1 else 0
  }

  /** `MinF` can be met, so the results proved for every least-f selector
      are about some heappop. */
  lemma MinFExists<N(!new)>()
    ensures MinF<N>(LeastF)
  {
  }

  // ---------------------------------------------------------------------
  // The algorithm.
  // ---------------------------------------------------------------------

  /** The neighbour loop of an expansion of `cur` reached along `path` at cost
      `g`: one entry per neighbour outside `closed`, in neighbour order. */
  function Pushes<N>(costs: Costs<N>, heur: Heuristics<N>, closed: set<N>, cur: N, g: int, path: seq<N>, nbrs: seq<N>): (r: seq<Entry<N>>)
    ensures forall i :: 0 <= i < |r| ==> r[i].node in nbrs && r[i].node !in closed
    ensures forall i :: 0 <= i < |r| ==>
      && r[i].path == path + [r[i].node]
      && r[i].g == g + EdgeCost(costs, cur, r[i].node)
      && r[i].f == r[i].g + H(heur, r[i].node)
    ensures forall y :: y in nbrs && y !in closed ==> exists i :: 0 <= i < |r| && r[i].node == y
    decreases |nbrs|
  {
    if |nbrs| == 0 then []
    else
      var y := nbrs[0];
      var rest := Pushes(costs, heur, closed, cur, g, path, nbrs[1..]);
      assert nbrs == [y] + nbrs[1..];
      if y in closed then rest
      else
        var tg := g + EdgeCost(costs, cur, y);
        var r := [Entry(tg + H(heur, y), tg, y, path + [y])] + rest;
        assert forall i :: 1 <= i < |r| ==> r[i] == rest[i - 1];
        assert forall x :: x in nbrs[1..] && x !in closed ==> exists i :: 0 <= i < |r| && r[i].node == x by {
          forall x | x in nbrs[1..] && x !in closed
            ensures exists i :: 0 <= i < |r| && r[i].node == x
          {
            var i :| 0 <= i < |rest| && rest[i].node == x;
            assert r[i + 1].node == x;
          }
        }
        assert r[0].node == y;
        r
  }

  /** One pass of the while loop on the `k`-th entry: stop at the goal,
      otherwise close the node and push its neighbours. */
  function Pop<N>(g: Graph<N>, costs: Costs<N>, heur: Heuristics<N>, goal: N, s: State<N>, k: nat): (t: Turn<N>)
    requires k < |s.open|
    ensures t.Stop? <==> s.open[k].node == goal
    ensures t.Stop? ==> t.answer == Result(Some(s.open[k].path), Fin(s.open[k].g))
    ensures t.Continue? ==>
      && t.next.closed == s.closed + {s.open[k].node}
      && |s.open| - 1 <= |t.next.open|
      && (forall i :: 0 <= i < |s.open| - 1 ==> t.next.open[i] == Remove(s.open, k)[i])
      && forall i :: |s.open| - 1 <= i < |t.next.open| ==> t.next.open[i].node !in t.next.closed
  {
    var e := s.open[k];
    if e.node == goal then Stop(Result(Some(e.path), Fin(e.g)))
    else
      var closed := s.closed + {e.node};
      var pushed := Pushes(costs, heur, closed, e.node, e.g, e.path, Succ(g, e.node));
      var open := Remove(s.open, k) + pushed;
      assert forall i :: |s.open| - 1 <= i < |open| ==> open[i] == pushed[i - (|s.open| - 1)];
      Continue(State(open, closed))
  }

  function Run<N(!new)>(g: Graph<N>, costs: Costs<N>, heur: Heuristics<N>, start: N, goal: N, sel: seq<Entry<N>> -> nat, s: State<N>): Result<N>
    requires MinF(sel)
    requires Inv(g, costs, heur, start, goal, s)
    decreases |Universe(g, start) - s.closed|, CountIn(s.open, s.closed)
  {
    if |s.open| == 0 then Result(None, PosInf)
    else
      match Pop(g, costs, heur, goal, s, sel(s.open))
      case Stop(a) => a
      case Continue(t) =>
        PopPreservesInv(g, costs, heur, start, goal, s, sel(s.open));
        Run(g, costs, heur, start, goal, sel, t)
  }

  function Init<N>(heur: Heuristics<N>, start: N): State<N>
    requires start in heur
  {
    State([Entry(heur[start], 0, start, [start])], {})
  }

  /** a_star(graph, heuristics, start, goal, g_costs), for every choice of a
      least-`f` entry at each pop. */
  function AStarSearch<N(!new)>(g: Graph<N>, heur: Heuristics<N>, start: N, goal: N, costs: Costs<N>, sel: seq<Entry<N>> -> nat): (r: Result<N>)
    requires start in heur
    requires MinF(sel)
    ensures r.path.Some? ==>
      && PathFrom(g, start, r.path.value) && Last(r.path.value) == goal
      && r.cost == Fin(PathCost(costs, r.path.value))
    ensures r.path.None? ==> r.cost == PosInf
    ensures r.path.None? <==> !Reachable(g, start, goal)
  {
    InitInv(g, costs, heur, start, goal);
    RunCorrect(g, costs, heur, start, goal, sel, Init(heur, start));
    Run(g, costs, heur, start, goal, sel, Init(heur, start))
  }

  // ---------------------------------------------------------------------
  // Invariants.
  // ---------------------------------------------------------------------

  /** An entry's path runs from the start to its node, `g` is the path's
      cost and `f` adds the node's heuristic value. */
  ghost predicate EntryOk<N>(g: Graph<N>, costs: Costs<N>, heur: Heuristics<N>, start: N, e: Entry<N>)
  {
    && PathFrom(g, start, e.path) && Last(e.path) == e.node
    && e.g == PathCost(costs, e.path)
    && e.f == e.g + H(heur, e.node)
  }

  ghost predicate EntriesOk<N>(g: Graph<N>, costs: Costs<N>, heur: Heuristics<N>, start: N, open: seq<Entry<N>>)
  {
    forall i :: 0 <= i < |open| ==> EntryOk(g, costs, heur, start, open[i])
  }

  /** `y` is closed or waits on the open list. */
  ghost predicate Listed<N>(y: N, s: State<N>)
  {
    y in s.closed || exists i :: 0 <= i < |s.open| && s.open[i].node == y
  }

  /** The start and every successor of a closed node are listed. */
  ghost predicate Covered<N>(g: Graph<N>, start: N, s: State<N>)
  {
    Listed(start, s) && forall x, y :: x in s.closed && y in Succ(g, x) ==> Listed(y, s)
  }

  ghost predicate Inv<N(!new)>(g: Graph<N>, costs: Costs<N>, heur: Heuristics<N>, start: N, goal: N, s: State<N>)
  {
    && EntriesOk(g, costs, heur, start, s.open)
    && s.closed <= Universe(g, start)
    && goal !in s.closed
    && (forall x :: x in s.closed ==> Reachable(g, start, x))
    && Covered(g, start, s)
  }

  lemma InitInv<N(!new)>(g: Graph<N>, costs: Costs<N>, heur: Heuristics<N>, start: N, goal: N)
    requires start in heur
    ensures Inv(g, costs, heur, start, goal, Init(heur, start))
  {
    var s := Init(heur, start);
    assert EntryOk(g, costs, heur, start, s.open[0]);
    assert s.open[0].node == start;
  }

  // ---------------------------------------------------------------------
  // The termination measure: entries for closed nodes.
  // ---------------------------------------------------------------------

  /** The number of entries whose node is in `c`. */
  function CountIn<N>(q: seq<Entry<N>>, c: set<N>): nat
  {
    if |q| == 0 then 0
    else (if q[0].node in c then 1 else 0) + CountIn(q[1..], c)
  }

  lemma {:induction false} CountAppend<N>(a: seq<Entry<N>>, b: seq<Entry<N>>, c: set<N>)
    ensures CountIn(a + b, c) == CountIn(a, c) + CountIn(b, c)
    decreases |a|
  {
    if |a| > 0 {
      assert (a + b)[1..] == a[1..] + b;
      CountAppend(a[1..], b, c);
    } else {
      assert a + b == b;
    }
  }

  lemma {:induction false} CountNone<N>(q: seq<Entry<N>>, c: set<N>)
    requires forall i :: 0 <= i < |q| ==> q[i].node !in c
    ensures CountIn(q, c) == 0
    decreases |q|
  {
    if |q| > 0 {
      CountNone(q[1..], c);
    }
  }

  lemma CountRemove<N>(q: seq<Entry<N>>, k: nat, c: set<N>)
    requires k < |q|
    ensures CountIn(q, c) == CountIn(Remove(q, k), c) + (if q[k].node in c then 1 else 0)
  {
    assert q == q[..k] + ([q[k]] + q[k + 1..]);
    CountAppend(q[..k], [q[k]] + q[k + 1..], c);
    CountAppend([q[k]], q[k + 1..], c);
    CountAppend(q[..k], q[k + 1..], c);
    assert ([q[k]] + q[k + 1..])[1..] == q[k + 1..];
  }

  /** The loop's measure decreases: a pop of an open node closes it, and a pop
      of a node closed earlier pushes only entries for open nodes. */
  ghost predicate Smaller<N>(g: Graph<N>, start: N, t: State<N>, s: State<N>)
  {
    || |Universe(g, start) - t.closed| < |Universe(g, start) - s.closed|
    || (t.closed == s.closed && CountIn(t.open, t.closed) < CountIn(s.open, s.closed))
  }

  // ---------------------------------------------------------------------
  // One pass of the loop.
  // ---------------------------------------------------------------------

  lemma PopPreservesInv<N(!new)>(g: Graph<N>, costs: Costs<N>, heur: Heuristics<N>, start: N, goal: N, s: State<N>, k: nat)
    requires Inv(g, costs, heur, start, goal, s) && k < |s.open|
    requires Pop(g, costs, heur, goal, s, k).Continue?
    ensures Inv(g, costs, heur, start, goal, Pop(g, costs, heur, goal, s, k).next)
    ensures Smaller(g, start, Pop(g, costs, heur, goal, s, k).next, s)
  {
    var e := s.open[k];
    var t := Pop(g, costs, heur, goal, s, k).next;
    var pushed := Pushes(costs, heur, t.closed, e.node, e.g, e.path, Succ(g, e.node));
    assert t.open == Remove(s.open, k) + pushed;
    assert EntryOk(g, costs, heur, start, e);
    PathEndReachable(g, start, e.path);
    PathInNodes(g, start, e.path);
    EntriesAfter(g, costs, heur, start, s.open, k, pushed);
    CoveredAfter(g, start, s, k, t, pushed);
    MeasureAfter(g, start, s, k, t, pushed);
  }

  /** The measure for a pass that closes `s.open[k].node` and appends
      `pushed`, none of whose nodes is closed. */
  lemma MeasureAfter<N>(g: Graph<N>, start: N, s: State<N>, k: nat, t: State<N>, pushed: seq<Entry<N>>)
    requires k < |s.open| && s.open[k].node in Universe(g, start) && s.closed <= Universe(g, start)
    requires t.closed == s.closed + {s.open[k].node} && t.open == Remove(s.open, k) + pushed
    requires forall i :: 0 <= i < |pushed| ==> pushed[i].node !in t.closed
    ensures Smaller(g, start, t, s)
  {
    if s.open[k].node !in s.closed {
      DiffShrinks(Universe(g, start), s.closed, t.closed);
    } else {
      RepeatShrinks(s, k, t, pushed);
    }
  }

  /** Popping a node closed earlier removes one entry for a closed node and
      adds none. */
  lemma RepeatShrinks<N>(s: State<N>, k: nat, t: State<N>, pushed: seq<Entry<N>>)
    requires k < |s.open| && s.open[k].node in s.closed
    requires t.closed == s.closed && t.open == Remove(s.open, k) + pushed
    requires forall i :: 0 <= i < |pushed| ==> pushed[i].node !in t.closed
    ensures CountIn(t.open, t.closed) < CountIn(s.open, s.closed)
  {
    CountRemove(s.open, k, t.closed);
    CountNone(pushed, t.closed);
    CountAppend(Remove(s.open, k), pushed, t.closed);
  }

  /** The open-list entries after an expansion are well formed. */
  lemma EntriesAfter<N>(g: Graph<N>, costs: Costs<N>, heur: Heuristics<N>, start: N, open: seq<Entry<N>>, k: nat, pushed: seq<Entry<N>>)
    requires k < |open| && EntriesOk(g, costs, heur, start, open)
    requires forall i :: 0 <= i < |pushed| ==>
      && pushed[i].node in Succ(g, open[k].node)
      && pushed[i].path == open[k].path + [pushed[i].node]
      && pushed[i].g == open[k].g + EdgeCost(costs, open[k].node, pushed[i].node)
      && pushed[i].f == pushed[i].g + H(heur, pushed[i].node)
    ensures EntriesOk(g, costs, heur, start, Remove(open, k) + pushed)
  {
    var e := open[k];
    assert EntryOk(g, costs, heur, start, e);
    var q := Remove(open, k) + pushed;
    forall i | 0 <= i < |q|
      ensures EntryOk(g, costs, heur, start, q[i])
    {
      if i < |open| - 1 {
        assert q[i] == open[if i < k then i else i + 1];
      } else {
        var y := q[i];
        assert y == pushed[i - (|open| - 1)];
        PathExtend(g, start, e.path, y.node);
        assert y.path[..|y.path| - 1] == e.path;
      }
    }
  }

  /** After an expansion the start and every successor of a closed node are
      still listed. */
  lemma CoveredAfter<N>(g: Graph<N>, start: N, s: State<N>, k: nat, t: State<N>, pushed: seq<Entry<N>>)
    requires k < |s.open| && Covered(g, start, s)
    requires t.closed == s.closed + {s.open[k].node} && t.open == Remove(s.open, k) + pushed
    requires forall y :: y in Succ(g, s.open[k].node) && y !in t.closed ==>
      exists i :: 0 <= i < |pushed| && pushed[i].node == y
    ensures Covered(g, start, t)
  {
    var rest := Remove(s.open, k);
    forall y | Listed(y, s)
      ensures Listed(y, t)
    {
      if y !in t.closed {
        var i :| 0 <= i < |s.open| && s.open[i].node == y;
        assert i != k;
        assert t.open[if i < k then i else i - 1] == s.open[i];
      }
    }
    forall x, y | x in t.closed && y in Succ(g, x)
      ensures Listed(y, t)
    {
      if y !in t.closed && x == s.open[k].node {
        var i :| 0 <= i < |pushed| && pushed[i].node == y;
        assert t.open[|rest| + i] == pushed[i];
      }
    }
  }

  // ---------------------------------------------------------------------
  // What the loop returns.
  // ---------------------------------------------------------------------

  /** What `a_star` promises about its result. */
  ghost predicate Sound<N(!new)>(g: Graph<N>, costs: Costs<N>, start: N, goal: N, r: Result<N>)
  {
    && (r.path.Some? ==>
          && PathFrom(g, start, r.path.value) && Last(r.path.value) == goal
          && r.cost == Fin(PathCost(costs, r.path.value)))
    && (r.path.None? ==> r.cost == PosInf)
    && (r.path.None? <==> !Reachable(g, start, goal))
  }

  lemma {:induction false} RunCorrect<N(!new)>(g: Graph<N>, costs: Costs<N>, heur: Heuristics<N>, start: N, goal: N, sel: seq<Entry<N>> -> nat, s: State<N>)
    requires MinF(sel)
    requires Inv(g, costs, heur, start, goal, s)
    ensures Sound(g, costs, start, goal, Run(g, costs, heur, start, goal, sel, s))
    decreases |Universe(g, start) - s.closed|, CountIn(s.open, s.closed)
  {
    if |s.open| == 0 {
      assert Run(g, costs, heur, start, goal, sel, s) == Result(None, PosInf);
      EmptySound(g, costs, heur, start, goal, s);
    } else {
      var k := sel(s.open);
      var turn := Pop(g, costs, heur, goal, s, k);
      if turn.Stop? {
        assert Run(g, costs, heur, start, goal, sel, s) == turn.answer;
        assert EntryOk(g, costs, heur, start, s.open[k]);
        PathEndReachable(g, start, s.open[k].path);
      } else {
        PopPreservesInv(g, costs, heur, start, goal, s, k);
        assert Run(g, costs, heur, start, goal, sel, s) == Run(g, costs, heur, start, goal, sel, turn.next);
        RunCorrect(g, costs, heur, start, goal, sel, turn.next);
      }
    }
  }

  /** With the open list empty the closed set holds the start and is closed
      under successors, so the goal, never closed, is unreachable. */
  lemma EmptySound<N(!new)>(g: Graph<N>, costs: Costs<N>, heur: Heuristics<N>, start: N, goal: N, s: State<N>)
    requires Inv(g, costs, heur, start, goal, s) && |s.open| == 0
    ensures Sound(g, costs, start, goal, Result(None, PosInf))
  {
    assert Listed(start, s);
    forall x, y | x in s.closed && y in Succ(g, x)
      ensures y in s.closed
    {
      assert Listed(y, s);
    }
    if Reachable(g, start, goal) {
      var p :| PathFrom(g, start, p) && Last(p) == goal;
      ClosedSetHoldsReachable(g, start, s.closed, p);
    }
  }
}

=== FILE: alpha_beta.dfy ===
/** Minimax with alpha-beta pruning over a game tree whose leaves are numbers
    (adversarial/alpha_beta_pruning.py). The source keeps the tree as a dict
    from node names to child lists; here the tree is the value itself, so a
    missing name (a KeyError in the source) and a cyclic dict cannot occur. */
module AlphaBeta {
  import opened ExtInt

  datatype Tree = Leaf(v: int) | Node(kids: seq<Tree>)

  /** The running state of one node's child loop: the best value so far and
      the current window. */
  datatype Window = Window(value: EInt, alpha: EInt, beta: EInt)

  function Pick(maximizing: bool, a: EInt, b: EInt): EInt
  {
    if maximizing then Max(a, b) else Min(a, b)
  }

  /** The loop of a node ends early once its window closes. */
  predicate Cut(w: Window)
  {
    Le(w.beta, w.alpha)
  }

  // ---------------------------------------------------------------------
  // Plain minimax, the reference value.
  // ---------------------------------------------------------------------

  function Minimax(t: Tree, maximizing: bool): EInt
    decreases t, 1
  {
    match t
    case Leaf(v) => Fin(v)
    case Node(kids) => Best(t, |kids|, maximizing)
  }

  /** Minimax value of a node restricted to its first `i` children. */
  function Best(t: Tree, i: nat, maximizing: bool): EInt
    requires t.Node? && i <= |t.kids|
    decreases t, 0, i
  {
    if i == 0 then (if maximizing then NegInf else PosInf)
    else Pick(maximizing, Best(t, i - 1, maximizing), Minimax(t.kids[i - 1], !maximizing))
  }

  // ---------------------------------------------------------------------
  // alphabeta, as written: a MAX loop and a MIN loop, each with a cut-off.
  // ---------------------------------------------------------------------

  function AlphaBeta(t: Tree, maximizing: bool, alpha: EInt, beta: EInt): EInt
    decreases t, 1
  {
    match t
    case Leaf(v) => Fin(v)
    case Node(kids) =>
      if maximizing then MaxLoop(t, 0, NegInf, alpha, beta)
      else MinLoop(t, 0, PosInf, alpha, beta)
  }

  /** The MAX branch's `for child in graph[node]` loop from child `i` on. */
  function MaxLoop(t: Tree, i: nat, value: EInt, alpha: EInt, beta: EInt): EInt
    requires t.Node? && i <= |t.kids|
    decreases t, 0, |t.kids| - i
  {
    if i == |t.kids| then value
    else
      var value' := Max(value, AlphaBeta(t.kids[i], false, alpha, beta));
      var alpha' := Max(alpha, value');
      if Le(beta, alpha') then value'
      else MaxLoop(t, i + 1, value', alpha', beta)
  }

  /** The MIN branch's loop from child `i` on. */
  function MinLoop(t: Tree, i: nat, value: EInt, alpha: EInt, beta: EInt): EInt
    requires t.Node? && i <= |t.kids|
    decreases t, 0, |t.kids| - i
  {
    if i == |t.kids| then value
    else
      var value' := Min(value, AlphaBeta(t.kids[i], true, alpha, beta));
      var beta' := Min(beta, value');
      if Le(beta', alpha) then value'
      else MinLoop(t, i + 1, value', alpha, beta')
  }

  // ---------------------------------------------------------------------
  // Simple cases.
  // ---------------------------------------------------------------------

  /** A numeric leaf is its own value, whatever the flag and the bounds. */
  lemma LeafIsItsValue(v: int, maximizing: bool, alpha: EInt, beta: EInt)
    ensures AlphaBeta(Leaf(v), maximizing, alpha, beta) == Fin(v)
    ensures Minimax(Leaf(v), maximizing) == Fin(v)
  {
  }

  /** A MAX node without children is -inf and a MIN node without children +inf. */
  lemma EmptyNode(alpha: EInt, beta: EInt)
    ensures AlphaBeta(Node([]), true, alpha, beta) == NegInf
    ensures AlphaBeta(Node([]), false, alpha, beta) == PosInf
  {
  }

  /** The flag alternates: the only child of a MAX node is evaluated as a MIN
      node with the same window, and vice versa. */
  lemma {:induction false} OnlyChildFlipsFlag(c: Tree, alpha: EInt, beta: EInt)
    ensures AlphaBeta(Node([c]), true, alpha, beta) == AlphaBeta(c, false, alpha, beta)
    ensures AlphaBeta(Node([c]), false, alpha, beta) == AlphaBeta(c, true, alpha, beta)
  {
    var t := Node([c]);
    assert t.kids[0] == c;
    var rMin := AlphaBeta(c, false, alpha, beta);
    assert Max(NegInf, rMin) == rMin;
    assert MaxLoop(t, 1, rMin, Max(alpha, rMin), beta) == rMin;
    var rMax := AlphaBeta(c, true, alpha, beta);
    assert Min(PosInf, rMax) == rMax;
    assert MinLoop(t, 1, rMax, alpha, Min(beta, rMax)) == rMax;
  }

  // ---------------------------------------------------------------------
  // Fail-soft window property and equality with minimax at the root.
  // ---------------------------------------------------------------------

  /** The fail-soft relation between a returned value `r`, the true minimax
      value `v` and the window (alpha, beta) the call was made with. */
  ghost predicate FailSoft(r: EInt, v: EInt, alpha: EInt, beta: EInt)
  {
    && (Le(r, alpha) ==> Le(v, r))
    && (Le(beta, r) ==> Le(r, v))
    && (Lt(alpha, r) && Lt(r, beta) ==> r == v)
  }

  lemma {:induction false} BestMonotone(t: Tree, i: nat, j: nat)
    requires t.Node? && i <= j <= |t.kids|
    ensures Le(Best(t, i, true), Best(t, j, true))
    ensures Le(Best(t, j, false), Best(t, i, false))
    decreases j - i
  {
    LeTotalOrder(Best(t, i, true), Best(t, i, true), Best(t, i, true));
    if i < j {
      BestMonotone(t, i, j - 1);
      LeTotalOrder(Best(t, i, true), Best(t, j - 1, true), Best(t, j, true));
      LeTotalOrder(Best(t, j, false), Best(t, j - 1, false), Best(t, i, false));
    }
  }

  /** For any window with alpha < beta, alphabeta is fail-soft with respect to
      minimax: a result at or below alpha bounds minimax from above, a result
      at or above beta bounds it from below, and a result strictly inside the
      window is exact. */
  lemma {:induction false} FailSoftWindow(t: Tree, maximizing: bool, alpha: EInt, beta: EInt)
    requires Lt(alpha, beta)
    ensures FailSoft(AlphaBeta(t, maximizing, alpha, beta), Minimax(t, maximizing), alpha, beta)
    decreases t, 1
  {
    match t
    case Leaf(v) =>
      LeTotalOrder(Fin(v), Fin(v), Fin(v));
    case Node(kids) =>
      if maximizing {
        MaxLoopWindow(t, 0, NegInf, alpha, alpha, beta);
      } else {
        MinLoopWindow(t, 0, PosInf, alpha, beta, beta);
      }
  }

  /** One MAX-loop step on extended integers: `r` is the child's alphabeta
      value, `v` its minimax value and `b` the minimax value of the children
      before it. */
  lemma MaxStep(value: EInt, alpha: EInt, alpha0: EInt, beta: EInt, r: EInt, v: EInt, b: EInt)
    requires alpha == Max(alpha0, value) && Lt(alpha, beta)
    requires Le(value, alpha0) ==> Le(b, value)
    requires Lt(alpha0, value) ==> value == b
    requires FailSoft(r, v, alpha, beta)
    ensures var value' := Max(value, r); var alpha' := Max(alpha, value');
      && (Le(beta, alpha') ==> value' == r && Le(beta, r) && Le(r, v) && Lt(alpha0, r))
      && (!Le(beta, alpha') ==>
            && alpha' == Max(alpha0, value') && Lt(alpha', beta)
            && (Le(value', alpha0) ==> Le(Max(b, v), value'))
            && (Lt(alpha0, value') ==> value' == Max(b, v)))
  {
    LeTotalOrder(value, alpha, beta);
    LeTotalOrder(alpha0, alpha, beta);
    LeTotalOrder(r, alpha, beta);
    LeTotalOrder(value, r, alpha);
    LeTotalOrder(v, r, alpha);
    LeTotalOrder(alpha0, value, r);
    LeTotalOrder(b, value, r);
    LeTotalOrder(v, r, value);
    LeTotalOrder(alpha0, beta, r);
  }

  /** The mirror image of `MaxStep` for a MIN loop. */
  lemma MinStep(value: EInt, alpha: EInt, beta: EInt, beta0: EInt, r: EInt, v: EInt, b: EInt)
    requires beta == Min(beta0, value) && Lt(alpha, beta)
    requires Le(beta0, value) ==> Le(value, b)
    requires Lt(value, beta0) ==> value == b
    requires FailSoft(r, v, alpha, beta)
    ensures var value' := Min(value, r); var beta' := Min(beta, value');
      && (Le(beta', alpha) ==> value' == r && Le(r, alpha) && Le(v, r) && Lt(r, beta0))
      && (!Le(beta', alpha) ==>
            && beta' == Min(beta0, value') && Lt(alpha, beta')
            && (Le(beta0, value') ==> Le(value', Min(b, v)))
            && (Lt(value', beta0) ==> value' == Min(b, v)))
  {
    LeTotalOrder(alpha, beta, value);
    LeTotalOrder(alpha, beta, beta0);
    LeTotalOrder(alpha, beta, r);
    LeTotalOrder(beta, r, value);
    LeTotalOrder(beta, r, v);
    LeTotalOrder(r, value, beta0);
    LeTotalOrder(r, value, b);
    LeTotalOrder(value, r, v);
    LeTotalOrder(r, alpha, beta0);
  }

  lemma {:induction false} MaxLoopWindow(t: Tree, i: nat, value: EInt, alpha: EInt, alpha0: EInt, beta: EInt)
    requires t.Node? && i <= |t.kids|
    requires alpha == Max(alpha0, value) && Lt(alpha, beta)
    requires Le(value, alpha0) ==> Le(Best(t, i, true), value)
    requires Lt(alpha0, value) ==> value == Best(t, i, true)
    ensures FailSoft(MaxLoop(t, i, value, alpha, beta), Best(t, |t.kids|, true), alpha0, beta)
    decreases t, 0, |t.kids| - i
  {
    if i == |t.kids| {
      LeTotalOrder(value, alpha, beta);
    } else {
      var c := t.kids[i];
      var r := AlphaBeta(c, false, alpha, beta);
      var v := Minimax(c, false);
      FailSoftWindow(c, false, alpha, beta);
      MaxStep(value, alpha, alpha0, beta, r, v, Best(t, i, true));
      var value' := Max(value, r);
      var alpha' := Max(alpha, value');
      assert Best(t, i + 1, true) == Max(Best(t, i, true), v);
      if Le(beta, alpha') {
        BestMonotone(t, i + 1, |t.kids|);
        LeTotalOrder(r, v, Best(t, i + 1, true));
        LeTotalOrder(r, Best(t, i + 1, true), Best(t, |t.kids|, true));
        LeTotalOrder(r, alpha0, r);
      } else {
        MaxLoopWindow(t, i + 1, value', alpha', alpha0, beta);
      }
    }
  }

  lemma {:induction false} MinLoopWindow(t: Tree, i: nat, value: EInt, alpha: EInt, beta: EInt, beta0: EInt)
    requires t.Node? && i <= |t.kids|
    requires beta == Min(beta0, value) && Lt(alpha, beta)
    requires Le(beta0, value) ==> Le(value, Best(t, i, false))
    requires Lt(value, beta0) ==> value == Best(t, i, false)
    ensures FailSoft(MinLoop(t, i, value, alpha, beta), Best(t, |t.kids|, false), alpha, beta0)
    decreases t, 0, |t.kids| - i
  {
    if i == |t.kids| {
      LeTotalOrder(alpha, beta, value);
    } else {
      var c := t.kids[i];
      var r := AlphaBeta(c, true, alpha, beta);
      var v := Minimax(c, true);
      FailSoftWindow(c, true, alpha, beta);
      MinStep(value, alpha, beta, beta0, r, v, Best(t, i, false));
      var value' := Min(value, r);
      var beta' := Min(beta, value');
      assert Best(t, i + 1, false) == Min(Best(t, i, false), v);
      if Le(beta', alpha) {
        BestMonotone(t, i + 1, |t.kids|);
        LeTotalOrder(Best(t, i + 1, false), v, r);
        LeTotalOrder(Best(t, |t.kids|, false), Best(t, i + 1, false), r);
        LeTotalOrder(beta0, r, r);
      } else {
        MinLoopWindow(t, i + 1, value', alpha, beta', beta0);
      }
    }
  }

  /** Called with the full window (-inf, +inf), alphabeta returns exactly the
      minimax value. */
  lemma RootIsMinimax(t: Tree, maximizing: bool)
    ensures AlphaBeta(t, maximizing, NegInf, PosInf) == Minimax(t, maximizing)
  {
    FailSoftWindow(t, maximizing, NegInf, PosInf);
    var r := AlphaBeta(t, maximizing, NegInf, PosInf);
    var v := Minimax(t, maximizing);
    LeTotalOrder(r, v, r);
  }

  /** The tree of adversarial/__init__.py, A -> [B, C, D] with B -> [9, F],
      F -> [10, 12], C -> [2, H, 7], H -> [11, 14], D -> [15, K] and
      K -> [17, 6, 3]. */
  const FixtureTree: Tree :=
    Node([Node([Leaf(9), Node([Leaf(10), Leaf(12)])]),
          Node([Leaf(2), Node([Leaf(11), Leaf(14)]), Leaf(7)]),
          Node([Leaf(15), Node([Leaf(17), Leaf(6), Leaf(3)])])])

  /** From A as MAX the three MIN children are worth 9, 2 and 15, so the
      call `alphabeta(tree, 'A')` returns 15. */
  lemma FixtureValue()
    ensures AlphaBeta(FixtureTree, true, NegInf, PosInf) == Fin(15)
  {
    var t := FixtureTree;
    assert Minimax(t.kids[0], false) == Fin(9);
    assert Minimax(t.kids[1], false) == Fin(2);
    assert Minimax(t.kids[2], false) == Fin(15);
    RootIsMinimax(t, true);
  }

  // ---------------------------------------------------------------------
  // Which children are evaluated: a prefix ending at the first cut-off.
  // ---------------------------------------------------------------------

  /** Reference semantics without the `break`: the window of a node after its
      first `i` children have each been evaluated in list order. */
  function RunState(t: Tree, maximizing: bool, i: nat, alpha: EInt, beta: EInt): Window
    requires t.Node? && i <= |t.kids|
    decreases i
  {
    if i == 0 then Window(if maximizing then NegInf else PosInf, alpha, beta)
    else
      var w := RunState(t, maximizing, i - 1, alpha, beta);
      var r := AlphaBeta(t.kids[i - 1], !maximizing, w.alpha, w.beta);
      if maximizing then
        var value := Max(w.value, r);
        Window(value, Max(w.alpha, value), w.beta)
      else
        var value := Min(w.value, r);
        Window(value, w.alpha, Min(w.beta, value))
  }

  /** The number of children evaluated when the loop starts at child `i`: the
      first count after which the window is closed, or all of them. */
  function StopFrom(t: Tree, maximizing: bool, i: nat, alpha: EInt, beta: EInt): (k: nat)
    requires t.Node? && i <= |t.kids|
    ensures i <= k <= |t.kids|
    ensures i < |t.kids| ==> i < k
    ensures forall j :: i < j < k ==> !Cut(RunState(t, maximizing, j, alpha, beta))
    ensures k < |t.kids| ==> Cut(RunState(t, maximizing, k, alpha, beta))
    decreases |t.kids| - i
  {
    if i == |t.kids| then i
    else if Cut(RunState(t, maximizing, i + 1, alpha, beta)) then i + 1
    else StopFrom(t, maximizing, i + 1, alpha, beta)
  }

  /** Number of children a node's loop evaluates. */
  function Evaluated(t: Tree, maximizing: bool, alpha: EInt, beta: EInt): nat
    requires t.Node?
  {
    StopFrom(t, maximizing, 0, alpha, beta)
  }

  lemma {:induction false} RunStateKeepsOtherBound(t: Tree, maximizing: bool, i: nat, alpha: EInt, beta: EInt)
    requires t.Node? && i <= |t.kids|
    ensures maximizing ==> RunState(t, maximizing, i, alpha, beta).beta == beta
    ensures !maximizing ==> RunState(t, maximizing, i, alpha, beta).alpha == alpha
    decreases i
  {
    if i > 0 {
      RunStateKeepsOtherBound(t, maximizing, i - 1, alpha, beta);
    }
  }

  lemma {:induction false} MaxLoopIsTruncatedRun(t: Tree, i: nat, alpha: EInt, beta: EInt)
    requires t.Node? && i <= |t.kids|
    ensures var w := RunState(t, true, i, alpha, beta);
      MaxLoop(t, i, w.value, w.alpha, beta)
      == RunState(t, true, StopFrom(t, true, i, alpha, beta), alpha, beta).value
    decreases |t.kids| - i
  {
    RunStateKeepsOtherBound(t, true, i, alpha, beta);
    if i < |t.kids| && !Cut(RunState(t, true, i + 1, alpha, beta)) {
      MaxLoopIsTruncatedRun(t, i + 1, alpha, beta);
    }
  }

  lemma {:induction false} MinLoopIsTruncatedRun(t: Tree, i: nat, alpha: EInt, beta: EInt)
    requires t.Node? && i <= |t.kids|
    ensures var w := RunState(t, false, i, alpha, beta);
      MinLoop(t, i, w.value, alpha, w.beta)
      == RunState(t, false, StopFrom(t, false, i, alpha, beta), alpha, beta).value
    decreases |t.kids| - i
  {
    RunStateKeepsOtherBound(t, false, i, alpha, beta);
    if i < |t.kids| && !Cut(RunState(t, false, i + 1, alpha, beta)) {
      MinLoopIsTruncatedRun(t, i + 1, alpha, beta);
    }
  }

  /** The children alphabeta evaluates are a prefix of the child list, taken
      in list order; the loop stops right after the first child that closes
      the window; and the node's value is the running max (MAX node) or min
      (MIN node) over exactly those evaluated children. */
  lemma EvaluatedPrefix(t: Tree, maximizing: bool, alpha: EInt, beta: EInt)
    requires t.Node?
    ensures var k := Evaluated(t, maximizing, alpha, beta);
      && k <= |t.kids|
      && (|t.kids| > 0 ==> k > 0)
      && (forall j :: 0 < j < k ==> !Cut(RunState(t, maximizing, j, alpha, beta)))
      && (k < |t.kids| ==> Cut(RunState(t, maximizing, k, alpha, beta)))
      && AlphaBeta(t, maximizing, alpha, beta) == RunState(t, maximizing, k, alpha, beta).value
  {
    if maximizing {
      MaxLoopIsTruncatedRun(t, 0, alpha, beta);
    } else {
      MinLoopIsTruncatedRun(t, 0, alpha, beta);
    }
  }

  // ---------------------------------------------------------------------
  // Pruning never evaluates more leaves than the tree has.
  // ---------------------------------------------------------------------

  function Leaves(t: Tree): nat
    decreases t, 1
  {
    match t
    case Leaf(_) => 1
    case Node(kids) => LeavesFrom(t, 0)
  }

  /** Leaves under children `i..` of a node. */
  function LeavesFrom(t: Tree, i: nat): nat
    requires t.Node? && i <= |t.kids|
    decreases t, 0, |t.kids| - i
  {
    if i == |t.kids| then 0 else Leaves(t.kids[i]) + LeavesFrom(t, i + 1)
  }

  /** Number of leaves alphabeta evaluates (each evaluated child contributes
      the leaves its own call evaluates, with the window it was called with). */
  function LeavesEvaluated(t: Tree, maximizing: bool, alpha: EInt, beta: EInt): nat
    decreases t, 1
  {
    match t
    case Leaf(_) => 1
    case Node(kids) => LeavesEvaluatedFrom(t, maximizing, 0, Evaluated(t, maximizing, alpha, beta), alpha, beta)
  }

  function LeavesEvaluatedFrom(t: Tree, maximizing: bool, i: nat, k: nat, alpha: EInt, beta: EInt): nat
    requires t.Node? && i <= k <= |t.kids|
    decreases t, 0, k - i
  {
    if i == k then 0
    else
      var w := RunState(t, maximizing, i, alpha, beta);
      LeavesEvaluated(t.kids[i], !maximizing, w.alpha, w.beta)
        + LeavesEvaluatedFrom(t, maximizing, i + 1, k, alpha, beta)
  }

  lemma {:induction false} LeavesEvaluatedBounded(t: Tree, maximizing: bool, alpha: EInt, beta: EInt)
    ensures LeavesEvaluated(t, maximizing, alpha, beta) <= Leaves(t)
    decreases t, 1
  {
    match t
    case Leaf(_) =>
    case Node(kids) =>
      LeavesEvaluatedFromBounded(t, maximizing, 0, Evaluated(t, maximizing, alpha, beta), alpha, beta);
  }

  lemma {:induction false} LeavesEvaluatedFromBounded(t: Tree, maximizing: bool, i: nat, k: nat, alpha: EInt, beta: EInt)
    requires t.Node? && i <= k <= |t.kids|
    ensures LeavesEvaluatedFrom(t, maximizing, i, k, alpha, beta) <= LeavesFrom(t, i)
    decreases t, 0, k - i
  {
    if i < k {
      var w := RunState(t, maximizing, i, alpha, beta);
      LeavesEvaluatedBounded(t.kids[i], !maximizing, w.alpha, w.beta);
      LeavesEvaluatedFromBounded(t, maximizing, i + 1, k, alpha, beta);
    }
  }
}

=== FILE: backtrack.dfy ===
/** `backtrack` (uninformed/backtrack.py): depth-first search driven by three
    lists kept with the most recent node at the front, SL (the current path,
    reversed), NSL (nodes still to try, the path's nodes among them) and DE
    (dead ends), and the current state CS. */
module Backtrack {
  import opened Graphs
  import OpenClosed

  /** The loop's variables SL, NSL, DE and CS. */
  datatype Lists<N> = Lists(sl: seq<N>, nsl: seq<N>, de: seq<N>, cs: N)

  /** The returned value: the string "FAIL", or SL. */
  datatype Verdict<N> = Fail | Found(sl: seq<N>)

  /** Every node on one of the three lists. */
  function All<N>(s: Lists<N>): set<N>
  {
    Elems(s.sl) + Elems(s.nsl) + Elems(s.de)
  }

  function Reverse<T>(s: seq<T>): (r: seq<T>)
    ensures |r| == |s| && forall i :: 0 <= i < |s| ==> r[i] == s[|s| - 1 - i]
  {
    if |s| == 0 then [] else Reverse(s[1..]) + [s[0]]
  }

  // ---------------------------------------------------------------------
  // The shape of SL inside NSL.
  // ---------------------------------------------------------------------

  /** NSL is SL with, after each path node but the last, the children of the
      next (older) path node still waiting to be tried. */
  ghost predicate Frames<N>(g: Graph<N>, sl: seq<N>, nsl: seq<N>)
    decreases |nsl|, 0
  {
    if |sl| == 0 then nsl == []
    else |nsl| > 0 && nsl[0] == sl[0] && Pending(g, sl[1..], nsl[1..])
  }

  /** NSL starts with waiting children of SL's first node, each different
      from it, and continues as in `Frames`. */
  ghost predicate Pending<N>(g: Graph<N>, sl: seq<N>, nsl: seq<N>)
    decreases |nsl|, 1
  {
    || Frames(g, sl, nsl)
    || (&& |sl| > 0 && |nsl| > 0 && nsl[0] != sl[0] && nsl[0] in Succ(g, sl[0])
        && Pending(g, sl, nsl[1..]))
  }

  /** Consecutive SL entries are edges from the later one to the earlier one. */
  ghost predicate ChainBack<N>(g: Graph<N>, sl: seq<N>)
  {
    forall i :: 0 <= i < |sl| - 1 ==> sl[i] in Succ(g, sl[i + 1])
  }

  // ---------------------------------------------------------------------
  // The algorithm.
  // ---------------------------------------------------------------------

  /** The `children` list: the successors of CS on none of SL, NSL and DE. */
  function Kids<N>(g: Graph<N>, s: Lists<N>): seq<N>
  {
    OpenClosed.Children(Succ(g, s.cs), s.nsl, s.sl + s.de)
  }

  /** The inner `while SL and CS == SL[0]` loop: move dead ends from the
      front of SL and NSL to the front of DE. */
  function Unwind<N>(g: Graph<N>, s: Lists<N>): Lists<N>
    requires Pending(g, s.sl, s.nsl) && (|s.nsl| > 0 ==> s.cs == s.nsl[0])
    decreases |s.sl|
  {
    if |s.sl| > 0 && s.cs == s.sl[0] then
      PendingHead(g, s.sl, s.nsl);
      var nsl := s.nsl[1..];
      Unwind(g, Lists(s.sl[1..], nsl, [s.cs] + s.de, if |nsl| > 0 then nsl[0] else s.cs))
    else s
  }

  /** How many nodes `Unwind` moves to DE. */
  ghost function Depth<N>(g: Graph<N>, s: Lists<N>): nat
    requires Pending(g, s.sl, s.nsl) && (|s.nsl| > 0 ==> s.cs == s.nsl[0])
    decreases |s.sl|
  {
    if |s.sl| > 0 && s.cs == s.sl[0] then
      PendingHead(g, s.sl, s.nsl);
      var nsl := s.nsl[1..];
      1 + Depth(g, Lists(s.sl[1..], nsl, [s.cs] + s.de, if |nsl| > 0 then nsl[0] else s.cs))
    else 0
  }

  /** One pass of the outer loop after the goal test: push the children, or
      back up past the dead ends and put the next waiting node on SL. */
  function Expand<N>(g: Graph<N>, s: Lists<N>): Lists<N>
    requires Frames(g, s.sl, s.nsl) && |s.sl| > 0 && s.cs == s.sl[0]
  {
    var kids := Kids(g, s);
    if |kids| == 0 then
      var u := Unwind(g, s);
      if |u.nsl| > 0 then Lists([u.cs] + u.sl, u.nsl, u.de, u.cs) else u
    else Lists([kids[0]] + s.sl, kids + s.nsl, s.de, kids[0])
  }

  function Run<N(!new)>(g: Graph<N>, start: N, goal: N, s: Lists<N>): Verdict<N>
    requires Inv(g, start, goal, s)
    decreases |Universe(g, start) - All(s)|, |s.nsl|
  {
    if |s.nsl| == 0 then Fail
    else if s.cs == goal then Found(s.sl)
    else
      ExpandInv(g, start, goal, s);
      Run(g, start, goal, Expand(g, s))
  }

  /** The start used: the given one, or else the graph's first key. */
  function StartOf<N>(keys: seq<N>, start: Option<N>): N
    requires |keys| > 0
  {
    if start.Some? then start.value else keys[0]
  }

  function Init<N>(start: N): Lists<N>
  {
    Lists([start], [start], [], start)
  }

  /** backtrack(graph, goal, start), with `keys` the graph's keys in
      insertion order and None for an omitted start. */
  function BacktrackSearch<N(!new)>(g: Graph<N>, keys: seq<N>, goal: N, start: Option<N>): (r: Verdict<N>)
    requires Elems(keys) == g.Keys
    ensures |keys| == 0 ==> r == Fail
    ensures r.Found? ==>
      var s := StartOf(keys, start);
      |r.sl| > 0 && r.sl[0] == goal && PathFrom(g, s, Reverse(r.sl)) && Last(Reverse(r.sl)) == goal
    ensures |keys| > 0 ==> (r.Fail? <==> !Reachable(g, StartOf(keys, start), goal))
  {
    if |keys| == 0 then Fail
    else
      var s := StartOf(keys, start);
      InitInv(g, s, goal);
      RunCorrect(g, s, goal, Init(s));
      Run(g, s, goal, Init(s))
  }

  // ---------------------------------------------------------------------
  // Invariants.
  // ---------------------------------------------------------------------

  /** Nodes whose successors have all been put on a list: the dead ends and
      the path below CS. */
  function Done<N>(s: Lists<N>): set<N>
  {
    Elems(s.de) + (if |s.sl| > 0 then Elems(s.sl[1..]) else {})
  }

  /** SL sits inside NSL as `Frames` says, starts with CS, and read
      backwards is a path from the start. */
  ghost predicate ShapeOk<N>(g: Graph<N>, start: N, s: Lists<N>)
  {
    && Frames(g, s.sl, s.nsl)
    && (|s.sl| > 0 ==> s.cs == s.sl[0] && Last(s.sl) == start)
    && ChainBack(g, s.sl)
  }

  ghost predicate ListsOk<N>(g: Graph<N>, start: N, s: Lists<N>)
  {
    All(s) <= Universe(g, start) && start in All(s)
  }

  /** The goal is not done, and every successor of a done node is listed. */
  ghost predicate DoneOk<N>(g: Graph<N>, goal: N, s: Lists<N>)
  {
    && goal !in Done(s)
    && (forall x, y :: x in Done(s) && y in Succ(g, x) ==> y in All(s))
  }

  ghost predicate Inv<N(!new)>(g: Graph<N>, start: N, goal: N, s: Lists<N>)
  {
    ShapeOk(g, start, s) && ListsOk(g, start, s) && DoneOk(g, goal, s)
  }

  /** At the loop head with NSL non-empty, SL, NSL and CS agree on the
      current node, and SL read backwards is a path from the start to it. */
  lemma LoopHead<N(!new)>(g: Graph<N>, start: N, goal: N, s: Lists<N>)
    requires Inv(g, start, goal, s) && |s.nsl| > 0
    ensures |s.sl| > 0 && s.sl[0] == s.nsl[0] == s.cs
    ensures PathFrom(g, start, Reverse(s.sl)) && Last(Reverse(s.sl)) == s.cs
  {
    assert |s.sl| > 0;
    ReversePath(g, start, s.sl);
  }

  lemma InitInv<N(!new)>(g: Graph<N>, start: N, goal: N)
    ensures Inv(g, start, goal, Init(start))
  {
    var s := Init(start);
    assert Frames(g, [], []);
    assert Pending(g, s.sl[1..], s.nsl[1..]);
    assert Done(s) == {};
  }

  // ---------------------------------------------------------------------
  // The inner loop.
  // ---------------------------------------------------------------------

  /** A non-empty SL has NSL non-empty, and when their first nodes agree the
      rest of NSL has the shape for the rest of SL. */
  lemma PendingHead<N>(g: Graph<N>, sl: seq<N>, nsl: seq<N>)
    requires Pending(g, sl, nsl) && |sl| > 0
    ensures |nsl| > 0
    ensures nsl[0] == sl[0] ==> Pending(g, sl[1..], nsl[1..])
  {
  }

  /** `Unwind` removes the same `d` nodes from the front of SL and of NSL and
      puts them on DE, most recent last; it removes at least one when CS is
      SL's first node. */
  ghost predicate Moves<N>(s: Lists<N>, u: Lists<N>, d: nat)
  {
    Drops(s, u, d) && Buries(s, u, d)
  }

  ghost predicate Drops<N>(s: Lists<N>, u: Lists<N>, d: nat)
  {
    && d <= |s.sl| && d <= |s.nsl|
    && u.sl == s.sl[d..] && u.nsl == s.nsl[d..] && s.sl[..d] == s.nsl[..d]
    && (|s.sl| > 0 && s.cs == s.sl[0] ==> d > 0)
  }

  ghost predicate Buries<N>(s: Lists<N>, u: Lists<N>, d: nat)
  {
    d <= |s.sl| && u.de == Reverse(s.sl[..d]) + s.de
  }

  /** `Unwind` stops at an empty SL or at a CS that is a waiting child of
      SL's first node. */
  ghost predicate Stops<N>(g: Graph<N>, u: Lists<N>)
  {
    && Pending(g, u.sl, u.nsl) && (|u.nsl| > 0 ==> u.cs == u.nsl[0])
    && (|u.sl| == 0 || u.cs != u.sl[0])
  }

  lemma UnwindMoves<N>(g: Graph<N>, s: Lists<N>)
    requires Pending(g, s.sl, s.nsl) && (|s.nsl| > 0 ==> s.cs == s.nsl[0])
    ensures Moves(s, Unwind(g, s), Depth(g, s))
  {
    UnwindDrops(g, s);
    UnwindBuries(g, s);
  }

  lemma {:induction false} UnwindDrops<N>(g: Graph<N>, s: Lists<N>)
    requires Pending(g, s.sl, s.nsl) && (|s.nsl| > 0 ==> s.cs == s.nsl[0])
    ensures Drops(s, Unwind(g, s), Depth(g, s))
    decreases |s.sl|
  {
    if |s.sl| > 0 && s.cs == s.sl[0] {
      PendingHead(g, s.sl, s.nsl);
      var nsl := s.nsl[1..];
      var s' := Lists(s.sl[1..], nsl, [s.cs] + s.de, if |nsl| > 0 then nsl[0] else s.cs);
      UnwindDrops(g, s');
      var d' := Depth(g, s');
      assert Unwind(g, s) == Unwind(g, s') && Depth(g, s) == d' + 1;
      ShiftSlices(s.sl, d');
      ShiftSlices(s.nsl, d');
    } else {
      assert Unwind(g, s) == s && Depth(g, s) == 0;
      assert s.sl[0..] == s.sl && s.nsl[0..] == s.nsl && s.sl[..0] == s.nsl[..0] == [];
    }
  }

  lemma {:induction false} UnwindBuries<N>(g: Graph<N>, s: Lists<N>)
    requires Pending(g, s.sl, s.nsl) && (|s.nsl| > 0 ==> s.cs == s.nsl[0])
    ensures Buries(s, Unwind(g, s), Depth(g, s))
    decreases |s.sl|
  {
    if |s.sl| > 0 && s.cs == s.sl[0] {
      PendingHead(g, s.sl, s.nsl);
      var nsl := s.nsl[1..];
      var s' := Lists(s.sl[1..], nsl, [s.cs] + s.de, if |nsl| > 0 then nsl[0] else s.cs);
      UnwindBuries(g, s');
      assert Unwind(g, s) == Unwind(g, s') && Depth(g, s) == Depth(g, s') + 1;
      BuryOne(s.sl, s.de, Depth(g, s'), Unwind(g, s').de);
    } else {
      assert Unwind(g, s) == s && Depth(g, s) == 0;
      assert s.sl[..0] == [];
    }
  }

  lemma {:induction false} UnwindStops<N>(g: Graph<N>, s: Lists<N>)
    requires Pending(g, s.sl, s.nsl) && (|s.nsl| > 0 ==> s.cs == s.nsl[0])
    ensures Stops(g, Unwind(g, s))
    decreases |s.sl|
  {
    if |s.sl| > 0 && s.cs == s.sl[0] {
      PendingHead(g, s.sl, s.nsl);
      var nsl := s.nsl[1..];
      UnwindStops(g, Lists(s.sl[1..], nsl, [s.cs] + s.de, if |nsl| > 0 then nsl[0] else s.cs));
    }
  }

  /** Burying the first node and then `d` more of SL puts the first `d + 1`
      nodes on DE in reverse. */
  lemma BuryOne<T>(sl: seq<T>, de: seq<T>, d: nat, de': seq<T>)
    requires d < |sl| && de' == Reverse(sl[1..][..d]) + ([sl[0]] + de)
    ensures de' == Reverse(sl[..d + 1]) + de
  {
    ShiftSlices(sl, d);
    var p := sl[..d + 1];
    assert Reverse(p) == Reverse(p[1..]) + [sl[0]];
  }

  lemma ShiftSlices<T>(a: seq<T>, k: nat)
    requires k < |a|
    ensures a[k + 1..] == a[1..][k..]
    ensures a[..k + 1] == [a[0]] + a[1..][..k] && a[..k + 1][1..] == a[1..][..k]
  {
  }

  // ---------------------------------------------------------------------
  // One pass of the outer loop.
  // ---------------------------------------------------------------------

  /** What the loop's measure needs: the lists only gain nodes, and either
      gain one or NSL gets shorter. */
  ghost predicate Smaller<N>(g: Graph<N>, start: N, t: Lists<N>, s: Lists<N>)
  {
    || |Universe(g, start) - All(t)| < |Universe(g, start) - All(s)|
    || (All(t) == All(s) && |t.nsl| < |s.nsl|)
  }

  lemma ExpandInv<N(!new)>(g: Graph<N>, start: N, goal: N, s: Lists<N>)
    requires Inv(g, start, goal, s) && |s.nsl| > 0 && s.cs != goal
    ensures |s.sl| > 0 && Inv(g, start, goal, Expand(g, s))
    ensures Smaller(g, start, Expand(g, s), s)
  {
    if |Kids(g, s)| == 0 {
      ExpandDead(g, start, goal, s);
    } else {
      ExpandKids(g, start, goal, s);
    }
  }

  /** The successors of CS are all listed once its children are pushed. */
  lemma KidsCover<N>(g: Graph<N>, s: Lists<N>)
    ensures forall y :: y in Succ(g, s.cs) ==> y in All(s) || y in Kids(g, s)
    ensures forall y :: y in Kids(g, s) ==> y in Succ(g, s.cs) && y !in All(s)
  {
  }

  /** Pushing children keeps the invariant and adds a node to the lists. */
  lemma ExpandKids<N(!new)>(g: Graph<N>, start: N, goal: N, s: Lists<N>)
    requires Inv(g, start, goal, s) && |s.nsl| > 0 && s.cs != goal
    requires |Kids(g, s)| > 0
    ensures |s.sl| > 0 && Inv(g, start, goal, Expand(g, s))
    ensures Smaller(g, start, Expand(g, s), s)
  {
    assert |s.sl| > 0;
    KidsShape(g, start, goal, s);
    KidsLists(g, start, goal, s);
    KidsDone(g, start, goal, s);
  }

  lemma KidsShape<N(!new)>(g: Graph<N>, start: N, goal: N, s: Lists<N>)
    requires ShapeOk(g, start, s) && |s.sl| > 0 && |Kids(g, s)| > 0
    ensures ShapeOk(g, start, Expand(g, s))
  {
    var kids := Kids(g, s);
    assert Expand(g, s) == Lists([kids[0]] + s.sl, kids + s.nsl, s.de, kids[0]);
    KidsCover(g, s);
    KidsFrames(g, s.sl, s.nsl, kids);
    ChainCons(g, kids[0], s.sl);
  }

  lemma KidsLists<N(!new)>(g: Graph<N>, start: N, goal: N, s: Lists<N>)
    requires ShapeOk(g, start, s) && ListsOk(g, start, s) && |s.sl| > 0 && |Kids(g, s)| > 0
    ensures ListsOk(g, start, Expand(g, s)) && All(s) < All(Expand(g, s))
    ensures Smaller(g, start, Expand(g, s), s)
  {
    var kids := Kids(g, s);
    var t := Expand(g, s);
    assert t == Lists([kids[0]] + s.sl, kids + s.nsl, s.de, kids[0]);
    KidsCover(g, s);
    ElemsConcat(kids, s.nsl);
    ElemsConcat([kids[0]], s.sl);
    assert All(t) == All(s) + Elems(kids);
    forall x | x in kids
      ensures x in Universe(g, start)
    {
      SuccInNodes(g, s.cs, x);
    }
    assert kids[0] in All(t) - All(s);
    DiffShrinks(Universe(g, start), All(s), All(t));
  }

  lemma KidsDone<N(!new)>(g: Graph<N>, start: N, goal: N, s: Lists<N>)
    requires Inv(g, start, goal, s) && |s.sl| > 0 && |Kids(g, s)| > 0 && s.cs != goal
    ensures DoneOk(g, goal, Expand(g, s))
  {
    KidsFacts(g, s);
    Closes(g, start, goal, s, Expand(g, s));
  }

  /** Pushing children keeps every listed node, lists every successor of CS,
      and retires no node but CS. */
  lemma KidsFacts<N>(g: Graph<N>, s: Lists<N>)
    requires Frames(g, s.sl, s.nsl) && |s.sl| > 0 && s.cs == s.sl[0] && |Kids(g, s)| > 0
    ensures All(s) <= All(Expand(g, s)) && Done(Expand(g, s)) <= Done(s) + {s.cs}
    ensures forall y :: y in Succ(g, s.cs) ==> y in All(Expand(g, s))
  {
    var kids := Kids(g, s);
    var t := Expand(g, s);
    assert t == Lists([kids[0]] + s.sl, kids + s.nsl, s.de, kids[0]);
    KidsCover(g, s);
    ElemsConcat(kids, s.nsl);
    assert t.sl[1..] == s.sl;
    assert Elems(s.sl) == {s.cs} + Elems(s.sl[1..]) by {
      assert s.sl == [s.cs] + s.sl[1..];
    }
  }

  lemma KidsFrames<N>(g: Graph<N>, sl: seq<N>, nsl: seq<N>, kids: seq<N>)
    requires Frames(g, sl, nsl) && |sl| > 0 && |kids| > 0
    requires forall x :: x in kids ==> x in Succ(g, sl[0]) && x !in sl
    ensures Frames(g, [kids[0]] + sl, kids + nsl)
  {
    assert Pending(g, sl, nsl);
    assert forall x :: x in kids[1..] ==> x in kids;
    PendingPrepend(g, sl, kids[1..], nsl);
    assert kids + nsl == [kids[0]] + (kids[1..] + nsl);
    assert ([kids[0]] + sl)[1..] == sl;
  }

  lemma {:induction false} PendingPrepend<N>(g: Graph<N>, sl: seq<N>, kids: seq<N>, nsl: seq<N>)
    requires Pending(g, sl, nsl) && |sl| > 0
    requires forall x :: x in kids ==> x in Succ(g, sl[0]) && x !in sl
    ensures Pending(g, sl, kids + nsl)
    decreases |kids|
  {
    if |kids| > 0 {
      assert forall x :: x in kids[1..] ==> x in kids;
      PendingPrepend(g, sl, kids[1..], nsl);
      var q := kids + nsl;
      assert q[1..] == kids[1..] + nsl;
      assert q[0] == kids[0] && kids[0] in kids;
      assert q[0] != sl[0];
    } else {
      assert kids + nsl == nsl;
    }
  }

  lemma ChainCons<N>(g: Graph<N>, x: N, sl: seq<N>)
    requires ChainBack(g, sl) && |sl| > 0 && x in Succ(g, sl[0])
    ensures ChainBack(g, [x] + sl) && Last([x] + sl) == Last(sl)
  {
    var t := [x] + sl;
    forall i | 0 <= i < |t| - 1
      ensures t[i] in Succ(g, t[i + 1])
    {
      if i > 0 {
        assert t[i] == sl[i - 1] && t[i + 1] == sl[i];
      }
    }
  }

  /** The goal stays off the done nodes and the done nodes' successors stay
      listed when the new done nodes are the old ones and CS, and every
      successor of CS is listed. */
  lemma Closes<N(!new)>(g: Graph<N>, start: N, goal: N, s: Lists<N>, t: Lists<N>)
    requires DoneOk(g, goal, s) && s.cs != goal
    requires All(s) <= All(t) && Done(t) <= Done(s) + {s.cs}
    requires forall y :: y in Succ(g, s.cs) ==> y in All(t)
    ensures DoneOk(g, goal, t)
  {
  }

  /** Backing up keeps the invariant and shortens NSL without losing a node. */
  lemma ExpandDead<N(!new)>(g: Graph<N>, start: N, goal: N, s: Lists<N>)
    requires Inv(g, start, goal, s) && |s.nsl| > 0 && s.cs != goal
    requires |Kids(g, s)| == 0
    ensures |s.sl| > 0 && Inv(g, start, goal, Expand(g, s))
    ensures Smaller(g, start, Expand(g, s), s)
  {
    assert |s.sl| > 0;
    UnwindMoves(g, s);
    UnwindStops(g, s);
    DeadShape(g, start, s);
    DeadLists(g, start, goal, s);
  }

  /** The state after backing up, given what `Unwind` did. */
  lemma DeadShape<N(!new)>(g: Graph<N>, start: N, s: Lists<N>)
    requires ShapeOk(g, start, s) && |s.sl| > 0 && |Kids(g, s)| == 0
    requires Moves(s, Unwind(g, s), Depth(g, s)) && Stops(g, Unwind(g, s))
    ensures ShapeOk(g, start, Expand(g, s))
  {
    var u := Unwind(g, s);
    var t := Expand(g, s);
    assert t == if |u.nsl| > 0 then Lists([u.cs] + u.sl, u.nsl, u.de, u.cs) else u;
    DeadFrames(g, u, t);
    DeadChain(g, start, s.sl, Depth(g, s));
    if |u.nsl| > 0 {
      ChainCons(g, u.cs, u.sl);
    }
  }

  lemma DeadLists<N(!new)>(g: Graph<N>, start: N, goal: N, s: Lists<N>)
    requires Inv(g, start, goal, s) && |s.sl| > 0 && |Kids(g, s)| == 0 && s.cs != goal
    requires Moves(s, Unwind(g, s), Depth(g, s)) && Stops(g, Unwind(g, s))
    ensures ListsOk(g, start, Expand(g, s)) && DoneOk(g, goal, Expand(g, s))
    ensures Smaller(g, start, Expand(g, s), s)
  {
    DeadFacts(g, s);
    KidsCover(g, s);
    Closes(g, start, goal, s, Expand(g, s));
  }

  /** Backing up keeps every listed node, retires no node but CS, and
      shortens NSL. */
  lemma DeadFacts<N(!new)>(g: Graph<N>, s: Lists<N>)
    requires Frames(g, s.sl, s.nsl) && |s.sl| > 0 && s.cs == s.sl[0] && |Kids(g, s)| == 0
    requires Moves(s, Unwind(g, s), Depth(g, s)) && Stops(g, Unwind(g, s))
    ensures All(Expand(g, s)) == All(s) && |Expand(g, s).nsl| < |s.nsl|
    ensures Done(Expand(g, s)) <= Done(s) + {s.cs}
  {
    var u := Unwind(g, s);
    var d := Depth(g, s);
    var t := Expand(g, s);
    assert t == if |u.nsl| > 0 then Lists([u.cs] + u.sl, u.nsl, u.de, u.cs) else u;
    DeadElems(s.sl, s.nsl, s.de, d);
    assert All(u) == All(s);
    if |u.nsl| > 0 {
      assert u.cs in Elems(u.nsl);
      ElemsConcat([u.cs], u.sl);
      assert t.sl[1..] == u.sl;
    }
    assert Done(t) <= Elems(u.de) + Elems(u.sl);
  }

  /** `Unwind` moves nodes between lists without losing any. */
  lemma DeadElems<T>(sl: seq<T>, nsl: seq<T>, de: seq<T>, d: nat)
    requires 0 < d <= |sl| && d <= |nsl| && sl[..d] == nsl[..d]
    ensures Elems(sl[d..]) + Elems(nsl[d..]) + Elems(Reverse(sl[..d]) + de) == Elems(sl) + Elems(nsl) + Elems(de)
    ensures Elems(Reverse(sl[..d]) + de) + Elems(sl[d..]) <= Elems(de) + {sl[0]} + Elems(sl[1..])
  {
    assert sl == sl[..d] + sl[d..];
    assert nsl == nsl[..d] + nsl[d..];
    ElemsConcat(sl[..d], sl[d..]);
    ElemsConcat(nsl[..d], nsl[d..]);
    ReverseElems(sl[..d]);
    ElemsConcat(Reverse(sl[..d]), de);
    assert sl[1..] == sl[1..d] + sl[d..];
    ElemsConcat(sl[1..d], sl[d..]);
    assert sl[..d] == [sl[0]] + sl[1..d];
    ElemsConcat([sl[0]], sl[1..d]);
  }

  /** What is left of SL after `Unwind` is still a chain to the start. */
  lemma DeadChain<N>(g: Graph<N>, start: N, sl: seq<N>, d: nat)
    requires d <= |sl| && ChainBack(g, sl) && (|sl| > 0 ==> Last(sl) == start)
    ensures ChainBack(g, sl[d..]) && (|sl[d..]| > 0 ==> Last(sl[d..]) == start)
  {
    var r := sl[d..];
    forall i | 0 <= i < |r| - 1
      ensures r[i] in Succ(g, r[i + 1])
    {
      assert r[i] == sl[d + i] && r[i + 1] == sl[d + i + 1];
    }
  }

  /** After `Unwind` the waiting child put on SL restores the frame shape. */
  lemma DeadFrames<N>(g: Graph<N>, u: Lists<N>, t: Lists<N>)
    requires Stops(g, u)
    requires t == if |u.nsl| > 0 then Lists([u.cs] + u.sl, u.nsl, u.de, u.cs) else u
    ensures Frames(g, t.sl, t.nsl)
    ensures |u.nsl| > 0 ==> |u.sl| > 0 && u.cs in Succ(g, u.sl[0])
    ensures |u.nsl| == 0 ==> u.sl == []
  {
    if |u.nsl| > 0 {
      assert Pending(g, u.sl, u.nsl);
      assert !Frames(g, u.sl, u.nsl);
      assert t.sl[1..] == u.sl;
    } else {
      assert Frames(g, u.sl, u.nsl);
    }
  }

  // ---------------------------------------------------------------------
  // Each node enters NSL at most once.
  // ---------------------------------------------------------------------

  /** No node is twice on NSL and DE together. */
  predicate Once<N(==)>(s: Lists<N>)
  {
    NoDups(s.nsl + s.de)
  }

  lemma InitOnce<N>(start: N)
    ensures Once(Init(start))
  {
    assert Init(start).nsl + Init(start).de == [start];
  }

  /** With duplicate-free neighbour lists, one pass keeps NSL and DE free of
      repeats; DE only grows at the front; the lists only gain nodes; and a
      node new on NSL was on none of SL, NSL and DE before. Since a listed
      node stays listed, no node enters NSL twice, and a dead end never
      returns to NSL. */
  lemma ExpandOnce<N(!new)>(g: Graph<N>, start: N, goal: N, s: Lists<N>)
    requires Inv(g, start, goal, s) && |s.nsl| > 0 && s.cs != goal
    requires OpenClosed.DupFreeLists(g) && Once(s)
    ensures |s.sl| > 0
    ensures Once(Expand(g, s))
    ensures |Expand(g, s).de| >= |s.de| && Expand(g, s).de[|Expand(g, s).de| - |s.de|..] == s.de
    ensures All(s) <= All(Expand(g, s))
    ensures forall x :: x in Expand(g, s).nsl && x !in s.nsl ==> x !in s.sl && x !in s.de
  {
    assert |s.sl| > 0;
    if |Kids(g, s)| == 0 {
      UnwindMoves(g, s);
      UnwindStops(g, s);
      DeadFacts(g, s);
      OnceDead(g, s);
    } else {
      KidsLists(g, start, goal, s);
      OnceKids(g, s);
    }
  }

  lemma OnceKids<N>(g: Graph<N>, s: Lists<N>)
    requires Frames(g, s.sl, s.nsl) && |s.sl| > 0 && s.cs == s.sl[0] && |Kids(g, s)| > 0
    requires OpenClosed.DupFreeLists(g) && Once(s)
    ensures Once(Expand(g, s)) && Expand(g, s).de == s.de
    ensures forall x :: x in Expand(g, s).nsl && x !in s.nsl ==> x !in s.sl && x !in s.de
  {
    var t := Expand(g, s);
    var kids := Kids(g, s);
    assert NoDups(Succ(g, s.cs));
    assert t == Lists([kids[0]] + s.sl, kids + s.nsl, s.de, kids[0]);
    NoDupsConcat(kids, s.nsl + s.de);
    assert t.nsl + t.de == kids + (s.nsl + s.de);
  }

  lemma OnceDead<N>(g: Graph<N>, s: Lists<N>)
    requires Frames(g, s.sl, s.nsl) && |s.sl| > 0 && s.cs == s.sl[0] && |Kids(g, s)| == 0
    requires Moves(s, Unwind(g, s), Depth(g, s))
    requires Once(s)
    ensures Once(Expand(g, s))
    ensures |Expand(g, s).de| >= |s.de| && Expand(g, s).de[|Expand(g, s).de| - |s.de|..] == s.de
    ensures forall x :: x in Expand(g, s).nsl ==> x in s.nsl
  {
    var t := Expand(g, s);
    var u := Unwind(g, s);
    var d := Depth(g, s);
    assert t.nsl == s.nsl[d..] && t.de == Reverse(s.nsl[..d]) + s.de;
    assert s.nsl[..d] + s.nsl[d..] + s.de == s.nsl + s.de by {
      assert s.nsl == s.nsl[..d] + s.nsl[d..];
    }
    Shuffle(s.nsl[..d], s.nsl[d..], s.de);
  }

  /** Moving a reversed prefix of NSL to the front of DE keeps the two free
      of repeats. */
  lemma Shuffle<T>(a: seq<T>, b: seq<T>, c: seq<T>)
    requires NoDups(a + b + c)
    ensures NoDups(b + (Reverse(a) + c))
  {
    NoDupsParts(a + b, c);
    NoDupsParts(a, b);
    assert forall x :: x in a ==> x in a + b;
    assert forall x :: x in b ==> x in a + b;
    ReverseNoDups(a);
    ReverseElems(a);
    NoDupsConcat(Reverse(a), c);
    NoDupsConcat(b, Reverse(a) + c);
  }

  /** The two halves of a duplicate-free sequence are duplicate-free and
      share no element. */
  lemma NoDupsParts<T>(a: seq<T>, b: seq<T>)
    requires NoDups(a + b)
    ensures NoDups(a) && NoDups(b) && forall x :: x in b ==> x !in a
  {
    var c := a + b;
    forall i, j | 0 <= i < j < |b|
      ensures b[i] != b[j]
    {
      assert b[i] == c[|a| + i] && b[j] == c[|a| + j];
    }
    forall i, j | 0 <= i < j < |a|
      ensures a[i] != a[j]
    {
      assert a[i] == c[i] && a[j] == c[j];
    }
    forall i, j | 0 <= i < |a| && 0 <= j < |b|
      ensures a[i] != b[j]
    {
      assert a[i] == c[i] && b[j] == c[|a| + j];
    }
  }

  lemma ReverseNoDups<T>(s: seq<T>)
    requires NoDups(s)
    ensures NoDups(Reverse(s))
  {
    var r := Reverse(s);
    forall i, j | 0 <= i < j < |r|
      ensures r[i] != r[j]
    {
      assert r[i] == s[|s| - 1 - i] && r[j] == s[|s| - 1 - j];
    }
  }

  // ---------------------------------------------------------------------
  // The example of the docstring.
  // ---------------------------------------------------------------------


  /** From "A" the search pushes "B" and "C" and then "D". */
  lemma DocSteps()
    ensures Frames(DocGraph, ['A'], ['A']) && Frames(DocGraph, ['B', 'A'], ['B', 'C', 'A'])
    ensures Expand(DocGraph, Init('A')) == Lists(['B', 'A'], ['B', 'C', 'A'], [], 'B')
    ensures Expand(DocGraph, Lists(['B', 'A'], ['B', 'C', 'A'], [], 'B'))
         == Lists(['D', 'B', 'A'], ['D', 'B', 'C', 'A'], [], 'D')
  {
    DocFrames();
    DocStepA();
    DocStepB();
  }

  lemma DocStepA()
    ensures Frames(DocGraph, ['A'], ['A'])
    ensures Expand(DocGraph, Init('A')) == Lists(['B', 'A'], ['B', 'C', 'A'], [], 'B')
  {
    DocFrames();
    DocKidsA();
  }

  lemma DocStepB()
    ensures Frames(DocGraph, ['B', 'A'], ['B', 'C', 'A'])
    ensures Expand(DocGraph, Lists(['B', 'A'], ['B', 'C', 'A'], [], 'B'))
         == Lists(['D', 'B', 'A'], ['D', 'B', 'C', 'A'], [], 'D')
  {
    DocFrames();
    DocKidsB();
  }

  lemma DocFrames()
    ensures Frames(DocGraph, ['A'], ['A']) && Frames(DocGraph, ['B', 'A'], ['B', 'C', 'A'])
  {
    var g := DocGraph;
    assert Frames(g, [], []);
    assert Pending(g, ['A'][1..], ['A'][1..]);
    assert Pending(g, ['A'], ['A']);
    assert ['C', 'A'][1..] == ['A'];
    assert Pending(g, ['A'], ['C', 'A']);
    assert ['B', 'C', 'A'][1..] == ['C', 'A'] && ['B', 'A'][1..] == ['A'];
  }

  lemma DocKidsA()
    ensures Kids(DocGraph, Init('A')) == ['B', 'C']
  {
    assert Succ(DocGraph, 'A') == ['B', 'C'];
    ChildrenOfA();
  }

  /** The children of "A" when only "A" is listed. */
  lemma ChildrenOfA()
    ensures OpenClosed.Children(['B', 'C'], ['A'], ['A'] + []) == ['B', 'C']
  {
    var closed: seq<char> := ['A'] + [];
    assert ['C'][1..] == [];
    assert OpenClosed.Children(['C'][1..], ['A'], closed) == [];
    assert OpenClosed.Children(['C'], ['A'], closed) == ['C'];
    assert ['B', 'C'][1..] == ['C'];
  }

  lemma DocKidsB()
    ensures Kids(DocGraph, Lists(['B', 'A'], ['B', 'C', 'A'], [], 'B')) == ['D']
  {
    assert Succ(DocGraph, 'B') == ['D'];
    assert ['D'][1..] == [];
  }

  /** The docstring's example: searched from "A" for "D" the graph returns
      ["D", "B", "A"]. */
  lemma DocstringExample()
    ensures BacktrackSearch(DocGraph, ['A', 'B'], 'D', Some('A')) == Found(['D', 'B', 'A'])
  {
    var g := DocGraph;
    assert Elems(['A', 'B']) == g.Keys;
    var s0 := Init('A');
    var s1 := Lists(['B', 'A'], ['B', 'C', 'A'], [], 'B');
    var s2 := Lists(['D', 'B', 'A'], ['D', 'B', 'C', 'A'], [], 'D');
    DocSteps();
    InitInv(g, 'A', 'D');
    ExpandInv(g, 'A', 'D', s0);
    ExpandInv(g, 'A', 'D', s1);
    assert Run(g, 'A', 'D', s2) == Found(['D', 'B', 'A']);
    assert Run(g, 'A', 'D', s1) == Run(g, 'A', 'D', s2);
    assert Run(g, 'A', 'D', s0) == Run(g, 'A', 'D', s1);
  }

  /** A graph where "B" is a dead end: {"A": ["B", "C"], "C": ["D"]}. */
  const DeadGraph: Graph<char> := map['A' := ['B', 'C'], 'C' := ['D']]

  /** From "A" the search pushes "B" and "C"; "B" has no children, so it
      goes to DE and "C" takes its place on SL; then "D" is pushed. */
  lemma DeadSteps()
    ensures Frames(DeadGraph, ['A'], ['A']) && Frames(DeadGraph, ['B', 'A'], ['B', 'C', 'A'])
    ensures Frames(DeadGraph, ['C', 'A'], ['C', 'A'])
    ensures Expand(DeadGraph, Init('A')) == Lists(['B', 'A'], ['B', 'C', 'A'], [], 'B')
    ensures Expand(DeadGraph, Lists(['B', 'A'], ['B', 'C', 'A'], [], 'B'))
         == Lists(['C', 'A'], ['C', 'A'], ['B'], 'C')
    ensures Expand(DeadGraph, Lists(['C', 'A'], ['C', 'A'], ['B'], 'C'))
         == Lists(['D', 'C', 'A'], ['D', 'C', 'A'], ['B'], 'D')
  {
    DeadStepA();
    DeadStepB();
    DeadStepC();
  }

  lemma DeadFramesExample()
    ensures Frames(DeadGraph, ['A'], ['A']) && Frames(DeadGraph, ['B', 'A'], ['B', 'C', 'A'])
    ensures Frames(DeadGraph, ['C', 'A'], ['C', 'A'])
  {
    var g := DeadGraph;
    assert Frames(g, [], []);
    assert Pending(g, ['A'][1..], ['A'][1..]);
    assert Pending(g, ['A'], ['A']);
    assert ['C', 'A'][1..] == ['A'];
    assert Pending(g, ['A'], ['C', 'A']);
    assert ['B', 'C', 'A'][1..] == ['C', 'A'] && ['B', 'A'][1..] == ['A'];
  }

  lemma DeadStepA()
    ensures Frames(DeadGraph, ['A'], ['A'])
    ensures Expand(DeadGraph, Init('A')) == Lists(['B', 'A'], ['B', 'C', 'A'], [], 'B')
  {
    DeadFramesExample();
    DeadKidsA();
  }

  lemma DeadKidsA()
    ensures Kids(DeadGraph, Init('A')) == ['B', 'C']
  {
    assert Succ(DeadGraph, 'A') == ['B', 'C'];
    ChildrenOfA();
  }

  lemma DeadStepB()
    ensures Frames(DeadGraph, ['B', 'A'], ['B', 'C', 'A'])
    ensures Expand(DeadGraph, Lists(['B', 'A'], ['B', 'C', 'A'], [], 'B'))
         == Lists(['C', 'A'], ['C', 'A'], ['B'], 'C')
  {
    var g := DeadGraph;
    var s := Lists(['B', 'A'], ['B', 'C', 'A'], [], 'B');
    DeadFramesExample();
    assert Succ(g, 'B') == [];
    assert Kids(g, s) == [];
    var u := Lists(['A'], ['C', 'A'], ['B'], 'C');
    assert Pending(g, u.sl, u.nsl);
    assert Unwind(g, u) == u;
    assert ['B', 'A'][1..] == ['A'] && ['B', 'C', 'A'][1..] == ['C', 'A'];
    assert Unwind(g, s) == u;
  }

  lemma DeadStepC()
    ensures Frames(DeadGraph, ['C', 'A'], ['C', 'A'])
    ensures Expand(DeadGraph, Lists(['C', 'A'], ['C', 'A'], ['B'], 'C'))
         == Lists(['D', 'C', 'A'], ['D', 'C', 'A'], ['B'], 'D')
  {
    DeadFramesExample();
    assert Succ(DeadGraph, 'C') == ['D'];
    assert ['D'][1..] == [];
    assert Kids(DeadGraph, Lists(['C', 'A'], ['C', 'A'], ['B'], 'C')) == ['D'];
  }

  /** With no start given the search starts from the first key, "A", backs
      up once and returns ["D", "C", "A"]. */
  lemma DeadEndExample()
    ensures BacktrackSearch(DeadGraph, ['A', 'C'], 'D', None) == Found(['D', 'C', 'A'])
  {
    var g := DeadGraph;
    assert Elems(['A', 'C']) == g.Keys;
    var s0 := Init('A');
    var s1 := Lists(['B', 'A'], ['B', 'C', 'A'], [], 'B');
    var s2 := Lists(['C', 'A'], ['C', 'A'], ['B'], 'C');
    var s3 := Lists(['D', 'C', 'A'], ['D', 'C', 'A'], ['B'], 'D');
    DeadSteps();
    InitInv(g, 'A', 'D');
    ExpandInv(g, 'A', 'D', s0);
    ExpandInv(g, 'A', 'D', s1);
    ExpandInv(g, 'A', 'D', s2);
    assert Run(g, 'A', 'D', s3) == Found(['D', 'C', 'A']);
    assert Run(g, 'A', 'D', s2) == Run(g, 'A', 'D', s3);
    assert Run(g, 'A', 'D', s1) == Run(g, 'A', 'D', s2);
    assert Run(g, 'A', 'D', s0) == Run(g, 'A', 'D', s1);
  }

  // ---------------------------------------------------------------------
  // What the loop returns.
  // ---------------------------------------------------------------------

  /** What `backtrack` promises for a start `start`. */
  ghost predicate Sound<N(!new)>(g: Graph<N>, start: N, goal: N, r: Verdict<N>)
  {
    && (r.Found? ==>
          |r.sl| > 0 && r.sl[0] == goal && PathFrom(g, start, Reverse(r.sl)) && Last(Reverse(r.sl)) == goal)
    && (r.Fail? <==> !Reachable(g, start, goal))
  }

  lemma {:induction false} RunCorrect<N(!new)>(g: Graph<N>, start: N, goal: N, s: Lists<N>)
    requires Inv(g, start, goal, s)
    ensures Sound(g, start, goal, Run(g, start, goal, s))
    decreases |Universe(g, start) - All(s)|, |s.nsl|
  {
    if |s.nsl| == 0 {
      assert Run(g, start, goal, s) == Fail;
      EmptySound(g, start, goal, s);
    } else if s.cs == goal {
      assert Run(g, start, goal, s) == Found(s.sl);
      ReversePath(g, start, s.sl);
      PathEndReachable(g, start, Reverse(s.sl));
    } else {
      ExpandInv(g, start, goal, s);
      assert Run(g, start, goal, s) == Run(g, start, goal, Expand(g, s));
      RunCorrect(g, start, goal, Expand(g, s));
    }
  }

  /** With NSL empty, SL is empty too, every listed node is a dead end, the
      dead ends are closed under successors, and the goal is not among them. */
  lemma EmptySound<N(!new)>(g: Graph<N>, start: N, goal: N, s: Lists<N>)
    requires Inv(g, start, goal, s) && |s.nsl| == 0
    ensures s.sl == []
    ensures forall x :: Reachable(g, start, x) ==> x in s.de
    ensures Sound(g, start, goal, Fail)
  {
    assert s.sl == [];
    assert All(s) == Elems(s.de) == Done(s);
    forall x | Reachable(g, start, x)
      ensures x in s.de
    {
      var p :| PathFrom(g, start, p) && Last(p) == x;
      ClosedSetHoldsReachable(g, start, Elems(s.de), p);
    }
  }

  /** SL read backwards is a path from its last node to its first. */
  lemma ReversePath<N>(g: Graph<N>, start: N, sl: seq<N>)
    requires |sl| > 0 && ChainBack(g, sl) && Last(sl) == start
    ensures PathFrom(g, start, Reverse(sl)) && Last(Reverse(sl)) == sl[0]
  {
    var r := Reverse(sl);
    forall i | 0 <= i < |r| - 1
      ensures r[i + 1] in Succ(g, r[i])
    {
      assert r[i] == sl[|sl| - 1 - i] && r[i + 1] == sl[|sl| - 2 - i];
    }
  }

  lemma ReverseElems<T>(s: seq<T>)
    ensures Elems(Reverse(s)) == Elems(s)
  {
    var r := Reverse(s);
    forall x | x in s
      ensures x in r
    {
      var i :| 0 <= i < |s| && s[i] == x;
      assert r[|s| - 1 - i] == x;
    }
  }
}

=== FILE: best_first.dfy ===
/** `best_first_search` (informed/best_first_search.py): greedy best-first
    search with a heap of (h, counter, node) entries, a `parent` map set when a
    node is first pushed, a `visited` set, and path reconstruction through
    `parent`. The module-level lists `visited_order` and `found_path` become
    part of the returned value. */
module GreedyBestFirst {
  import opened Graphs

  /** A heap entry (heuristic value, tie-breaking counter, node). */
  datatype Item<N> = Item(h: int, tie: nat, node: N)

  /** The loop's variables. */
  datatype Search<N> = Search(pq: seq<Item<N>>, counter: nat, parent: map<N, Option<N>>, visited: set<N>, order: seq<N>)

  /** The returned flag together with the final `visited_order` and
      `found_path`. */
  datatype Outcome<N> = Outcome(found: bool, visited: seq<N>, path: seq<N>)

  /** Tuple order on (h, counter), as heapq compares the entries. */
  predicate Before<N>(a: Item<N>, b: Item<N>)
  {
    a.h < b.h || (a.h == b.h && a.tie <= b.tie)
  }

  /** `heappop`: the index of the least entry in tuple order. */
  function MinIndex<N>(q: seq<Item<N>>): (k: nat)
    requires |q| > 0
    ensures k < |q| && forall j :: 0 <= j < |q| ==> Before(q[k], q[j])
    decreases |q|
  {
    if |q| == 1 then 0
    else
      var k := MinIndex(q[1..]);
      assert forall j :: 1 <= j < |q| ==> q[j] == q[1..][j - 1];
      if Before(q[0], q[1 + k]) then 0 else 1 + k
  }

  /** The `for neighbor in graph.get(node, [])` loop's results. */
  datatype Grow<N> = Grow(parent: map<N, Option<N>>, counter: nat, pushed: seq<Item<N>>)

  /** The neighbour loop from `nbrs` on: a neighbour neither visited nor in
      `parent` gets `node` as parent and is pushed with the next counter. */
  function Push<N>(goal: N, h: (N, N) -> int, node: N, nbrs: seq<N>, visited: set<N>, parent: map<N, Option<N>>, counter: nat): Grow<N>
    decreases |nbrs|
  {
    if |nbrs| == 0 then Grow(parent, counter, [])
    else
      var nb := nbrs[0];
      if nb !in visited && nb !in parent then
        var r := Push(goal, h, node, nbrs[1..], visited, parent[nb := Some(node)], counter + 1);
        Grow(r.parent, r.counter, [Item(h(nb, goal), counter + 1, nb)] + r.pushed)
      else Push(goal, h, node, nbrs[1..], visited, parent, counter)
  }

  /** `path.reverse()` of the list built by following `parent` from `cur`:
      the chain of parents from the root down to `cur`. */
  function Reconstruct<N>(g: Graph<N>, start: N, parent: map<N, Option<N>>, order: seq<N>, cur: N): (r: seq<N>)
    requires Chain(g, start, parent, order) && cur in order
    ensures PathFrom(g, start, r) && Last(r) == cur
    decreases IndexOf(order, cur)
  {
    var i := IndexOf(order, cur);
    match parent[cur]
    case None => [cur]
    case Some(p) =>
      assert p in order[..i];
      var r := Reconstruct(g, start, parent, order, p);
      PathExtend(g, start, r, cur);
      r + [cur]
  }

  /** The position of the first occurrence of `x`. */
  function IndexOf<T(==)>(s: seq<T>, x: T): (i: nat)
    requires x in s
    ensures i < |s| && s[i] == x && x !in s[..i]
    ensures forall j :: 0 <= j < |s| && s[j] == x ==> i <= j
  {
    if s[0] == x then 0
    else
      assert s == [s[0]] + s[1..];
      var i := IndexOf(s[1..], x);
      assert s[..i + 1] == [s[0]] + s[1..][..i];
      1 + i
  }

  function Run<N(!new)>(g: Graph<N>, start: N, goal: N, h: (N, N) -> int, s: Search<N>): Outcome<N>
    requires Inv(g, start, goal, h, s)
    decreases |Universe(g, start) - s.visited|, |s.pq|
  {
    if |s.pq| == 0 then Outcome(false, s.order, [])
    else
      var k := MinIndex(s.pq);
      var node := s.pq[k].node;
      if node in s.visited then
        SkipKeepsInv(g, start, goal, h, s, k);
        Run(g, start, goal, h, Search(Remove(s.pq, k), s.counter, s.parent, s.visited, s.order))
      else if node == goal then
        VisitKeepsChain(g, start, goal, h, s, k);
        Outcome(true, s.order + [node], Reconstruct(g, start, s.parent, s.order + [node], node))
      else
        ExpandKeepsInv(g, start, goal, h, s, k);
        DiffShrinks(Universe(g, start), s.visited, s.visited + {node});
        Run(g, start, goal, h, Expand(g, goal, h, s, k))
  }

  function Init<N>(start: N, goal: N, h: (N, N) -> int): Search<N>
  {
    Search([Item(h(start, goal), 0, start)], 0, map[start := None], {}, [])
  }

  /** best_first_search(graph, start, goal, heuristic). */
  function BestFirstSearch<N(!new)>(g: Graph<N>, start: N, goal: N, h: (N, N) -> int): (r: Outcome<N>)
    ensures |r.visited| > 0 && r.visited[0] == start && NoDups(r.visited)
    ensures forall x :: x in r.visited ==> Reachable(g, start, x)
    ensures r.found ==> Last(r.visited) == goal && PathFrom(g, start, r.path) && Last(r.path) == goal
    ensures !r.found ==> r.path == [] && goal !in r.visited
    ensures r.found <==> Reachable(g, start, goal)
  {
    assert Init(start, goal, h).order == [];
    InitInv(g, start, goal, h);
    RunCorrect(g, start, goal, h, Init(start, goal, h));
    Run(g, start, goal, h, Init(start, goal, h))
  }

  // ---------------------------------------------------------------------
  // Invariants.
  // ---------------------------------------------------------------------

  /** Along `order` every node has an entry in `parent`; the start alone has
      none, and every other node's parent is an earlier node with an edge to
      it. */
  ghost predicate Chain<N>(g: Graph<N>, start: N, parent: map<N, Option<N>>, order: seq<N>)
  {
    forall i :: 0 <= i < |order| ==>
      && order[i] in parent
      && (parent[order[i]].None? <==> order[i] == start)
      && (parent[order[i]].Some? ==>
            parent[order[i]].value in order[..i] && order[i] in Succ(g, parent[order[i]].value))
  }

  /** `parent` maps the start to None and every other key to a visited node
      with an edge to it; every key is a reachable node. */
  ghost predicate ParentsOk<N(!new)>(g: Graph<N>, start: N, parent: map<N, Option<N>>, visited: set<N>)
  {
    && start in parent && parent[start] == None
    && parent.Keys <= Universe(g, start)
    && (forall n :: n in parent && n != start ==>
          parent[n].Some? && parent[n].value in visited && n in Succ(g, parent[n].value))
    && (forall n :: n in parent ==> Reachable(g, start, n))
  }

  /** `visited_order` lists the visited set once each, from the start, along
      the parent chain, and has not met the goal. */
  ghost predicate OrderOk<N>(g: Graph<N>, start: N, goal: N, s: Search<N>)
  {
    && Elems(s.order) == s.visited && NoDups(s.order) && goal !in s.visited
    && (|s.order| == 0 ==> s.parent.Keys == {start})
    && (|s.order| > 0 ==> s.order[0] == start)
    && Chain(g, start, s.parent, s.order)
  }

  /** The queue holds entries for nodes with a parent, each with its
      heuristic value, and every unvisited node with a parent is on it. */
  ghost predicate QueueOk<N>(goal: N, h: (N, N) -> int, s: Search<N>)
  {
    && (forall i :: 0 <= i < |s.pq| ==> s.pq[i].node in s.parent && s.pq[i].h == h(s.pq[i].node, goal))
    && (forall n :: n in s.parent && n !in s.visited ==> exists i :: 0 <= i < |s.pq| && s.pq[i].node == n)
  }

  /** Counters increase along the queue and none exceeds `counter`. */
  ghost predicate Ascending<N>(pq: seq<Item<N>>, counter: nat)
  {
    (forall i, j :: 0 <= i < j < |pq| ==> pq[i].tie < pq[j].tie)
    && forall i :: 0 <= i < |pq| ==> pq[i].tie <= counter
  }

  /** Every successor of a visited node has a parent. */
  ghost predicate Closed<N>(g: Graph<N>, parent: map<N, Option<N>>, visited: set<N>)
  {
    forall v, x :: v in visited && x in Succ(g, v) ==> x in parent
  }

  ghost predicate Inv<N(!new)>(g: Graph<N>, start: N, goal: N, h: (N, N) -> int, s: Search<N>)
  {
    && ParentsOk(g, start, s.parent, s.visited)
    && OrderOk(g, start, goal, s)
    && QueueOk(goal, h, s)
    && Closed(g, s.parent, s.visited)
    && |s.parent.Keys| == s.counter + 1
    && Ascending(s.pq, s.counter)
  }

  lemma InitInv<N(!new)>(g: Graph<N>, start: N, goal: N, h: (N, N) -> int)
    ensures Inv(g, start, goal, h, Init(start, goal, h))
  {
    StartReachable(g, start);
    var s := Init(start, goal, h);
    assert s.parent.Keys == {start};
    assert s.pq[0].node == start;
    assert s.order == [];
  }

  // ---------------------------------------------------------------------
  // The neighbour loop.
  // ---------------------------------------------------------------------

  /** The loop keeps the old entries of `parent`, gives every new key `node`
      as its parent, and leaves every neighbour visited or with a parent. */
  lemma {:induction false} PushKeeps<N>(goal: N, h: (N, N) -> int, node: N, nbrs: seq<N>, visited: set<N>, parent: map<N, Option<N>>, counter: nat)
    ensures var r := Push(goal, h, node, nbrs, visited, parent, counter);
      && parent.Keys <= r.parent.Keys
      && (forall n :: n in parent ==> r.parent[n] == parent[n])
      && (forall n :: n in r.parent && n !in parent ==> r.parent[n] == Some(node) && n in nbrs && n !in visited)
      && (forall x :: x in nbrs ==> x in visited || x in r.parent)
    decreases |nbrs|
  {
    if |nbrs| > 0 {
      var nb := nbrs[0];
      assert nbrs == [nb] + nbrs[1..];
      if nb !in visited && nb !in parent {
        PushKeeps(goal, h, node, nbrs[1..], visited, parent[nb := Some(node)], counter + 1);
      } else {
        PushKeeps(goal, h, node, nbrs[1..], visited, parent, counter);
      }
    }
  }

  /** The pushed entries carry the next counters in order and their
      heuristic values. */
  lemma {:induction false} PushCounts<N>(goal: N, h: (N, N) -> int, node: N, nbrs: seq<N>, visited: set<N>, parent: map<N, Option<N>>, counter: nat)
    ensures var r := Push(goal, h, node, nbrs, visited, parent, counter);
      && r.counter == counter + |r.pushed|
      && (forall i :: 0 <= i < |r.pushed| ==>
            r.pushed[i].tie == counter + 1 + i && r.pushed[i].h == h(r.pushed[i].node, goal))
    decreases |nbrs|
  {
    if |nbrs| > 0 {
      var nb := nbrs[0];
      if nb !in visited && nb !in parent {
        var r' := Push(goal, h, node, nbrs[1..], visited, parent[nb := Some(node)], counter + 1);
        PushCounts(goal, h, node, nbrs[1..], visited, parent[nb := Some(node)], counter + 1);
        var pushed := [Item(h(nb, goal), counter + 1, nb)] + r'.pushed;
        assert forall i :: 1 <= i < |pushed| ==> pushed[i] == r'.pushed[i - 1];
      } else {
        PushCounts(goal, h, node, nbrs[1..], visited, parent, counter);
      }
    }
  }

  /** The pushed nodes are exactly the new keys of `parent`, each pushed
      once. */
  ghost predicate NewKeys<N>(parent: map<N, Option<N>>, r: Grow<N>)
  {
    && (forall i :: 0 <= i < |r.pushed| ==> r.pushed[i].node in r.parent && r.pushed[i].node !in parent)
    && (forall i, j :: 0 <= i < j < |r.pushed| ==> r.pushed[i].node != r.pushed[j].node)
    && (forall n :: n in r.parent && n !in parent ==> exists i :: 0 <= i < |r.pushed| && r.pushed[i].node == n)
    && |r.parent.Keys| == |parent.Keys| + |r.pushed|
  }

  lemma {:induction false} PushNew<N>(goal: N, h: (N, N) -> int, node: N, nbrs: seq<N>, visited: set<N>, parent: map<N, Option<N>>, counter: nat)
    ensures NewKeys(parent, Push(goal, h, node, nbrs, visited, parent, counter))
    decreases |nbrs|
  {
    if |nbrs| > 0 {
      var nb := nbrs[0];
      if nb !in visited && nb !in parent {
        var parent' := parent[nb := Some(node)];
        var r' := Push(goal, h, node, nbrs[1..], visited, parent', counter + 1);
        PushNew(goal, h, node, nbrs[1..], visited, parent', counter + 1);
        PushKeeps(goal, h, node, nbrs[1..], visited, parent', counter + 1);
        NewKeysCons(parent, nb, node, Item(h(nb, goal), counter + 1, nb), r');
      } else {
        PushNew(goal, h, node, nbrs[1..], visited, parent, counter);
      }
    }
  }

  /** One step of `PushNew` for a neighbour that is pushed. */
  lemma NewKeysCons<N>(parent: map<N, Option<N>>, nb: N, node: N, it: Item<N>, r': Grow<N>)
    requires nb !in parent && it.node == nb
    requires NewKeys(parent[nb := Some(node)], r') && parent[nb := Some(node)].Keys <= r'.parent.Keys
    ensures NewKeys(parent, Grow(r'.parent, r'.counter, [it] + r'.pushed))
  {
    var parent' := parent[nb := Some(node)];
    var pushed := [it] + r'.pushed;
    assert |parent'.Keys| == |parent.Keys| + 1;
    assert forall i :: 1 <= i < |pushed| ==> pushed[i] == r'.pushed[i - 1];
    forall n | n in r'.parent && n !in parent
      ensures exists i :: 0 <= i < |pushed| && pushed[i].node == n
    {
      if n != nb {
        var i :| 0 <= i < |r'.pushed| && r'.pushed[i].node == n;
        assert pushed[i + 1].node == n;
      } else {
        assert pushed[0].node == n;
      }
    }
  }

  // ---------------------------------------------------------------------
  // One pass of the while loop.
  // ---------------------------------------------------------------------

  /** Popping an already visited node changes nothing else. */
  lemma SkipKeepsInv<N(!new)>(g: Graph<N>, start: N, goal: N, h: (N, N) -> int, s: Search<N>, k: nat)
    requires Inv(g, start, goal, h, s) && k < |s.pq| && s.pq[k].node in s.visited
    ensures Inv(g, start, goal, h, Search(Remove(s.pq, k), s.counter, s.parent, s.visited, s.order))
  {
    SkipQueue(goal, h, s, k);
    RemoveAscending(s.pq, k, s.counter);
    var t := Search(Remove(s.pq, k), s.counter, s.parent, s.visited, s.order);
    assert ParentsOk(g, start, t.parent, t.visited) && OrderOk(g, start, goal, t);
  }

  lemma SkipQueue<N>(goal: N, h: (N, N) -> int, s: Search<N>, k: nat)
    requires QueueOk(goal, h, s) && k < |s.pq| && s.pq[k].node in s.visited
    ensures QueueOk(goal, h, Search(Remove(s.pq, k), s.counter, s.parent, s.visited, s.order))
  {
    var rest := Remove(s.pq, k);
    forall n | n in s.parent && n !in s.visited
      ensures exists i :: 0 <= i < |rest| && rest[i].node == n
    {
      var i :| 0 <= i < |s.pq| && s.pq[i].node == n;
      assert i != k;
      assert rest[if i < k then i else i - 1] == s.pq[i];
    }
    forall i | 0 <= i < |rest|
      ensures rest[i].node in s.parent && rest[i].h == h(rest[i].node, goal)
    {
      assert rest[i] == s.pq[if i < k then i else i + 1];
    }
  }

  lemma RemoveAscending<N>(pq: seq<Item<N>>, k: nat, counter: nat)
    requires Ascending(pq, counter) && k < |pq|
    ensures Ascending(Remove(pq, k), counter)
  {
    var rest := Remove(pq, k);
    forall i, j | 0 <= i < j < |rest|
      ensures rest[i].tie < rest[j].tie
    {
      assert rest[i] == pq[if i < k then i else i + 1];
      assert rest[j] == pq[if j < k then j else j + 1];
    }
  }

  /** Appending a newly popped node to `order` keeps the parent chain. */
  lemma VisitKeepsChain<N(!new)>(g: Graph<N>, start: N, goal: N, h: (N, N) -> int, s: Search<N>, k: nat)
    requires Inv(g, start, goal, h, s) && k < |s.pq| && s.pq[k].node !in s.visited
    ensures Chain(g, start, s.parent, s.order + [s.pq[k].node])
    ensures NoDups(s.order + [s.pq[k].node]) && (s.order + [s.pq[k].node])[0] == start
  {
    var node := s.pq[k].node;
    var o := s.order + [node];
    if |s.order| == 0 {
      assert node == start;
    }
    forall i | 0 <= i < |o|
      ensures o[i] in s.parent && (s.parent[o[i]].None? <==> o[i] == start)
      ensures s.parent[o[i]].Some? ==> s.parent[o[i]].value in o[..i] && o[i] in Succ(g, s.parent[o[i]].value)
    {
      if i < |s.order| {
        assert o[i] == s.order[i] && o[..i] == s.order[..i];
      } else {
        assert o[..i] == s.order;
      }
    }
    NoDupsAppend(s.order, node);
  }

  /** The state after expanding the `k`-th entry, which is neither visited nor
      the goal. */
  function Expand<N>(g: Graph<N>, goal: N, h: (N, N) -> int, s: Search<N>, k: nat): Search<N>
    requires k < |s.pq|
  {
    var node := s.pq[k].node;
    var r := Push(goal, h, node, Succ(g, node), s.visited + {node}, s.parent, s.counter);
    Search(Remove(s.pq, k) + r.pushed, r.counter, r.parent, s.visited + {node}, s.order + [node])
  }

  /** Expanding a node that is not the goal keeps the invariant. */
  lemma ExpandKeepsInv<N(!new)>(g: Graph<N>, start: N, goal: N, h: (N, N) -> int, s: Search<N>, k: nat)
    requires Inv(g, start, goal, h, s) && k < |s.pq|
    requires s.pq[k].node !in s.visited && s.pq[k].node != goal
    ensures Inv(g, start, goal, h, Expand(g, goal, h, s, k))
  {
    var node := s.pq[k].node;
    var t := Expand(g, goal, h, s, k);
    PushKeeps(goal, h, node, Succ(g, node), t.visited, s.parent, s.counter);
    PushCounts(goal, h, node, Succ(g, node), t.visited, s.parent, s.counter);
    PushNew(goal, h, node, Succ(g, node), t.visited, s.parent, s.counter);
    ExpandParents(g, start, goal, h, s, k);
    ExpandClosed(g, start, goal, h, s, k);
    ExpandOrder(g, start, goal, h, s, k);
    ExpandQueue(g, start, goal, h, s, k);
    ExpandAscending(g, goal, h, s, k);
  }

  /** After expansion every parent entry is an edge from a visited node, and
      every new key lies in the universe and is reachable. */
  lemma ExpandParents<N(!new)>(g: Graph<N>, start: N, goal: N, h: (N, N) -> int, s: Search<N>, k: nat)
    requires Inv(g, start, goal, h, s) && k < |s.pq|
    requires s.pq[k].node !in s.visited && s.pq[k].node != goal
    ensures var t := Expand(g, goal, h, s, k);
      ParentsOk(g, start, t.parent, t.visited)
  {
    var node := s.pq[k].node;
    var t := Expand(g, goal, h, s, k);
    PushKeeps(goal, h, node, Succ(g, node), t.visited, s.parent, s.counter);
    assert node in s.parent;
    assert Reachable(g, start, node);
    var p :| PathFrom(g, start, p) && Last(p) == node;
    forall n | n in t.parent && n !in s.parent
      ensures n in Universe(g, start) && Reachable(g, start, n)
    {
      SuccInNodes(g, node, n);
      PathExtend(g, start, p, n);
    }
  }

  /** After expansion every successor of a visited node has a parent entry. */
  lemma ExpandClosed<N(!new)>(g: Graph<N>, start: N, goal: N, h: (N, N) -> int, s: Search<N>, k: nat)
    requires Inv(g, start, goal, h, s) && k < |s.pq|
    requires s.pq[k].node !in s.visited && s.pq[k].node != goal
    ensures var t := Expand(g, goal, h, s, k);
      Closed(g, t.parent, t.visited)
  {
    var node := s.pq[k].node;
    var t := Expand(g, goal, h, s, k);
    PushKeeps(goal, h, node, Succ(g, node), t.visited, s.parent, s.counter);
  }

  lemma ExpandOrder<N(!new)>(g: Graph<N>, start: N, goal: N, h: (N, N) -> int, s: Search<N>, k: nat)
    requires Inv(g, start, goal, h, s) && k < |s.pq|
    requires s.pq[k].node !in s.visited && s.pq[k].node != goal
    ensures OrderOk(g, start, goal, Expand(g, goal, h, s, k))
  {
    var node := s.pq[k].node;
    var t := Expand(g, goal, h, s, k);
    PushKeeps(goal, h, node, Succ(g, node), t.visited, s.parent, s.counter);
    VisitKeepsChain(g, start, goal, h, s, k);
    ExpandChain(g, start, s.parent, t.parent, t.order);
    ElemsAppend(s.order, node);
  }

  /** After expansion the queue holds the right entries. */
  lemma ExpandQueue<N(!new)>(g: Graph<N>, start: N, goal: N, h: (N, N) -> int, s: Search<N>, k: nat)
    requires Inv(g, start, goal, h, s) && k < |s.pq|
    requires s.pq[k].node !in s.visited && s.pq[k].node != goal
    ensures QueueOk(goal, h, Expand(g, goal, h, s, k))
  {
    var node := s.pq[k].node;
    var t := Expand(g, goal, h, s, k);
    var r := Push(goal, h, node, Succ(g, node), t.visited, s.parent, s.counter);
    PushKeeps(goal, h, node, Succ(g, node), t.visited, s.parent, s.counter);
    PushCounts(goal, h, node, Succ(g, node), t.visited, s.parent, s.counter);
    PushNew(goal, h, node, Succ(g, node), t.visited, s.parent, s.counter);
    QueueAfter(goal, h, s.pq, k, r.pushed, s.parent, r.parent, s.visited);
  }

  /** The queue facts for the remaining entries followed by the pushed ones,
      stated over the pieces alone. */
  lemma QueueAfter<N>(goal: N, h: (N, N) -> int, pq: seq<Item<N>>, k: nat, pushed: seq<Item<N>>,
                      parent: map<N, Option<N>>, parent': map<N, Option<N>>, visited: set<N>)
    requires k < |pq| && parent.Keys <= parent'.Keys
    requires forall i :: 0 <= i < |pq| ==> pq[i].node in parent && pq[i].h == h(pq[i].node, goal)
    requires forall n :: n in parent && n !in visited ==> exists i :: 0 <= i < |pq| && pq[i].node == n
    requires forall i :: 0 <= i < |pushed| ==> pushed[i].node in parent' && pushed[i].h == h(pushed[i].node, goal)
    requires forall n :: n in parent' && n !in parent ==> exists i :: 0 <= i < |pushed| && pushed[i].node == n
    ensures var q := Remove(pq, k) + pushed;
      && (forall i :: 0 <= i < |q| ==> q[i].node in parent' && q[i].h == h(q[i].node, goal))
      && (forall n :: n in parent' && n !in visited + {pq[k].node} ==> exists i :: 0 <= i < |q| && q[i].node == n)
  {
    var rest := Remove(pq, k);
    var q := rest + pushed;
    forall i | 0 <= i < |q|
      ensures q[i].node in parent' && q[i].h == h(q[i].node, goal)
    {
      if i < |rest| {
        assert q[i] == pq[if i < k then i else i + 1];
      } else {
        assert q[i] == pushed[i - |rest|];
      }
    }
    forall n | n in parent' && n !in visited + {pq[k].node}
      ensures exists i :: 0 <= i < |q| && q[i].node == n
    {
      if n in parent {
        var i :| 0 <= i < |pq| && pq[i].node == n;
        assert i != k;
        assert q[if i < k then i else i - 1] == pq[i];
      } else {
        var i :| 0 <= i < |pushed| && pushed[i].node == n;
        assert q[|rest| + i] == pushed[i];
      }
    }
  }

  /** After expansion counters still increase along the queue. */
  lemma ExpandAscending<N(!new)>(g: Graph<N>, goal: N, h: (N, N) -> int, s: Search<N>, k: nat)
    requires Ascending(s.pq, s.counter) && k < |s.pq|
    ensures Ascending(Expand(g, goal, h, s, k).pq, Expand(g, goal, h, s, k).counter)
  {
    var node := s.pq[k].node;
    var t := Expand(g, goal, h, s, k);
    var r := Push(goal, h, node, Succ(g, node), t.visited, s.parent, s.counter);
    PushCounts(goal, h, node, Succ(g, node), t.visited, s.parent, s.counter);
    var rest := Remove(s.pq, k);
    RemoveAscending(s.pq, k, s.counter);
    assert t.pq == rest + r.pushed;
    forall i, j | 0 <= i < j < |t.pq|
      ensures t.pq[i].tie < t.pq[j].tie
    {
      if j >= |rest| {
        assert t.pq[j] == r.pushed[j - |rest|];
        if i < |rest| {
          assert t.pq[i] == rest[i];
        } else {
          assert t.pq[i] == r.pushed[i - |rest|];
        }
      }
    }
    forall i | 0 <= i < |t.pq|
      ensures t.pq[i].tie <= t.counter
    {
      if i >= |rest| {
        assert t.pq[i] == r.pushed[i - |rest|];
      }
    }
  }

  /** A parent map that keeps its old entries keeps the chain along `order`. */
  lemma ExpandChain<N>(g: Graph<N>, start: N, parent: map<N, Option<N>>, parent': map<N, Option<N>>, order: seq<N>)
    requires Chain(g, start, parent, order)
    requires parent.Keys <= parent'.Keys && forall n :: n in parent ==> parent'[n] == parent[n]
    ensures Chain(g, start, parent', order)
  {
  }

  // ---------------------------------------------------------------------
  // What the loop returns.
  // ---------------------------------------------------------------------

  /** What `best_first_search` promises about its result. */
  ghost predicate Sound<N(!new)>(g: Graph<N>, start: N, goal: N, r: Outcome<N>)
  {
    && |r.visited| > 0 && r.visited[0] == start && NoDups(r.visited)
    && (forall x :: x in r.visited ==> Reachable(g, start, x))
    && (r.found ==> Last(r.visited) == goal && PathFrom(g, start, r.path) && Last(r.path) == goal)
    && (!r.found ==> r.path == [] && goal !in r.visited)
    && (r.found <==> Reachable(g, start, goal))
  }

  lemma {:induction false} RunCorrect<N(!new)>(g: Graph<N>, start: N, goal: N, h: (N, N) -> int, s: Search<N>)
    requires Inv(g, start, goal, h, s)
    ensures Sound(g, start, goal, Run(g, start, goal, h, s))
    decreases |Universe(g, start) - s.visited|, |s.pq|
  {
    if |s.pq| == 0 {
      assert Run(g, start, goal, h, s) == Outcome(false, s.order, []);
      EmptySound(g, start, goal, h, s);
    } else {
      var k := MinIndex(s.pq);
      var node := s.pq[k].node;
      if node in s.visited {
        var t := Search(Remove(s.pq, k), s.counter, s.parent, s.visited, s.order);
        SkipKeepsInv(g, start, goal, h, s, k);
        assert Run(g, start, goal, h, s) == Run(g, start, goal, h, t);
        RunCorrect(g, start, goal, h, t);
      } else if node == goal {
        GoalSound(g, start, goal, h, s, k);
      } else {
        var t := Expand(g, goal, h, s, k);
        ExpandKeepsInv(g, start, goal, h, s, k);
        DiffShrinks(Universe(g, start), s.visited, t.visited);
        assert Run(g, start, goal, h, s) == Run(g, start, goal, h, t);
        RunCorrect(g, start, goal, h, t);
      }
    }
  }

  /** When the queue is empty every parent key is visited, the visited set is
      closed under successors, and so the goal is unreachable. */
  lemma EmptySound<N(!new)>(g: Graph<N>, start: N, goal: N, h: (N, N) -> int, s: Search<N>)
    requires Inv(g, start, goal, h, s) && |s.pq| == 0
    ensures Sound(g, start, goal, Outcome(false, s.order, []))
  {
    assert start in s.visited;
    if Reachable(g, start, goal) {
      var p :| PathFrom(g, start, p) && Last(p) == goal;
      ClosedSetHoldsReachable(g, start, s.visited, p);
    }
  }

  /** Popping the goal ends the search with a path to it. */
  lemma GoalSound<N(!new)>(g: Graph<N>, start: N, goal: N, h: (N, N) -> int, s: Search<N>, k: nat)
    requires Inv(g, start, goal, h, s) && |s.pq| > 0 && k == MinIndex(s.pq)
    requires s.pq[k].node !in s.visited && s.pq[k].node == goal
    ensures Sound(g, start, goal, Run(g, start, goal, h, s))
  {
    VisitKeepsChain(g, start, goal, h, s, k);
    var o := s.order + [goal];
    var p := Reconstruct(g, start, s.parent, o, goal);
    assert Run(g, start, goal, h, s) == Outcome(true, o, p);
    PathEndReachable(g, start, p);
    assert goal in s.parent;
  }

  // ---------------------------------------------------------------------
  // Each node is pushed once; pop order.
  // ---------------------------------------------------------------------

  /** No two queue entries share a node and no queued node is visited: each
      node enters the queue at most once, so the `if node in visited:
      continue` branch is never taken. */
  ghost predicate Fresh<N>(s: Search<N>)
  {
    && (forall i, j :: 0 <= i < j < |s.pq| ==> s.pq[i].node != s.pq[j].node)
    && (forall i :: 0 <= i < |s.pq| ==> s.pq[i].node !in s.visited)
  }

  lemma InitFresh<N>(start: N, goal: N, h: (N, N) -> int)
    ensures Fresh(Init(start, goal, h))
  {
  }

  /** Expansion pushes only nodes that had no parent, so `Fresh` is kept. */
  lemma ExpandKeepsFresh<N(!new)>(g: Graph<N>, start: N, goal: N, h: (N, N) -> int, s: Search<N>, k: nat)
    requires Inv(g, start, goal, h, s) && Fresh(s) && k < |s.pq|
    requires s.pq[k].node != goal
    ensures Fresh(Expand(g, goal, h, s, k))
  {
    var node := s.pq[k].node;
    var t := Expand(g, goal, h, s, k);
    var r := Push(goal, h, node, Succ(g, node), t.visited, s.parent, s.counter);
    PushNew(goal, h, node, Succ(g, node), t.visited, s.parent, s.counter);
    forall v | v in t.visited
      ensures v in s.parent
    {
      if v != node {
        assert v in Elems(s.order);
      }
    }
    FreshAfter(s.pq, k, r.pushed, s.parent, s.visited);
  }

  /** `Fresh` for the remaining entries followed by entries for nodes that
      had no parent, stated over the pieces alone. */
  lemma FreshAfter<N>(pq: seq<Item<N>>, k: nat, pushed: seq<Item<N>>, parent: map<N, Option<N>>, visited: set<N>)
    requires k < |pq| && visited + {pq[k].node} <= parent.Keys
    requires forall i, j :: 0 <= i < j < |pq| ==> pq[i].node != pq[j].node
    requires forall i :: 0 <= i < |pq| ==> pq[i].node !in visited && pq[i].node in parent
    requires forall i, j :: 0 <= i < j < |pushed| ==> pushed[i].node != pushed[j].node
    requires forall i :: 0 <= i < |pushed| ==> pushed[i].node !in parent
    ensures var q := Remove(pq, k) + pushed;
      && (forall i, j :: 0 <= i < j < |q| ==> q[i].node != q[j].node)
      && (forall i :: 0 <= i < |q| ==> q[i].node !in visited + {pq[k].node})
  {
    var rest := Remove(pq, k);
    var q := rest + pushed;
    forall i, j | 0 <= i < j < |q|
      ensures q[i].node != q[j].node
    {
      if j < |rest| {
        assert q[i] == pq[if i < k then i else i + 1];
        assert q[j] == pq[if j < k then j else j + 1];
      } else if i < |rest| {
        assert q[i] == pq[if i < k then i else i + 1];
        assert q[j] == pushed[j - |rest|];
      } else {
        assert q[i] == pushed[i - |rest|];
        assert q[j] == pushed[j - |rest|];
      }
    }
    forall i | 0 <= i < |q|
      ensures q[i].node !in visited + {pq[k].node}
    {
      if i < |rest| {
        assert q[i] == pq[if i < k then i else i + 1];
      } else {
        assert q[i] == pushed[i - |rest|];
      }
    }
  }

  /** With counters increasing along the queue, the popped entry is the first
      one of least heuristic value: ties go to the earliest pushed. */
  lemma PopOrder<N>(pq: seq<Item<N>>, counter: nat)
    requires |pq| > 0 && Ascending(pq, counter)
    ensures forall j :: 0 <= j < |pq| ==> pq[MinIndex(pq)].h <= pq[j].h
    ensures forall j :: 0 <= j < MinIndex(pq) ==> pq[MinIndex(pq)].h < pq[j].h
  {
  }
}

=== FILE: breadth_first.dfy ===
/** `breadth_first_search` (uninformed/breadth_first_search.py): a FIFO queue
    of (node, path) pairs, nodes marked as seen when they are discovered, and
    the dequeue order returned alongside the path. */
module BreadthFirst {
  import opened Graphs

  /** A queue element: a node and the path by which it was discovered. */
  datatype Entry<N> = Entry(node: N, path: seq<N>)

  /** The loop's variables: `q`, `visited_set` and `visited`. */
  datatype State<N> = State(queue: seq<Entry<N>>, seen: set<N>, visited: seq<N>)

  /** The returned pair (visited, path); `path` is None when the goal is not found. */
  datatype Outcome<N> = Outcome(visited: seq<N>, path: Option<seq<N>>)

  function QNodes<N>(q: seq<Entry<N>>): (r: seq<N>)
    ensures |r| == |q|
    ensures forall k :: 0 <= k < |q| ==> r[k] == q[k].node
  {
    seq(|q|, k requires 0 <= k < |q| => q[k].node)
  }

  // ---------------------------------------------------------------------
  // The algorithm.
  // ---------------------------------------------------------------------

  /** The inner `for neighbor in graph[node]` loop: each neighbour not yet
      seen is marked seen and enqueued with the path extended by it. */
  function Discover<N>(nbrs: seq<N>, path: seq<N>, q: seq<Entry<N>>, seen: set<N>): (r: (seq<Entry<N>>, set<N>))
    ensures r.1 == seen + Elems(nbrs)
    ensures |q| <= |r.0| && r.0[..|q|] == q
    ensures forall k :: |q| <= k < |r.0| ==>
      r.0[k].node in nbrs && r.0[k].node !in seen && r.0[k].path == path + [r.0[k].node]
    ensures r.1 == seen ==> r.0 == q
    decreases |nbrs|
  {
    if |nbrs| == 0 then (q, seen)
    else
      var x := nbrs[0];
      assert nbrs == [x] + nbrs[1..];
      if x in seen then Discover(nbrs[1..], path, q, seen)
      else
        var q' := q + [Entry(x, path + [x])];
        var r := Discover(nbrs[1..], path, q', seen + {x});
        assert r.0[..|q|] == r.0[..|q'|][..|q|];
        r
  }

  /** The nodes `Discover` enqueues are exactly the unseen neighbours, each
      once: the queue stays free of duplicates. */
  lemma {:induction false} DiscoverNodes<N>(nbrs: seq<N>, path: seq<N>, q: seq<Entry<N>>, seen: set<N>)
    requires Elems(QNodes(q)) <= seen && NoDups(QNodes(q))
    ensures Elems(QNodes(Discover(nbrs, path, q, seen).0)) == Elems(QNodes(q)) + (Elems(nbrs) - seen)
    ensures NoDups(QNodes(Discover(nbrs, path, q, seen).0))
    decreases |nbrs|
  {
    if |nbrs| > 0 {
      var x := nbrs[0];
      assert nbrs == [x] + nbrs[1..];
      if x in seen {
        DiscoverNodes(nbrs[1..], path, q, seen);
      } else {
        var q' := q + [Entry(x, path + [x])];
        assert QNodes(q') == QNodes(q) + [x];
        NoDupsAppend(QNodes(q), x);
        DiscoverNodes(nbrs[1..], path, q', seen + {x});
      }
    }
  }

  /** One pass of the while loop for a dequeued node that is not the goal. */
  function Next<N>(g: Graph<N>, s: State<N>): State<N>
    requires |s.queue| > 0 && s.queue[0].node in g
  {
    var e := s.queue[0];
    var (q, seen) := Discover(g[e.node], e.path, s.queue[1..], s.seen);
    State(q, seen, s.visited + [e.node])
  }

  function Init<N>(start: N): State<N>
  {
    State([Entry(start, [start])], {start}, [])
  }

  /** The while loop. A dequeued node that is not the goal and has no entry
      makes `graph[node]` raise KeyError. */
  function Run<N(!new)>(g: Graph<N>, start: N, goal: N, s: State<N>): Checked<Outcome<N>, N>
    requires Inv(g, start, goal, s)
    decreases |Universe(g, start) - s.seen|, |s.queue|
  {
    if |s.queue| == 0 then Returns(Outcome(s.visited, None))
    else if s.queue[0].node == goal then Returns(Outcome(s.visited + [goal], Some(s.queue[0].path)))
    else if s.queue[0].node !in g then KeyError(s.queue[0].node)
    else
      NextPreservesInv(g, start, goal, s);
      Run(g, start, goal, Next(g, s))
  }

  /** breadth_first_search(graph, start, goal). */
  function BreadthFirstSearch<N(!new)>(g: Graph<N>, start: N, goal: N): (r: Checked<Outcome<N>, N>)
    ensures r.Returns? ==> NoDups(r.value.visited)
    ensures r.Returns? ==> |r.value.visited| > 0 && r.value.visited[0] == start
    ensures r.Returns? && r.value.path.Some? ==>
      var o := r.value;
      PathFrom(g, start, o.path.value) && Last(o.path.value) == goal && Last(o.visited) == goal
    ensures r.Returns? && r.value.path.Some? ==>
      forall p :: PathFrom(g, start, p) && Last(p) == goal ==> |r.value.path.value| <= |p|
    ensures r.Returns? ==> (r.value.path.None? <==> !Reachable(g, start, goal))
    ensures r.KeyError? ==> r.key !in g && r.key != goal && ReachedBeforeGoal(g, start, goal, r.key)
    ensures KeysBeforeGoal(g, start, goal) ==> r.Returns?
  {
    InitInv(g, start, goal);
    RunCorrect(g, start, goal, Init(start));
    Run(g, start, goal, Init(start))
  }

  /** Only the nodes the search expands need an entry: on {0: [1, 2]} the
      search from 0 for 1 returns ([0, 1], [0, 1]) and never reads
      `graph[1]` or `graph[2]`, although 2 lacks an entry. */
  lemma UnkeyedSiblingExample()
    ensures !KeysBeforeGoal(map[0 := [1, 2]], 0, 1)
    ensures BreadthFirstSearch(map[0 := [1, 2]], 0, 1) == Returns(Outcome([0, 1], Some([0, 1])))
  {
    SiblingUnkeyed();
    InitInv(map[0 := [1, 2]], 0, 1);
    SiblingRun();
  }

  lemma SiblingUnkeyed()
    ensures !KeysBeforeGoal(map[0 := [1, 2]], 0, 1)
  {
    var g: Graph<int> := map[0 := [1, 2]];
    assert 2 in Succ(g, 0);
    assert PathFrom(g, 0, [0, 2]);
    MissingBeforeGoal(g, 0, 1, [0, 2]);
  }

  lemma SiblingRun()
    requires Inv(map[0 := [1, 2]], 0, 1, Init(0))
    ensures Run(map[0 := [1, 2]], 0, 1, Init(0)) == Returns(Outcome([0, 1], Some([0, 1])))
  {
    SiblingNextInv();
  }

  lemma SiblingNextInv()
    ensures 0 in map[0 := [1, 2]]
    ensures Next(map[0 := [1, 2]], Init(0)) == State([Entry(1, [0, 1]), Entry(2, [0, 2])], {0, 1, 2}, [0])
    ensures Inv(map[0 := [1, 2]], 0, 1, State([Entry(1, [0, 1]), Entry(2, [0, 2])], {0, 1, 2}, [0]))
  {
    SiblingStep();
    InitInv(map[0 := [1, 2]], 0, 1);
    NextPreservesInv(map[0 := [1, 2]], 0, 1, Init(0));
  }

  /** The one expansion on {0: [1, 2]}: 0 is dequeued, 1 and 2 enqueued. */
  lemma SiblingStep()
    ensures Next(map[0 := [1, 2]], Init(0)) == State([Entry(1, [0, 1]), Entry(2, [0, 2])], {0, 1, 2}, [0])
  {
    var e: seq<Entry<int>> := [];
    var nbrs: seq<int> := [1, 2];
    var q1 := [Entry(1, [0, 1])];
    var q2 := [Entry(1, [0, 1]), Entry(2, [0, 2])];
    assert nbrs[0] == 1 && nbrs[1..] == [2] && [2][0] == 2 && [2][1..] == [];
    var p1: seq<int> := [0] + [1];
    var p2: seq<int> := [0] + [2];
    assert p1 == [0, 1] && p2 == [0, 2];
    assert e + [Entry(1, p1)] == q1;
    assert q1 + [Entry(2, p2)] == q2;
    assert {0} + {1} == {0, 1} && {0, 1} + {2} == {0, 1, 2};
    assert Discover([], [0], q2, {0, 1, 2}) == (q2, {0, 1, 2});
    assert Discover([2], [0], q1, {0, 1}) == (q2, {0, 1, 2});
    assert Discover(nbrs, [0], e, {0}) == (q2, {0, 1, 2});
  }

  /** A node expanded before the goal must have an entry: on {0: [2]} the
      search from 0 for 1 dequeues 2 and raises KeyError at `graph[2]`. */
  lemma KeyErrorExample()
    ensures BreadthFirstSearch(map[0 := [2]], 0, 1) == KeyError(2)
  {
    InitInv(map[0 := [2]], 0, 1);
    MissingRun();
  }

  lemma MissingRun()
    requires Inv(map[0 := [2]], 0, 1, Init(0))
    ensures Run(map[0 := [2]], 0, 1, Init(0)) == KeyError(2)
  {
    MissingNextInv();
  }

  lemma MissingNextInv()
    ensures 0 in map[0 := [2]]
    ensures Next(map[0 := [2]], Init(0)) == State([Entry(2, [0, 2])], {0, 2}, [0])
    ensures Inv(map[0 := [2]], 0, 1, State([Entry(2, [0, 2])], {0, 2}, [0]))
  {
    MissingStep();
    InitInv(map[0 := [2]], 0, 1);
    NextPreservesInv(map[0 := [2]], 0, 1, Init(0));
  }

  /** The one expansion on {0: [2]}: 0 is dequeued and 2 enqueued. */
  lemma MissingStep()
    ensures Next(map[0 := [2]], Init(0)) == State([Entry(2, [0, 2])], {0, 2}, [0])
  {
    var e: seq<Entry<int>> := [];
    var nbrs: seq<int> := [2];
    var q1 := [Entry(2, [0, 2])];
    assert nbrs[0] == 2 && nbrs[1..] == [];
    var p2: seq<int> := [0] + [2];
    assert p2 == [0, 2];
    assert e + [Entry(2, p2)] == q1;
    assert {0} + {2} == {0, 2};
    assert Discover([], [0], q1, {0, 2}) == (q1, {0, 2});
    assert Discover(nbrs, [0], e, {0}) == (q1, {0, 2});
  }

  // ---------------------------------------------------------------------
  // The loop invariant.
  // ---------------------------------------------------------------------

  /** Queue path lengths never decrease along the queue and span at most two
      consecutive values. */
  ghost predicate Layered<N>(q: seq<Entry<N>>)
  {
    && (forall i, j :: 0 <= i < j < |q| ==> |q[i].path| <= |q[j].path|)
    && (forall k :: 0 <= k < |q| ==> |q[k].path| <= |q[0].path| + 1)
  }

  /** Every queued path is a shortest path to its node. */
  ghost predicate Shortest<N(!new)>(g: Graph<N>, start: N, q: seq<Entry<N>>)
  {
    forall k, p :: 0 <= k < |q| && PathFrom(g, start, p) && Last(p) == q[k].node ==> |q[k].path| <= |p|
  }

  /** Every node with a path of fewer than `d` nodes has been dequeued. */
  ghost predicate DoneBelow<N(!new)>(g: Graph<N>, start: N, visited: seq<N>, d: nat)
  {
    forall p :: PathFrom(g, start, p) && |p| < d ==> Last(p) in visited
  }

  /** Every node with a path of at most `d` nodes has been discovered. */
  ghost predicate SeenUpTo<N(!new)>(g: Graph<N>, start: N, seen: set<N>, d: nat)
  {
    forall p :: PathFrom(g, start, p) && |p| <= d ==> Last(p) in seen
  }

  ghost predicate Bookkeeping<N>(g: Graph<N>, start: N, goal: N, s: State<N>)
  {
    var q := s.queue;
    && s.seen <= Universe(g, start)
    && start in s.seen
    && s.seen == Elems(s.visited) + Elems(QNodes(q))
    && NoDups(s.visited) && NoDups(QNodes(q))
    && (forall k :: 0 <= k < |q| ==> q[k].node !in s.visited)
    && goal !in s.visited
    && (|s.visited| == 0 ==> q == [Entry(start, [start])])
    && (|s.visited| > 0 ==> s.visited[0] == start)
    && (forall u, x :: u in s.visited && x in Succ(g, u) ==> x in s.seen)
    && (forall k :: 0 <= k < |q| ==> PathFrom(g, start, q[k].path) && Last(q[k].path) == q[k].node)
  }

  ghost predicate Inv<N(!new)>(g: Graph<N>, start: N, goal: N, s: State<N>)
  {
    && Bookkeeping(g, start, goal, s)
    && Ancestry(s)
    && Layered(s.queue)
    && Shortest(g, start, s.queue)
    && (|s.queue| > 0 ==>
          DoneBelow(g, start, s.visited, |s.queue[0].path|)
          && SeenUpTo(g, start, s.seen, |s.queue[0].path|))
  }

  /** Every node on a queued path before its last one has been dequeued:
      a queued path is its parent's path, and the parent was dequeued. */
  ghost predicate Ancestry<N>(s: State<N>)
  {
    forall k, i :: 0 <= k < |s.queue| && 0 <= i < |s.queue[k].path| - 1 ==> s.queue[k].path[i] in s.visited
  }

  /** The dequeued node, when it is not the goal, is reached before the goal:
      its path from the start runs through dequeued nodes only, and none of
      them is the goal. */
  lemma HeadBeforeGoal<N(!new)>(g: Graph<N>, start: N, goal: N, s: State<N>)
    requires Bookkeeping(g, start, goal, s) && Ancestry(s)
    requires |s.queue| > 0 && s.queue[0].node != goal
    ensures PathFrom(g, start, s.queue[0].path) && goal !in s.queue[0].path
    ensures Last(s.queue[0].path) == s.queue[0].node
  {
    var p := s.queue[0].path;
    forall i | 0 <= i < |p|
      ensures p[i] != goal
    {
      if i < |p| - 1 {
        assert p[i] in s.visited;
      }
    }
  }

  /** A pass keeps `Ancestry`: the old entries keep their paths, the new ones
      extend the dequeued node's path by one node, and the dequeued node joins
      `visited`. */
  lemma NextAncestry<N(!new)>(g: Graph<N>, start: N, goal: N, s: State<N>)
    requires Bookkeeping(g, start, goal, s) && Ancestry(s)
    requires |s.queue| > 0 && s.queue[0].node != goal && s.queue[0].node in g
    ensures Ancestry(Next(g, s))
  {
    var e := s.queue[0];
    var rest := s.queue[1..];
    var s' := Next(g, s);
    var q' := s'.queue;
    forall k, i | 0 <= k < |q'| && 0 <= i < |q'[k].path| - 1
      ensures q'[k].path[i] in s'.visited
    {
      if k < |rest| {
        assert q'[k] == s.queue[k + 1];
      } else {
        assert q'[k].path == e.path + [q'[k].node];
        if i < |e.path| - 1 {
          assert e.path[i] in s.visited;
        } else {
          assert q'[k].path[i] == Last(e.path) == e.node;
        }
      }
    }
  }

  lemma InitInv<N(!new)>(g: Graph<N>, start: N, goal: N)
    ensures Inv(g, start, goal, Init(start))
  {
    var s := Init(start);
    assert QNodes(s.queue) == [start];
    assert PathFrom(g, start, [start]);
    forall p | PathFrom(g, start, p) && |p| <= 1
      ensures Last(p) in s.seen
    {
      assert p == [start];
    }
  }

  /** Dequeuing the head of a duplicate-free queue whose nodes are all seen
      leaves a duplicate-free rest, all seen, without the head's node. */
  lemma DequeueNodes<N>(q: seq<Entry<N>>, seen: set<N>)
    requires |q| > 0 && NoDups(QNodes(q)) && Elems(QNodes(q)) <= seen
    ensures QNodes(q) == [q[0].node] + QNodes(q[1..])
    ensures Elems(QNodes(q[1..])) <= seen && NoDups(QNodes(q[1..]))
    ensures q[0].node !in QNodes(q[1..])
  {
    var rest := q[1..];
    assert QNodes(q) == [q[0].node] + QNodes(rest);
    forall i, j | 0 <= i < j < |rest|
      ensures QNodes(rest)[i] != QNodes(rest)[j]
    {
      assert QNodes(q)[i + 1] != QNodes(q)[j + 1];
    }
    forall k | 0 <= k < |rest|
      ensures rest[k].node != q[0].node
    {
      assert QNodes(q)[0] != QNodes(q)[k + 1];
    }
  }

  lemma NextBookkeeping<N(!new)>(g: Graph<N>, start: N, goal: N, s: State<N>)
    requires Bookkeeping(g, start, goal, s)
    requires |s.queue| > 0 && s.queue[0].node != goal && s.queue[0].node in g
    ensures Bookkeeping(g, start, goal, Next(g, s))
    ensures Next(g, s).seen == s.seen + Elems(Succ(g, s.queue[0].node))
  {
    var e := s.queue[0];
    var rest := s.queue[1..];
    DequeueNodes(s.queue, s.seen);
    NoDupsAppend(s.visited, e.node);
    DiscoverNodes(g[e.node], e.path, rest, s.seen);
    NextQueuePaths(g, start, goal, s);
    NextClosed(g, start, goal, s);
  }

  /** Every queued entry after a pass is an unvisited node reached by its path. */
  lemma NextQueuePaths<N(!new)>(g: Graph<N>, start: N, goal: N, s: State<N>)
    requires Bookkeeping(g, start, goal, s)
    requires |s.queue| > 0 && s.queue[0].node != goal && s.queue[0].node in g
    ensures forall k :: 0 <= k < |Next(g, s).queue| ==>
      && Next(g, s).queue[k].node !in Next(g, s).visited
      && PathFrom(g, start, Next(g, s).queue[k].path)
      && Last(Next(g, s).queue[k].path) == Next(g, s).queue[k].node
  {
    var e := s.queue[0];
    var rest := s.queue[1..];
    var s' := Next(g, s);
    var q' := s'.queue;
    assert QNodes(s.queue)[0] == e.node;
    forall k | 0 <= k < |q'|
      ensures q'[k].node !in s'.visited
      ensures PathFrom(g, start, q'[k].path) && Last(q'[k].path) == q'[k].node
    {
      if k < |rest| {
        assert q'[k] == rest[k] == s.queue[k + 1];
        assert QNodes(s.queue)[0] != QNodes(s.queue)[k + 1];
      } else {
        assert q'[k].node in g[e.node] && q'[k].node !in s.seen;
        PathExtend(g, start, e.path, q'[k].node);
      }
    }
  }

  /** After a pass the seen set still lies in the universe and holds every
      successor of every dequeued node. */
  lemma NextClosed<N(!new)>(g: Graph<N>, start: N, goal: N, s: State<N>)
    requires Bookkeeping(g, start, goal, s)
    requires |s.queue| > 0 && s.queue[0].node != goal && s.queue[0].node in g
    ensures Next(g, s).seen <= Universe(g, start)
    ensures forall u, x :: u in Next(g, s).visited && x in Succ(g, u) ==> x in Next(g, s).seen
  {
    var e := s.queue[0];
    var s' := Next(g, s);
    forall u, x | u in s'.visited && x in Succ(g, u)
      ensures x in s'.seen
    {
      if u != e.node {
        assert u in s.visited;
      }
    }
    forall x | x in s'.seen
      ensures x in Universe(g, start)
    {
      if x !in s.seen {
        SuccInNodes(g, e.node, x);
      }
    }
  }

  /** The queue after one pass: the old queue without its head, followed by
      newly discovered successors of the head, one step further away. */
  lemma NextShape<N(!new)>(g: Graph<N>, start: N, goal: N, s: State<N>)
    requires Bookkeeping(g, start, goal, s)
    requires |s.queue| > 0 && s.queue[0].node != goal && s.queue[0].node in g
    ensures |s.queue| - 1 <= |Next(g, s).queue|
    ensures forall k :: 0 <= k < |s.queue| - 1 ==> Next(g, s).queue[k] == s.queue[k + 1]
    ensures forall k :: |s.queue| - 1 <= k < |Next(g, s).queue| ==>
      && Next(g, s).queue[k].node !in s.seen
      && |Next(g, s).queue[k].path| == |s.queue[0].path| + 1
  {
  }

  lemma NextLayered<N(!new)>(g: Graph<N>, start: N, goal: N, s: State<N>)
    requires Bookkeeping(g, start, goal, s) && Layered(s.queue)
    requires |s.queue| > 0 && s.queue[0].node != goal && s.queue[0].node in g
    ensures Layered(Next(g, s).queue)
    ensures |Next(g, s).queue| > 0 ==>
      |s.queue[0].path| <= |Next(g, s).queue[0].path| <= |s.queue[0].path| + 1
  {
    NextShape(g, start, goal, s);
    var n := |s.queue| - 1;
    var q' := Next(g, s).queue;
    forall i, j | 0 <= i < j < |q'|
      ensures |q'[i].path| <= |q'[j].path|
    {
      if j < n {
        assert |s.queue[i + 1].path| <= |s.queue[j + 1].path|;
      } else if i < n {
        assert |s.queue[i + 1].path| <= |s.queue[0].path| + 1;
      }
    }
    if 0 < n {
      assert |s.queue[0].path| <= |s.queue[1].path|;
    }
  }

  lemma NextShortest<N(!new)>(g: Graph<N>, start: N, goal: N, s: State<N>)
    requires Inv(g, start, goal, s)
    requires |s.queue| > 0 && s.queue[0].node != goal && s.queue[0].node in g
    ensures Shortest(g, start, Next(g, s).queue)
  {
    NextShape(g, start, goal, s);
    var n := |s.queue| - 1;
    var d := |s.queue[0].path|;
    var q' := Next(g, s).queue;
    forall k, p | 0 <= k < |q'| && PathFrom(g, start, p) && Last(p) == q'[k].node
      ensures |q'[k].path| <= |p|
    {
      if k < n {
        assert q'[k] == s.queue[k + 1];
      }
    }
  }

  lemma NextDoneBelow<N(!new)>(g: Graph<N>, start: N, goal: N, s: State<N>)
    requires Inv(g, start, goal, s)
    requires |s.queue| > 0 && s.queue[0].node != goal && s.queue[0].node in g
    ensures |Next(g, s).queue| > 0 ==>
      DoneBelow(g, start, Next(g, s).visited, |Next(g, s).queue[0].path|)
  {
    NextShape(g, start, goal, s);
    NextLayered(g, start, goal, s);
    var n := |s.queue| - 1;
    var d := |s.queue[0].path|;
    var s' := Next(g, s);
    var q' := s'.queue;
    if |q'| > 0 {
      var d' := |q'[0].path|;
      forall p | PathFrom(g, start, p) && |p| < d'
        ensures Last(p) in s'.visited
      {
        if |p| >= d && Last(p) !in s.visited {
          assert Last(p) in Elems(QNodes(s.queue));
          var k :| 0 <= k < |s.queue| && QNodes(s.queue)[k] == Last(p);
          assert k == 0;
        }
      }
    }
  }

  lemma NextSeenUpTo<N(!new)>(g: Graph<N>, start: N, goal: N, s: State<N>)
    requires Inv(g, start, goal, s)
    requires |s.queue| > 0 && s.queue[0].node != goal && s.queue[0].node in g
    ensures |Next(g, s).queue| > 0 ==>
      SeenUpTo(g, start, Next(g, s).seen, |Next(g, s).queue[0].path|)
  {
    NextBookkeeping(g, start, goal, s);
    NextLayered(g, start, goal, s);
    NextDoneBelow(g, start, goal, s);
    var d := |s.queue[0].path|;
    var s' := Next(g, s);
    if |s'.queue| > 0 {
      var d' := |s'.queue[0].path|;
      forall p | PathFrom(g, start, p) && |p| <= d'
        ensures Last(p) in s'.seen
      {
        if |p| > d {
          PathTrim(g, start, p);
          var p' := p[..|p| - 1];
          assert Last(p') in s'.visited;
          assert Last(p) in Succ(g, Last(p'));
        }
      }
    }
  }

  lemma NextPreservesInv<N(!new)>(g: Graph<N>, start: N, goal: N, s: State<N>)
    requires Inv(g, start, goal, s)
    requires |s.queue| > 0 && s.queue[0].node != goal && s.queue[0].node in g
    ensures Inv(g, start, goal, Next(g, s))
    ensures |Universe(g, start) - Next(g, s).seen| < |Universe(g, start) - s.seen|
      || (Next(g, s).seen == s.seen && |Next(g, s).queue| < |s.queue|)
  {
    NextAncestry(g, start, goal, s);
    NextBookkeeping(g, start, goal, s);
    NextLayered(g, start, goal, s);
    NextShortest(g, start, goal, s);
    NextDoneBelow(g, start, goal, s);
    NextSeenUpTo(g, start, goal, s);
    NextClosed(g, start, goal, s);
    NextShrinks(g, start, s);
  }

  /** The termination measure of the while loop decreases. */
  lemma NextShrinks<N>(g: Graph<N>, start: N, s: State<N>)
    requires |s.queue| > 0 && s.queue[0].node in g
    requires Next(g, s).seen <= Universe(g, start)
    ensures |Universe(g, start) - Next(g, s).seen| < |Universe(g, start) - s.seen|
      || (Next(g, s).seen == s.seen && |Next(g, s).queue| < |s.queue|)
  {
    var s' := Next(g, s);
    if s'.seen != s.seen {
      DiffShrinks(Universe(g, start), s.seen, s'.seen);
    }
  }

  // ---------------------------------------------------------------------
  // What the loop returns.
  // ---------------------------------------------------------------------

  lemma {:induction false} RunCorrect<N(!new)>(g: Graph<N>, start: N, goal: N, s: State<N>)
    requires Inv(g, start, goal, s)
    ensures var r := Run(g, start, goal, s);
      && (r.Returns? ==>
            var o := r.value;
            && NoDups(o.visited)
            && |o.visited| > 0 && o.visited[0] == start
            && (o.path.Some? ==>
                  PathFrom(g, start, o.path.value) && Last(o.path.value) == goal && Last(o.visited) == goal
                  && forall p :: PathFrom(g, start, p) && Last(p) == goal ==> |o.path.value| <= |p|)
            && (o.path.None? ==> !Reachable(g, start, goal)))
      && (r.KeyError? ==> r.key !in g && r.key != goal && ReachedBeforeGoal(g, start, goal, r.key))
      && (KeysBeforeGoal(g, start, goal) ==> r.Returns?)
    decreases |Universe(g, start) - s.seen|, |s.queue|
  {
    var q := s.queue;
    if |q| == 0 {
      assert Elems(s.visited) == s.seen;
      assert start in s.visited;
      if Reachable(g, start, goal) {
        var p :| PathFrom(g, start, p) && Last(p) == goal;
        ClosedSetHoldsReachable(g, start, s.seen, p);
        assert false;
      }
    } else if q[0].node == goal {
      NoDupsAppend(s.visited, goal);
      assert QNodes(q)[0] == goal;
    } else if q[0].node !in g {
      HeadBeforeGoal(g, start, goal, s);
      MissingBeforeGoal(g, start, goal, q[0].path);
    } else {
      NextPreservesInv(g, start, goal, s);
      RunCorrect(g, start, goal, Next(g, s));
    }
  }
}

=== FILE: depth_first.dfy ===
/** `depth_first_search` and its recursive helper `_backtrack`
    (uninformed/depth_first_search.py): depth-first search with no visited set,
    recording every call in `visited_order` and copying the path on success. */
module DepthFirst {
  import opened Graphs

  /** What a call of `_backtrack` contributes: the nodes it appends to
      `visited_order`, the shared `path` list when it returns, and whether the
      goal was found. */
  datatype Trace<N> = Trace(visits: seq<N>, path: seq<N>, found: bool)

  /** The returned pair (visited_order, found_path) on success. */
  datatype Outcome<N> = Outcome(visited: seq<N>, path: seq<N>)

  // ---------------------------------------------------------------------
  // The algorithm.
  // ---------------------------------------------------------------------

  /** _backtrack(graph, path, node, goal, visited_order, found_path): the call
      for `node` with the current path `path` (not yet holding `node`), which
      the caller has already found free of the goal. `graph[node]` raises
      KeyError for a node that is not the goal and has no entry. */
  function Visit<N(!new)>(g: Graph<N>, start: N, path: seq<N>, node: N, goal: N): (r: Checked<Trace<N>, N>)
    requires AcyclicFrom(g, start) && PathFrom(g, start, path + [node]) && goal !in path
    ensures r.Returns? ==> |r.value.visits| > 0 && r.value.visits[0] == node
    ensures r.Returns? && !r.value.found ==> r.value.path == path
    ensures r.Returns? && r.value.found ==>
      PathFrom(g, start, r.value.path) && Last(r.value.path) == goal && Last(r.value.visits) == goal
    ensures r.KeyError? ==> r.key !in g && r.key != goal && ReachedBeforeGoal(g, start, goal, r.key)
    ensures KeysBeforeGoal(g, start, goal) ==> r.Returns?
    decreases |Universe(g, start)| - |path|, 0
  {
    SimpleBound(g, start, path + [node]);
    if node == goal then
      Returns(Trace([node], path + [node], true))
    else if node !in g then
      MissingBeforeGoal(g, start, goal, path + [node]);
      KeyError(node)
    else
      var r := Loop(g, start, path + [node], g[node], 0, goal);
      if r.KeyError? then r
      else Returns(Trace([node] + r.value.visits, if r.value.found then r.value.path else path, r.value.found))
  }

  /** The `for neighbor in graph[node]` loop from the `i`-th neighbour on:
      recurse into each, stopping at the first success or the first
      KeyError. */
  function Loop<N(!new)>(g: Graph<N>, start: N, path: seq<N>, kids: seq<N>, i: nat, goal: N): (r: Checked<Trace<N>, N>)
    requires AcyclicFrom(g, start) && PathFrom(g, start, path) && goal !in path
    requires kids == Succ(g, Last(path)) && i <= |kids|
    ensures r.Returns? && !r.value.found ==> r.value.path == path
    ensures r.Returns? && r.value.found ==>
      && PathFrom(g, start, r.value.path) && Last(r.value.path) == goal
      && |r.value.visits| > 0 && Last(r.value.visits) == goal
    ensures r.KeyError? ==> r.key !in g && r.key != goal && ReachedBeforeGoal(g, start, goal, r.key)
    ensures KeysBeforeGoal(g, start, goal) ==> r.Returns?
    decreases |Universe(g, start)| - |path|, 1, |kids| - i
  {
    SimpleBound(g, start, path);
    if i == |kids| then Returns(Trace([], path, false))
    else
      PathExtend(g, start, path, kids[i]);
      var r := Visit(g, start, path, kids[i], goal);
      if r.KeyError? || r.value.found then r
      else
        var r' := Loop(g, start, path, kids, i + 1, goal);
        if r'.KeyError? then r'
        else Returns(Trace(r.value.visits + r'.value.visits, r'.value.path, r'.value.found))
  }

  /** depth_first_search(graph, start, goal): None stands for (None, None). */
  function DepthFirstSearch<N(!new)>(g: Graph<N>, start: N, goal: N): (r: Checked<Option<Outcome<N>>, N>)
    requires AcyclicFrom(g, start)
    ensures r.Returns? && r.value.Some? ==>
      var o := r.value.value;
      && |o.visited| > 0 && o.visited[0] == start && Last(o.visited) == goal
      && PathFrom(g, start, o.path) && Last(o.path) == goal
    ensures r.Returns? && r.value.Some? ==>
      var v := r.value.value.visited;
      v <= Preorder(g, start) && goal !in v[..|v| - 1]
    ensures r.Returns? && r.value.None? ==> goal !in Preorder(g, start)
    ensures r.Returns? ==> (r.value.None? <==> !Reachable(g, start, goal))
    ensures r.KeyError? ==> r.key !in g && r.key != goal && ReachedBeforeGoal(g, start, goal, r.key)
    ensures KeysBeforeGoal(g, start, goal) ==> r.Returns?
  {
    var t := Visit(g, start, [], start, goal);
    if t.KeyError? then KeyError(t.key)
    else if t.value.found then
      VisitStopsAtGoal(g, start, [], start, goal);
      Returns(Some(Outcome(t.value.visits, t.value.path)))
    else
      VisitMissesGoal(g, start, [], start, goal);
      PreorderHoldsReachable(g, start, goal);
      Returns(None)
  }

  /** The edges of `DocGraph` climb in character order, so it has no cycle. */
  lemma DocGraphAcyclic()
    ensures AcyclicFrom(DocGraph, 'A')
  {
    forall n, x | x in Succ(DocGraph, n)
      ensures (n as int) < (x as int)
    {
      assert n == 'A' || n == 'B';
    }
    RankedAcyclic(DocGraph, 'A', c => c as int);
  }

  /** Only the nodes the search expands need an entry: from A for D the
      search returns ([A, B, D], [A, B, D]) and never reads `graph['C']`,
      although C lacks an entry. */
  lemma UnkeyedSiblingExample()
    ensures AcyclicFrom(DocGraph, 'A') && !KeysBeforeGoal(DocGraph, 'A', 'D')
    ensures DepthFirstSearch(DocGraph, 'A', 'D') == Returns(Some(Outcome(['A', 'B', 'D'], ['A', 'B', 'D'])))
  {
    DocGraphAcyclic();
    assert PathFrom(DocGraph, 'A', ['A', 'C']);
    MissingBeforeGoal(DocGraph, 'A', 'D', ['A', 'C']);
    DocVisitA();
  }

  /** The call for D finds the goal. */
  lemma DocVisitD()
    ensures AcyclicFrom(DocGraph, 'A') && PathFrom(DocGraph, 'A', ['A', 'B'] + ['D'])
    ensures Visit(DocGraph, 'A', ['A', 'B'], 'D', 'D') == Returns(Trace(['D'], ['A', 'B', 'D'], true))
  {
    DocGraphAcyclic();
    assert ['A', 'B'] + ['D'] == ['A', 'B', 'D'];
    assert PathFrom(DocGraph, 'A', ['A', 'B', 'D']);
  }

  /** The call for B reaches D through its first neighbour. */
  lemma DocVisitB()
    ensures AcyclicFrom(DocGraph, 'A') && PathFrom(DocGraph, 'A', ['A'] + ['B'])
    ensures Visit(DocGraph, 'A', ['A'], 'B', 'D') == Returns(Trace(['B', 'D'], ['A', 'B', 'D'], true))
  {
    DocVisitD();
    assert ['A'] + ['B'] == ['A', 'B'];
    assert Loop(DocGraph, 'A', ['A', 'B'], ['D'], 0, 'D') == Visit(DocGraph, 'A', ['A', 'B'], 'D', 'D');
    assert ['B'] + ['D'] == ['B', 'D'];
  }

  /** The call for A succeeds through B and never reaches C. */
  lemma DocVisitA()
    ensures AcyclicFrom(DocGraph, 'A')
    ensures Visit(DocGraph, 'A', [], 'A', 'D') == Returns(Trace(['A', 'B', 'D'], ['A', 'B', 'D'], true))
  {
    DocVisitB();
    assert [] + ['A'] == ['A'];
    assert Loop(DocGraph, 'A', ['A'], ['B', 'C'], 0, 'D') == Visit(DocGraph, 'A', ['A'], 'B', 'D');
    assert ['A'] + ['B', 'D'] == ['A', 'B', 'D'];
  }

  /** With A's neighbours swapped the search enters C first and raises
      KeyError at `graph['C']` before it can reach D. */
  lemma KeyErrorExample()
    ensures AcyclicFrom(map['A' := ['C', 'B'], 'B' := ['D']], 'A')
    ensures DepthFirstSearch(map['A' := ['C', 'B'], 'B' := ['D']], 'A', 'D') == KeyError('C')
  {
    var g: Graph<char> := map['A' := ['C', 'B'], 'B' := ['D']];
    forall n, x | x in Succ(g, n)
      ensures (n as int) < (x as int)
    {
      assert n == 'A' || n == 'B';
    }
    RankedAcyclic(g, 'A', c => c as int);
    assert [] + ['A'] == ['A'] && ['A'] + ['C'] == ['A', 'C'];
    assert PathFrom(g, 'A', ['A', 'C']);
    assert Visit(g, 'A', ['A'], 'C', 'D') == KeyError('C');
    assert Loop(g, 'A', ['A'], ['C', 'B'], 0, 'D') == KeyError('C');
  }

  // ---------------------------------------------------------------------
  // The reference order: preorder with no goal test.
  // ---------------------------------------------------------------------

  /** The order in which a depth-first walk from `start` that never stops
      enters the nodes: each node, then the walks from its successors in
      list order. On an acyclic graph a node reachable along two paths
      appears once per path. */
  ghost function Preorder<N(!new)>(g: Graph<N>, start: N): seq<N>
    requires AcyclicFrom(g, start)
  {
    Pre(g, start, [], start)
  }

  ghost function Pre<N(!new)>(g: Graph<N>, start: N, path: seq<N>, node: N): seq<N>
    requires AcyclicFrom(g, start) && PathFrom(g, start, path + [node])
    decreases |Universe(g, start)| - |path|, 0
  {
    SimpleBound(g, start, path + [node]);
    [node] + PreKids(g, start, path + [node], Succ(g, node), 0)
  }

  ghost function PreKids<N(!new)>(g: Graph<N>, start: N, path: seq<N>, kids: seq<N>, i: nat): seq<N>
    requires AcyclicFrom(g, start) && PathFrom(g, start, path)
    requires kids == Succ(g, Last(path)) && i <= |kids|
    decreases |Universe(g, start)| - |path|, 1, |kids| - i
  {
    SimpleBound(g, start, path);
    if i == |kids| then []
    else
      PathExtend(g, start, path, kids[i]);
      Pre(g, start, path, kids[i]) + PreKids(g, start, path, kids, i + 1)
  }

  // ---------------------------------------------------------------------
  // visited_order is the preorder cut off at the first goal.
  // ---------------------------------------------------------------------

  /** A failing call appends to `visited_order` the whole preorder walk from
      `node`, and that walk never meets the goal. */
  lemma {:induction false} VisitMissesGoal<N(!new)>(g: Graph<N>, start: N, path: seq<N>, node: N, goal: N)
    requires AcyclicFrom(g, start) && PathFrom(g, start, path + [node]) && goal !in path
    requires Visit(g, start, path, node, goal).Returns? && !Visit(g, start, path, node, goal).value.found
    ensures Visit(g, start, path, node, goal).value.visits == Pre(g, start, path, node)
    ensures goal !in Pre(g, start, path, node)
    decreases |Universe(g, start)| - |path|, 0
  {
    SimpleBound(g, start, path + [node]);
    LoopMissesGoal(g, start, path + [node], g[node], 0, goal);
  }

  lemma {:induction false} LoopMissesGoal<N(!new)>(g: Graph<N>, start: N, path: seq<N>, kids: seq<N>, i: nat, goal: N)
    requires AcyclicFrom(g, start) && PathFrom(g, start, path) && goal !in path
    requires kids == Succ(g, Last(path)) && i <= |kids|
    requires Loop(g, start, path, kids, i, goal).Returns? && !Loop(g, start, path, kids, i, goal).value.found
    ensures Loop(g, start, path, kids, i, goal).value.visits == PreKids(g, start, path, kids, i)
    ensures goal !in PreKids(g, start, path, kids, i)
    decreases |Universe(g, start)| - |path|, 1, |kids| - i
  {
    SimpleBound(g, start, path);
    if i < |kids| {
      PathExtend(g, start, path, kids[i]);
      VisitMissesGoal(g, start, path, kids[i], goal);
      LoopMissesGoal(g, start, path, kids, i + 1, goal);
    }
  }

  /** A successful call appends to `visited_order` the preorder walk from
      `node` up to and including its first goal. */
  lemma {:induction false} VisitStopsAtGoal<N(!new)>(g: Graph<N>, start: N, path: seq<N>, node: N, goal: N)
    requires AcyclicFrom(g, start) && PathFrom(g, start, path + [node]) && goal !in path
    requires Visit(g, start, path, node, goal).Returns? && Visit(g, start, path, node, goal).value.found
    ensures var v := Visit(g, start, path, node, goal).value.visits;
      v <= Pre(g, start, path, node) && goal !in v[..|v| - 1]
    decreases |Universe(g, start)| - |path|, 0
  {
    SimpleBound(g, start, path + [node]);
    if node != goal {
      var r := Loop(g, start, path + [node], g[node], 0, goal).value;
      LoopStopsAtGoal(g, start, path + [node], g[node], 0, goal);
      var v := [node] + r.visits;
      assert v[..|v| - 1] == [node] + r.visits[..|r.visits| - 1];
    }
  }

  lemma {:induction false} LoopStopsAtGoal<N(!new)>(g: Graph<N>, start: N, path: seq<N>, kids: seq<N>, i: nat, goal: N)
    requires AcyclicFrom(g, start) && PathFrom(g, start, path) && goal !in path
    requires kids == Succ(g, Last(path)) && i <= |kids|
    requires Loop(g, start, path, kids, i, goal).Returns? && Loop(g, start, path, kids, i, goal).value.found
    ensures var v := Loop(g, start, path, kids, i, goal).value.visits;
      |v| > 0 && v <= PreKids(g, start, path, kids, i) && goal !in v[..|v| - 1]
    decreases |Universe(g, start)| - |path|, 1, |kids| - i
  {
    SimpleBound(g, start, path);
    PathExtend(g, start, path, kids[i]);
    var rv := Visit(g, start, path, kids[i], goal).value;
    if rv.found {
      VisitStopsAtGoal(g, start, path, kids[i], goal);
    } else {
      VisitMissesGoal(g, start, path, kids[i], goal);
      var rl := Loop(g, start, path, kids, i + 1, goal).value;
      LoopStopsAtGoal(g, start, path, kids, i + 1, goal);
      var v := rv.visits + rl.visits;
      assert v[..|v| - 1] == rv.visits + rl.visits[..|rl.visits| - 1];
    }
  }

  // ---------------------------------------------------------------------
  // The preorder holds every reachable node.
  // ---------------------------------------------------------------------

  /** The walks from the neighbours at positions `i` and later together contain
      the walk from the `j`-th. */
  lemma {:induction false} PreKidsContains<N(!new)>(g: Graph<N>, start: N, path: seq<N>, kids: seq<N>, i: nat, j: nat, x: N)
    requires AcyclicFrom(g, start) && PathFrom(g, start, path)
    requires kids == Succ(g, Last(path)) && i <= j < |kids|
    requires PathFrom(g, start, path + [kids[j]])
    requires x in Pre(g, start, path, kids[j])
    ensures x in PreKids(g, start, path, kids, i)
    decreases j - i
  {
    SimpleBound(g, start, path);
    PathExtend(g, start, path, kids[i]);
    assert PreKids(g, start, path, kids, i) ==
      Pre(g, start, path, kids[i]) + PreKids(g, start, path, kids, i + 1);
    if i < j {
      PreKidsContains(g, start, path, kids, i + 1, j, x);
    }
  }

  /** The last node of any path from `start` that runs through `path` and
      then `node` is in the walk from `node`. */
  lemma {:induction false} PathInPre<N(!new)>(g: Graph<N>, start: N, path: seq<N>, node: N, p: seq<N>)
    requires AcyclicFrom(g, start) && PathFrom(g, start, p)
    requires |path| < |p| && p[..|path| + 1] == path + [node]
    ensures PathFrom(g, start, path + [node])
    ensures Last(p) in Pre(g, start, path, node)
    decreases |p| - |path|
  {
    var p1 := path + [node];
    PathPrefix(g, start, p, |p1|);
    SimpleBound(g, start, p1);
    if |p| > |p1| {
      var next := p[|p1|];
      assert p[|path|] == node;
      assert next in Succ(g, node);
      var j :| 0 <= j < |Succ(g, node)| && Succ(g, node)[j] == next;
      assert p[..|p1| + 1] == p1 + [next];
      PathInPre(g, start, p1, next, p);
      PreKidsContains(g, start, p1, Succ(g, node), 0, j, Last(p));
    } else {
      assert p == p1;
    }
  }

  /** Every node reachable from `start` occurs in the preorder walk. */
  lemma PreorderHoldsReachable<N(!new)>(g: Graph<N>, start: N, n: N)
    requires AcyclicFrom(g, start)
    ensures Reachable(g, start, n) ==> n in Preorder(g, start)
  {
    if Reachable(g, start, n) {
      var p :| PathFrom(g, start, p) && Last(p) == n;
      assert p[..1] == [] + [start];
      PathInPre(g, start, [], start, p);
    }
  }
}

=== FILE: ext_int.dfy ===
/** Integers extended with the two infinities that the searches use as
    sentinels (Python's `-inf` and `inf`). */
module ExtInt {

  datatype EInt = NegInf | Fin(v: int) | PosInf

  /** The total order on extended integers: -inf below every integer, +inf above. */
  predicate Le(a: EInt, b: EInt)
  {
    match (a, b)
    case (NegInf, _) => true
    case (_, PosInf) => true
    case (Fin(x), Fin(y)) => x <= y
    case (_, _) => false
  }

  predicate Lt(a: EInt, b: EInt)
  {
    Le(a, b) && a != b
  }

  function Max(a: EInt, b: EInt): (r: EInt)
    ensures Le(a, r) && Le(b, r)
    ensures r == a || r == b
  {
    if Le(a, b) then b else a
  }

  function Min(a: EInt, b: EInt): (r: EInt)
    ensures Le(r, a) && Le(r, b)
    ensures r == a || r == b
  {
    if Le(a, b) then a else b
  }

  /** `Le` is a total order; these facts are used throughout the proofs. */
  lemma LeTotalOrder(a: EInt, b: EInt, c: EInt)
    ensures Le(a, a)
    ensures Le(a, b) || Le(b, a)
    ensures Le(a, b) && Le(b, a) ==> a == b
    ensures Le(a, b) && Le(b, c) ==> Le(a, c)
  {
  }
}

=== FILE: graphs.dfy ===
/** Adjacency-list graphs as the searches consume them: a map from a node to
    its ordered list of successors, and the path vocabulary shared by every
    strategy. */
module Graphs {

  datatype Option<T> = None | Some(value: T)

  /** A call that reads `graph[n]` either returns a value or raises KeyError
      naming the missing key. */
  datatype Checked<T, N> = Returns(value: T) | KeyError(key: N)

  type Graph<N> = map<N, seq<N>>

  /** `graph.get(n, [])`: a node without an entry has no successors. */
  function Succ<N>(g: Graph<N>, n: N): seq<N>
  {
    if n in g then g[n] else []
  }

  function Last<T>(s: seq<T>): T
    requires |s| > 0
  {
    s[|s| - 1]
  }

  function Elems<T>(s: seq<T>): set<T>
  {
    set x | x in s
  }

  predicate NoDups<T(==)>(s: seq<T>)
  {
    forall i, j :: 0 <= i < j < |s| ==> s[i] != s[j]
  }

  /** The sequence with its `k`-th element taken out, the rest in order. */
  function Remove<T>(q: seq<T>, k: nat): (r: seq<T>)
    requires k < |q|
    ensures |r| == |q| - 1
    ensures forall i :: 0 <= i < k ==> r[i] == q[i]
    ensures forall i :: k <= i < |r| ==> r[i] == q[i + 1]
  {
    q[..k] + q[k + 1..]
  }

  /** Every node the graph mentions, as a key or as a successor. */
  function Nodes<N>(g: Graph<N>): set<N>
  {
    g.Keys + (set n, x | n in g && x in g[n] :: x)
  }

  /** Every node a search from `start` can meet. */
  function Universe<N>(g: Graph<N>, start: N): set<N>
  {
    Nodes(g) + {start}
  }

  /** The graph of the `backtrack` docstring, {"A": ["B", "C"], "B": ["D"]},
      with the one-letter node names written as characters; the depth-first
      examples use it too. */
  const DocGraph: Graph<char> := map['A' := ['B', 'C'], 'B' := ['D']]

  /** A non-empty node sequence whose consecutive nodes are edges. */
  ghost predicate IsPath<N>(g: Graph<N>, p: seq<N>)
  {
    |p| > 0 && forall i :: 0 <= i < |p| - 1 ==> p[i + 1] in Succ(g, p[i])
  }

  ghost predicate PathFrom<N>(g: Graph<N>, start: N, p: seq<N>)
  {
    IsPath(g, p) && p[0] == start
  }

  ghost predicate Reachable<N(!new)>(g: Graph<N>, start: N, n: N)
  {
    exists p :: PathFrom(g, start, p) && Last(p) == n
  }

  /** Every node reached from `start` along a path that avoids `goal` has an
      entry. A search that tests for the goal before it reads `graph[node]`
      then never raises KeyError; the goal, and whatever lies only beyond it,
      may still lack an entry. */
  ghost predicate KeysBeforeGoal<N(!new)>(g: Graph<N>, start: N, goal: N)
  {
    forall p :: PathFrom(g, start, p) && goal !in p ==> Last(p) in g
  }

  /** `n` ends a path from `start` on which `goal` does not occur: a search
      that tests for the goal first expands it. */
  ghost predicate ReachedBeforeGoal<N(!new)>(g: Graph<N>, start: N, goal: N, n: N)
  {
    exists p :: PathFrom(g, start, p) && goal !in p && Last(p) == n
  }

  /** No path from `start` visits a node twice: the part of the graph reachable
      from `start` has no cycle. */
  ghost predicate AcyclicFrom<N(!new)>(g: Graph<N>, start: N)
  {
    forall p :: SimpleIfPath(g, start, p)
  }

  /** `p`, if it is a path from `start`, visits no node twice. */
  ghost predicate SimpleIfPath<N>(g: Graph<N>, start: N, p: seq<N>)
  {
    PathFrom(g, start, p) ==> NoDups(p)
  }

  // ---------------------------------------------------------------------
  // Lemmas about paths.
  // ---------------------------------------------------------------------

  lemma SuccInNodes<N>(g: Graph<N>, n: N, x: N)
    requires x in Succ(g, n)
    ensures x in Nodes(g)
  {
  }

  lemma PathExtend<N>(g: Graph<N>, start: N, p: seq<N>, x: N)
    requires PathFrom(g, start, p)
    requires x in Succ(g, Last(p))
    ensures PathFrom(g, start, p + [x]) && Last(p + [x]) == x
  {
    var q := p + [x];
    forall i | 0 <= i < |q| - 1
      ensures q[i + 1] in Succ(g, q[i])
    {
      if i < |p| - 1 {
        assert q[i] == p[i] && q[i + 1] == p[i + 1];
      }
    }
  }

  lemma PathTrim<N>(g: Graph<N>, start: N, p: seq<N>)
    requires PathFrom(g, start, p) && |p| > 1
    ensures PathFrom(g, start, p[..|p| - 1])
    ensures Last(p) in Succ(g, Last(p[..|p| - 1]))
  {
    var q := p[..|p| - 1];
    assert p[|p| - 1] in Succ(g, p[|p| - 2]);
    forall i | 0 <= i < |q| - 1
      ensures q[i + 1] in Succ(g, q[i])
    {
      assert p[i + 1] in Succ(g, p[i]);
    }
  }

  lemma PathPrefix<N>(g: Graph<N>, start: N, p: seq<N>, n: nat)
    requires PathFrom(g, start, p) && 0 < n <= |p|
    ensures PathFrom(g, start, p[..n])
  {
    var q := p[..n];
    forall i | 0 <= i < |q| - 1
      ensures q[i + 1] in Succ(g, q[i])
    {
      assert p[i + 1] in Succ(g, p[i]);
    }
  }

  /** Every node on a path from `start` is `start` or mentioned by the graph. */
  lemma PathInNodes<N>(g: Graph<N>, start: N, p: seq<N>)
    requires PathFrom(g, start, p)
    ensures forall i :: 0 <= i < |p| ==> p[i] in Nodes(g) + {start}
  {
    forall i | 0 < i < |p|
      ensures p[i] in Nodes(g)
    {
      SuccInNodes(g, p[i - 1], p[i]);
    }
  }

  /** On an acyclic part of the graph a path from `start` is no longer than the
      number of nodes it can use. */
  lemma SimpleBound<N(!new)>(g: Graph<N>, start: N, p: seq<N>)
    requires AcyclicFrom(g, start) && PathFrom(g, start, p)
    ensures |p| <= |Nodes(g) + {start}|
  {
    assert SimpleIfPath(g, start, p);
    PathInNodes(g, start, p);
    NoDupsBounded(p, Nodes(g) + {start});
  }

  /** A node missing from the graph at the end of a goal-free path is reached
      before the goal, and it is a witness that `KeysBeforeGoal` fails. */
  lemma MissingBeforeGoal<N(!new)>(g: Graph<N>, start: N, goal: N, p: seq<N>)
    requires PathFrom(g, start, p) && goal !in p && Last(p) !in g
    ensures ReachedBeforeGoal(g, start, goal, Last(p))
    ensures !KeysBeforeGoal(g, start, goal)
  {
  }

  /** A graph whose edges all climb in some rank has no cycle. */
  lemma RankedAcyclic<N(!new)>(g: Graph<N>, start: N, rank: N -> int)
    requires forall n, x :: x in Succ(g, n) ==> rank(n) < rank(x)
    ensures AcyclicFrom(g, start)
  {
    forall p | PathFrom(g, start, p)
      ensures NoDups(p)
    {
      forall i, j | 0 <= i < j < |p|
        ensures p[i] != p[j]
      {
        RankClimbs(g, rank, p, i, j);
      }
    }
  }

  lemma {:induction false} RankClimbs<N>(g: Graph<N>, rank: N -> int, p: seq<N>, i: nat, j: nat)
    requires forall n, x :: x in Succ(g, n) ==> rank(n) < rank(x)
    requires IsPath(g, p) && i < j < |p|
    ensures rank(p[i]) < rank(p[j])
    decreases j - i
  {
    assert p[i + 1] in Succ(g, p[i]);
    if i + 1 < j {
      RankClimbs(g, rank, p, i + 1, j);
    }
  }

  lemma StartReachable<N(!new)>(g: Graph<N>, start: N)
    ensures Reachable(g, start, start)
  {
    assert PathFrom(g, start, [start]) && Last([start]) == start;
  }

  lemma PathEndReachable<N(!new)>(g: Graph<N>, start: N, p: seq<N>)
    requires PathFrom(g, start, p)
    ensures Reachable(g, start, Last(p))
  {
  }

  /** A set that holds `start` and is closed under successors holds every node
      reachable from `start`. */
  lemma {:induction false} ClosedSetHoldsReachable<N>(g: Graph<N>, start: N, s: set<N>, p: seq<N>)
    requires start in s
    requires forall n, x :: n in s && x in Succ(g, n) ==> x in s
    requires PathFrom(g, start, p)
    ensures Last(p) in s
    decreases |p|
  {
    if |p| > 1 {
      PathTrim(g, start, p);
      ClosedSetHoldsReachable(g, start, s, p[..|p| - 1]);
    }
  }

  /** A duplicate-free sequence drawn from a finite set is no longer than it. */
  lemma {:induction false} NoDupsBounded<T>(s: seq<T>, u: set<T>)
    requires NoDups(s)
    requires forall i :: 0 <= i < |s| ==> s[i] in u
    ensures |s| <= |u|
    decreases |s|
  {
    if |s| > 0 {
      var s' := s[..|s| - 1];
      forall i, j | 0 <= i < j < |s'|
        ensures s'[i] != s'[j]
      {
        assert s[i] != s[j];
      }
      assert Last(s) !in Elems(s');
      NoDupsBounded(s', u - {Last(s)});
    }
  }

  lemma {:induction false} NoDupsAppend<T>(s: seq<T>, x: T)
    requires NoDups(s) && x !in s
    ensures NoDups(s + [x])
  {
    var t := s + [x];
    forall i, j | 0 <= i < j < |t|
      ensures t[i] != t[j]
    {
      if j < |s| {
        assert t[i] == s[i] && t[j] == s[j];
      } else {
        assert t[i] == s[i];
      }
    }
  }

  /** Concatenating two duplicate-free sequences with no common element. */
  lemma NoDupsConcat<T>(a: seq<T>, b: seq<T>)
    requires NoDups(a) && NoDups(b)
    requires forall x :: x in b ==> x !in a
    ensures NoDups(a + b)
  {
    var c := a + b;
    forall i, j | 0 <= i < j < |c|
      ensures c[i] != c[j]
    {
      if j < |a| {
        assert c[i] == a[i] && c[j] == a[j];
      } else if i >= |a| {
        assert c[i] == b[i - |a|] && c[j] == b[j - |a|];
      } else {
        assert c[i] == a[i] && c[j] in b;
      }
    }
  }

  lemma ElemsAppend<T>(s: seq<T>, x: T)
    ensures Elems(s + [x]) == Elems(s) + {x}
  {
  }

  lemma ElemsConcat<T>(a: seq<T>, b: seq<T>)
    ensures Elems(a + b) == Elems(a) + Elems(b)
  {
    assert forall x :: x in a + b <==> x in a || x in b;
  }

  lemma {:induction false} SubsetCard<T>(a: set<T>, b: set<T>)
    requires a <= b
    ensures |a| <= |b|
    decreases |a|
  {
    if a != {} {
      var x :| x in a;
      SubsetCard(a - {x}, b - {x});
    }
  }

  /** Growing a subset of `u` strictly shrinks what is left of `u`. */
  lemma DiffShrinks<T>(u: set<T>, a: set<T>, b: set<T>)
    requires a <= b <= u && a != b
    ensures |u - b| < |u - a|
  {
    var x :| x in b && x !in a;
    SubsetCard(u - b, (u - a) - {x});
  }
}

=== FILE: hill_climbing.dfy ===
/** `hill_climbing` (informed/hill_climbing.py): from the start, repeatedly
    move to the neighbour with the lowest heuristic value on the edge to it,
    and stop when a move would not improve on the previous edge's value, when
    there is nowhere to move, or when the goal is reached.

    The stop test on line 21 is a conditional expression, which binds more
    loosely than `>=`: it reads `(h_next >= h_prev) if len(path) > 1 else
    inf`. On the first pass the path has one node, the test is `inf`, which
    is true, and the loop stops. `HillClimbing` models the code as written;
    `HillClimbingIntended` models the test with the conditional expression
    parenthesised as the comparison's right operand. */
module HillClimbing {
  import opened Graphs
  import opened ExtInt
  import Informed

  /** The `heuristic` table: a value for each (from, to) edge. */
  type Table<N(==)> = map<(N, N), int>

  /** The two readings of the stop test. */
  datatype Reading = AsWritten | Intended

  /** `valid_neighbors`: the neighbours with a heuristic entry for the edge
      from `cur`, in neighbour order. */
  function Valid<N(==,!new)>(h: Table<N>, cur: N, ns: seq<N>): (r: seq<N>)
    ensures forall n :: n in r <==> n in ns && (cur, n) in h
    ensures |r| <= |ns|
  {
    if |ns| == 0 then []
    else if (cur, ns[0]) in h then [ns[0]] + Valid(h, cur, ns[1..])
    else Valid(h, cur, ns[1..])
  }

  /** `min(valid_neighbors, key=...)`: the position of the first entry with
      the least key. */
  function FirstMin(keys: seq<int>): (k: nat)
    requires |keys| > 0
    ensures k < |keys|
    ensures forall j :: 0 <= j < |keys| ==> keys[k] <= keys[j]
    ensures forall j :: 0 <= j < k ==> keys[k] < keys[j]
  {
    if |keys| == 1 then 0
    else
      var k := FirstMin(keys[1..]);
      if keys[0] <= keys[k + 1] then 0 else k + 1
  }

  /** The heuristic values of the edges from `cur` to `vs`. */
  function KeysOf<N(==,!new)>(h: Table<N>, cur: N, vs: seq<N>): (r: seq<int>)
    requires forall n :: n in vs ==> (cur, n) in h
    ensures |r| == |vs| && forall i :: 0 <= i < |vs| ==> r[i] == h[(cur, vs[i])]
  {
    if |vs| == 0 then [] else [h[(cur, vs[0])]] + KeysOf(h, cur, vs[1..])
  }

  /** The position of `next_state` among the valid neighbours. */
  function BestAt<N(==,!new)>(h: Table<N>, cur: N, vs: seq<N>): (k: nat)
    requires |vs| > 0 && forall n :: n in vs ==> (cur, n) in h
    ensures k < |vs|
    ensures forall j :: 0 <= j < |vs| ==> h[(cur, vs[k])] <= h[(cur, vs[j])]
    ensures forall j :: 0 <= j < k ==> h[(cur, vs[k])] < h[(cur, vs[j])]
  {
    FirstMin(KeysOf(h, cur, vs))
  }

  /** `next_state`, when some neighbour has an entry. */
  function Best<N(==,!new)>(h: Table<N>, cur: N, vs: seq<N>): (r: N)
    requires |vs| > 0 && forall n :: n in vs ==> (cur, n) in h
    ensures r in vs
    ensures forall n :: n in vs ==> h[(cur, r)] <= h[(cur, n)]
  {
    vs[BestAt(h, cur, vs)]
  }

  /** `heuristic.get((path[-2], current), inf)`, or `inf` for a one-node
      path: the value of the edge that led to the current node. */
  function Prev<N(==,!new)>(h: Table<N>, path: seq<N>): (r: EInt)
    requires |path| > 0
    ensures r != NegInf
  {
    if |path| > 1 then Informed.GetG(h, path[|path| - 2], path[|path| - 1]) else PosInf
  }

  /** The test on line 21: true means stop. */
  predicate Stop<N(==,!new)>(reading: Reading, h: Table<N>, path: seq<N>, value: int)
    requires |path| > 0
  {
    match reading
    case AsWritten => |path| > 1 ==> Le(Prev(h, path), Fin(value))
    case Intended => Le(Prev(h, path), Fin(value))
  }

  /** The node `next_state` the climb would move to from the end of `path`,
      or None when the current node has no neighbour (line 7) or no
      neighbour with a table entry (line 14). */
  function Candidate<N(==,!new)>(g: Graph<N>, h: Table<N>, path: seq<N>): (r: Option<N>)
    requires |path| > 0
    ensures r.Some? <==> exists n :: n in Succ(g, Last(path)) && (Last(path), n) in h
    ensures r.Some? ==> r.value in Succ(g, Last(path)) && (Last(path), r.value) in h
  {
    var vs := Valid(h, Last(path), Succ(g, Last(path)));
    if |vs| == 0 then None
    else
      assert vs[0] in vs;
      Some(Best(h, Last(path), vs))
  }

  /** Whether the loop breaks at the end of `path` without moving. */
  predicate Halts<N(==,!new)>(reading: Reading, g: Graph<N>, h: Table<N>, path: seq<N>)
    requires |path| > 0
  {
    var c := Candidate(g, h, path);
    c.None? || Stop(reading, h, path, h[(Last(path), c.value)])
  }

  /** The loop, from the path walked so far. */
  function Climb<N(==,!new)>(reading: Reading, g: Graph<N>, goal: Option<N>, h: Table<N>, path: seq<N>): (r: seq<N>)
    requires |path| > 0
    ensures |r| >= |path| && r[..|path|] == path
    decreases Below(h, Prev(h, path))
  {
    if Halts(reading, g, h, path) then path
    else
      var next := Candidate(g, h, path).value;
      var path' := path + [next];
      if goal == Some(next) then path'
      else
        ClimbShrinks(reading, g, h, path);
        var r := Climb(reading, g, goal, h, path');
        assert r[..|path|] == r[..|path'|][..|path|];
        r
  }

  /** hill_climbing(graph, goal, heuristic, start) as written. `goal` is
      None when the caller passes a falsy goal, which switches the goal test
      off. The default `start=None` is the node None: instantiate `N` with a
      type that has such a value and pass it as `start`. */
  function HillClimbing<N(==,!new)>(g: Graph<N>, goal: Option<N>, h: Table<N>, start: N): (r: seq<N>)
    ensures |r| > 0 && r[0] == start
  {
    Climb(AsWritten, g, goal, h, [start])
  }

  /** The same search with the stop test the comment "Stop if no
      improvement" describes. */
  function HillClimbingIntended<N(==,!new)>(g: Graph<N>, goal: Option<N>, h: Table<N>, start: N): (r: seq<N>)
    ensures |r| > 0 && r[0] == start
  {
    Climb(Intended, g, goal, h, [start])
  }

  // ---------------------------------------------------------------------
  // Termination: every move lowers the previous edge's value.
  // ---------------------------------------------------------------------

  /** How many table values lie strictly below `b`. */
  function Below<N(==,!new)>(h: Table<N>, b: EInt): nat
  {
    |set v | v in h.Values && Lt(Fin(v), b)|
  }

  lemma BelowShrinks<N(!new)>(h: Table<N>, b: EInt, cur: N, next: N)
    requires (cur, next) in h && Lt(Fin(h[(cur, next)]), b)
    ensures Below(h, Fin(h[(cur, next)])) < Below(h, b)
  {
    var x := h[(cur, next)];
    var lo := set v | v in h.Values && Lt(Fin(v), Fin(x));
    var hi := set v | v in h.Values && Lt(Fin(v), b);
    assert x in h.Values;
    assert x in hi && x !in lo;
    forall v | v in lo
      ensures v in hi
    {
      LeTotalOrder(Fin(v), Fin(x), b);
    }
    SubsetCard(lo + {x}, hi);
  }

  /** A move goes down an edge whose value is below the previous edge's, so
      the measure falls. */
  lemma ClimbShrinks<N(!new)>(reading: Reading, g: Graph<N>, h: Table<N>, path: seq<N>)
    requires |path| > 0 && !Halts(reading, g, h, path)
    ensures var next := Candidate(g, h, path).value;
      && Lt(Fin(h[(Last(path), next)]), Prev(h, path))
      && Prev(h, path + [next]) == Fin(h[(Last(path), next)])
      && Below(h, Prev(h, path + [next])) < Below(h, Prev(h, path))
  {
    var next := Candidate(g, h, path).value;
    var p := path + [next];
    assert p[|p| - 2] == Last(path) && p[|p| - 1] == next;
    BelowShrinks(h, Prev(h, path), Last(path), next);
  }

  // ---------------------------------------------------------------------
  // The choice of the next node.
  // ---------------------------------------------------------------------

  /** Where the `k`-th valid neighbour sits in the neighbour list: the valid
      neighbours before that position are the first `k`. */
  function ValidPos<N(==,!new)>(h: Table<N>, cur: N, ns: seq<N>, k: nat): (i: nat)
    requires k < |Valid(h, cur, ns)|
    ensures i < |ns| && ns[i] == Valid(h, cur, ns)[k]
    ensures Valid(h, cur, ns[..i]) == Valid(h, cur, ns)[..k]
    decreases |ns|
  {
    if (cur, ns[0]) in h && k == 0 then
      assert Valid(h, cur, ns[..0]) == [];
      0
    else
      var k' := if (cur, ns[0]) in h then k - 1 else k;
      assert k' < |Valid(h, cur, ns[1..])|;
      var j := ValidPos(h, cur, ns[1..], k');
      ValidPosStep(h, cur, ns, k, k', j);
      j + 1
  }

  /** The recursive step of `ValidPos`: a position in the tail, shifted by
      one, is the position in the whole list. */
  lemma ValidPosStep<N(!new)>(h: Table<N>, cur: N, ns: seq<N>, k: nat, k': nat, j: nat)
    requires |ns| > 0 && !((cur, ns[0]) in h && k == 0)
    requires k' == if (cur, ns[0]) in h then k - 1 else k
    requires k' < |Valid(h, cur, ns[1..])|
    requires j < |ns| - 1 && ns[1..][j] == Valid(h, cur, ns[1..])[k']
    requires Valid(h, cur, ns[1..][..j]) == Valid(h, cur, ns[1..])[..k']
    ensures j + 1 < |ns| && k < |Valid(h, cur, ns)| && ns[j + 1] == Valid(h, cur, ns)[k]
    ensures Valid(h, cur, ns[..j + 1]) == Valid(h, cur, ns)[..k]
  {
    var here := if (cur, ns[0]) in h then [ns[0]] else [];
    assert Valid(h, cur, ns) == here + Valid(h, cur, ns[1..]);
    ValidPrefix(h, cur, ns, j);
    ConcatAt(here, Valid(h, cur, ns[1..]), k);
  }

  lemma ConcatAt<T>(a: seq<T>, b: seq<T>, k: nat)
    requires |a| <= k < |a| + |b|
    ensures (a + b)[k] == b[k - |a|] && (a + b)[..k] == a + b[..k - |a|]
  {
  }

  /** The valid neighbours among the first `i + 1`: the first neighbour if
      it is valid, then those among the next `i`. */
  lemma ValidPrefix<N(!new)>(h: Table<N>, cur: N, ns: seq<N>, i: nat)
    requires i < |ns|
    ensures Valid(h, cur, ns[..i + 1])
         == (if (cur, ns[0]) in h then [ns[0]] else []) + Valid(h, cur, ns[1..][..i])
  {
    assert ns[..i + 1][0] == ns[0] && ns[..i + 1][1..] == ns[1..][..i];
  }

  /** `next_state` is the first neighbour, in the neighbour list, with the
      least value among the neighbours that have an entry. */
  lemma NextIsFirstBest<N(!new)>(h: Table<N>, cur: N, ns: seq<N>)
    requires |Valid(h, cur, ns)| > 0
    ensures var r := Best(h, cur, Valid(h, cur, ns));
      && r in ns && (cur, r) in h
      && (forall n :: n in ns && (cur, n) in h ==> h[(cur, r)] <= h[(cur, n)])
      && exists i :: 0 <= i < |ns| && ns[i] == r
           && forall j :: 0 <= j < i && (cur, ns[j]) in h ==> h[(cur, r)] < h[(cur, ns[j])]
  {
    var vs := Valid(h, cur, ns);
    var r := Best(h, cur, vs);
    var k := BestAt(h, cur, vs);
    var i := ValidPos(h, cur, ns, k);
    BeforePos(h, cur, ns, k);
    forall j | 0 <= j < i && (cur, ns[j]) in h
      ensures h[(cur, r)] < h[(cur, ns[j])]
    {
      var m :| 0 <= m < k && vs[m] == ns[j];
    }
    assert 0 <= i < |ns| && ns[i] == r;
  }

  /** A neighbour with an entry placed before the `k`-th valid one is among
      the first `k` valid ones. */
  lemma BeforePos<N(!new)>(h: Table<N>, cur: N, ns: seq<N>, k: nat)
    requires k < |Valid(h, cur, ns)|
    ensures forall j :: 0 <= j < ValidPos(h, cur, ns, k) && (cur, ns[j]) in h ==>
      exists m :: 0 <= m < k && Valid(h, cur, ns)[m] == ns[j]
  {
    var i := ValidPos(h, cur, ns, k);
    forall j | 0 <= j < i && (cur, ns[j]) in h
      ensures exists m :: 0 <= m < k && Valid(h, cur, ns)[m] == ns[j]
    {
      assert ns[j] == ns[..i][j];
      assert ns[j] in Valid(h, cur, ns[..i]);
    }
  }

  // ---------------------------------------------------------------------
  // What the climb returns.
  // ---------------------------------------------------------------------

  /** Consecutive nodes are edges with a table entry, and after the first
      move each edge's value is below the one before it. */
  ghost predicate Walk<N(!new)>(g: Graph<N>, h: Table<N>, path: seq<N>)
  {
    && (forall i :: 0 <= i < |path| - 1 ==> path[i + 1] in Succ(g, path[i]) && (path[i], path[i + 1]) in h)
    && (forall i :: 0 < i < |path| - 1 ==> h[(path[i], path[i + 1])] < h[(path[i - 1], path[i])])
  }

  lemma {:induction false} ClimbWalk<N(!new)>(reading: Reading, g: Graph<N>, goal: Option<N>, h: Table<N>, path: seq<N>)
    requires |path| > 0 && Walk(g, h, path)
    ensures Walk(g, h, Climb(reading, g, goal, h, path))
    decreases Below(h, Prev(h, path))
  {
    if !Halts(reading, g, h, path) {
      var next := Candidate(g, h, path).value;
      ClimbShrinks(reading, g, h, path);
      WalkExtend(g, h, path, next);
      if goal != Some(next) {
        assert Climb(reading, g, goal, h, path) == Climb(reading, g, goal, h, path + [next]);
        ClimbWalk(reading, g, goal, h, path + [next]);
      }
    }
  }

  lemma WalkExtend<N(!new)>(g: Graph<N>, h: Table<N>, path: seq<N>, next: N)
    requires |path| > 0 && Walk(g, h, path)
    requires next in Succ(g, Last(path)) && (Last(path), next) in h
    requires Lt(Fin(h[(Last(path), next)]), Prev(h, path))
    ensures Walk(g, h, path + [next])
  {
    var p := path + [next];
    forall i | 0 < i < |p| - 1
      ensures h[(p[i], p[i + 1])] < h[(p[i - 1], p[i])]
    {
      if i == |p| - 2 {
        assert p[i - 1] == path[|path| - 2] && p[i] == Last(path);
      }
    }
  }

  /** The climb stops the first time a move reaches the goal: no node it
      moved to before the last one is the goal. */
  lemma {:induction false} ClimbStopsAtGoal<N(!new)>(reading: Reading, g: Graph<N>, goal: Option<N>, h: Table<N>, path: seq<N>)
    requires |path| > 0 && goal.Some?
    requires forall i :: 0 < i < |path| ==> path[i] != goal.value
    ensures forall i :: 0 < i < |Climb(reading, g, goal, h, path)| - 1 ==>
      Climb(reading, g, goal, h, path)[i] != goal.value
    decreases Below(h, Prev(h, path))
  {
    if !Halts(reading, g, h, path) {
      var next := Candidate(g, h, path).value;
      if goal != Some(next) {
        ClimbShrinks(reading, g, h, path);
        assert Climb(reading, g, goal, h, path) == Climb(reading, g, goal, h, path + [next]);
        ClimbStopsAtGoal(reading, g, goal, h, path + [next]);
      }
    }
  }

  /** Where the climb ends: at the goal, reached by a move; or where the
      loop breaks, at a node with no neighbour that has an entry or whose
      best neighbour does not pass the stop test. */
  lemma {:induction false} ClimbEnds<N(!new)>(reading: Reading, g: Graph<N>, goal: Option<N>, h: Table<N>, path: seq<N>)
    requires |path| > 0
    ensures || (|Climb(reading, g, goal, h, path)| > |path| && goal == Some(Last(Climb(reading, g, goal, h, path))))
            || Halts(reading, g, h, Climb(reading, g, goal, h, path))
    decreases Below(h, Prev(h, path))
  {
    if !Halts(reading, g, h, path) {
      var next := Candidate(g, h, path).value;
      if goal != Some(next) {
        ClimbShrinks(reading, g, h, path);
        assert Climb(reading, g, goal, h, path) == Climb(reading, g, goal, h, path + [next]);
        ClimbEnds(reading, g, goal, h, path + [next]);
      }
    }
  }

  /** hill_climbing as written returns the one-node path: the first pass's
      stop test is `inf`, which is true. */
  lemma AsWrittenStaysAtStart<N(!new)>(g: Graph<N>, goal: Option<N>, h: Table<N>, start: N)
    ensures HillClimbing(g, goal, h, start) == [start]
  {
  }

  /** The intended reading: the result is a path from the start whose edge
      values strictly fall, that stops at the first goal it reaches, and
      whose first move, when there is one, goes to `next_state`. */
  lemma IntendedClimb<N(!new)>(g: Graph<N>, goal: Option<N>, h: Table<N>, start: N)
    ensures var r := HillClimbingIntended(g, goal, h, start);
      && PathFrom(g, start, r)
      && (forall i :: 0 <= i < |r| - 1 ==> (r[i], r[i + 1]) in h)
      && (forall i :: 0 < i < |r| - 1 ==> h[(r[i], r[i + 1])] < h[(r[i - 1], r[i])])
      && (goal.Some? ==> forall i :: 0 < i < |r| - 1 ==> r[i] != goal.value)
      && ((|r| > 1 && goal == Some(Last(r))) || Halts(Intended, g, h, r))
      && (Candidate(g, h, [start]).Some? ==> |r| > 1 && Some(r[1]) == Candidate(g, h, [start]))
  {
    var r := HillClimbingIntended(g, goal, h, start);
    ClimbWalk(Intended, g, goal, h, [start]);
    if goal.Some? {
      ClimbStopsAtGoal(Intended, g, goal, h, [start]);
    }
    ClimbEnds(Intended, g, goal, h, [start]);
    var c := Candidate(g, h, [start]);
    if c.Some? {
      assert !Halts(Intended, g, h, [start]);
      if goal != c {
        ClimbShrinks(Intended, g, h, [start]);
        assert r == Climb(Intended, g, goal, h, [start] + [c.value]);
      }
      assert r[..2] == [start] + [c.value];
    }
  }

  /** The graph {s: [a]} with the edge (s, a) valued 1: as written the climb
      stays at s; with the intended test it moves to a. */
  lemma StopTestCounterexample()
    ensures HillClimbing(map['s' := ['a']], None, map[('s', 'a') := 1], 's') == ['s']
    ensures HillClimbingIntended(map['s' := ['a']], None, map[('s', 'a') := 1], 's') == ['s', 'a']
  {
    var g: Graph<char> := map['s' := ['a']];
    var h: Table<char> := map[('s', 'a') := 1];
    assert Valid(h, 's', ['a']) == ['a'];
    assert Best(h, 's', ['a']) == 'a';
    var p := ['s'] + ['a'];
    assert Succ(g, 'a') == [];
    assert Climb(Intended, g, None, h, p) == p;
  }
}

=== FILE: informed.dfy ===
/** The helpers shared by the informed searches (informed/__init__.py): the
    cost lookup `get_g` and the distance heuristic on integer nodes. */
module Informed {
  import opened ExtInt

  /** `get_g(costs, a, b)`: the cost of the pair (a, b), or +inf when the
      table has no entry for it. The same lookup reads a heuristic table
      with an infinite default. */
  function GetG<N(==)>(costs: map<(N, N), int>, a: N, b: N): (r: EInt)
    ensures r.Fin? <==> (a, b) in costs
    ensures r.Fin? ==> r.v == costs[(a, b)]
    ensures r != NegInf
  {
    if (a, b) in costs then Fin(costs[(a, b)]) else PosInf
  }

  /** `heuristic(n, goal)`: the distance between two integer nodes. */
  function Heuristic(n: int, goal: int): (r: int)
    ensures r >= 0
    ensures r == 0 <==> n == goal
    ensures r >= n - goal && r >= goal - n
    ensures r == n - goal || r == goal - n
  {
    if n >= goal then n - goal else goal - n
  }

  lemma HeuristicSymmetric(n: int, goal: int)
    ensures Heuristic(n, goal) == Heuristic(goal, n)
  {
  }
}

=== FILE: open_closed.dfy ===
/** `bfs` (uninformed/breadth_first_search.py): breadth-first search with an
    `open_list` queue and a `closed_list` of expanded nodes; the result on
    success is the expansion order, not a path. */
module OpenClosed {
  import opened Graphs

  /** The loop's two lists. */
  datatype Lists<N> = Lists(open: seq<N>, closed: seq<N>)

  /** The returned pair: ("FAIL", None) or ("SUCCESS", closed_list). */
  datatype Verdict<N> = Fail | Success(closed: seq<N>)

  /** The `children` list: the neighbours on neither list, in neighbour order.
      Each neighbour is tested against the lists alone, so a neighbour listed
      twice is appended twice. */
  function Children<N(==)>(nbrs: seq<N>, open: seq<N>, closed: seq<N>): (r: seq<N>)
    ensures forall x :: x in r ==> x in nbrs && x !in open && x !in closed
    ensures forall x :: x in nbrs && x !in open && x !in closed ==> x in r
    ensures forall x :: x in nbrs ==>
      multiset(r)[x] == if x in open || x in closed then 0 else multiset(nbrs)[x]
    ensures NoDups(nbrs) ==> NoDups(r)
    ensures (forall x :: x in nbrs ==> x in open || x in closed) ==> r == []
    decreases |nbrs|
  {
    if |nbrs| == 0 then []
    else
      var x := nbrs[0];
      assert nbrs == [x] + nbrs[1..];
      var rest := Children(nbrs[1..], open, closed);
      if x !in open && x !in closed then
        assert NoDups(nbrs) ==> x !in nbrs[1..] && NoDups(nbrs[1..]) by {
          if NoDups(nbrs) {
            forall i, j | 0 <= i < j < |nbrs| - 1
              ensures nbrs[1..][i] != nbrs[1..][j]
            {
              assert nbrs[i + 1] != nbrs[j + 1];
            }
            forall k | 0 <= k < |nbrs| - 1
              ensures nbrs[1..][k] != x
            {
              assert nbrs[0] != nbrs[k + 1];
            }
          }
        }
        assert NoDups(nbrs) ==> NoDups([x] + rest) by {
          if NoDups(nbrs) {
            forall i, j | 0 <= i < j < |rest| + 1
              ensures ([x] + rest)[i] != ([x] + rest)[j]
            {
              if i > 0 {
                assert rest[i - 1] != rest[j - 1];
              }
            }
          }
        }
        [x] + rest
      else
        assert NoDups(nbrs) ==> NoDups(nbrs[1..]) by {
          if NoDups(nbrs) {
            forall i, j | 0 <= i < j < |nbrs| - 1
              ensures nbrs[1..][i] != nbrs[1..][j]
            {
              assert nbrs[i + 1] != nbrs[j + 1];
            }
          }
        }
        rest
  }

  /** One pass of the while loop for a popped node that is not the goal. */
  function Step<N>(g: Graph<N>, s: Lists<N>): Lists<N>
    requires |s.open| > 0
  {
    var x := s.open[0];
    var open := s.open[1..];
    var closed := s.closed + [x];
    Lists(open + Children(Succ(g, x), open, closed), closed)
  }

  function Run<N(!new)>(g: Graph<N>, start: N, goal: N, s: Lists<N>): Verdict<N>
    requires Inv(g, start, goal, s)
    decreases |Universe(g, start) - Elems(s.closed)|, |s.open|
  {
    if |s.open| == 0 then Fail
    else if s.open[0] == goal then Success(s.closed + [goal])
    else
      StepPreservesInv(g, start, goal, s);
      Run(g, start, goal, Step(g, s))
  }

  /** bfs(graph, start, goal), without the log table and printing. */
  function Bfs<N(!new)>(g: Graph<N>, start: N, goal: N): (r: Verdict<N>)
    ensures r.Success? ==> |r.closed| > 0 && r.closed[0] == start && Last(r.closed) == goal
    ensures r.Success? ==> forall x :: x in r.closed ==> Reachable(g, start, x)
    ensures r.Fail? <==> !Reachable(g, start, goal)
    ensures r.Success? && DupFreeLists(g) ==> NoDups(r.closed)
  {
    InitInv(g, start, goal);
    RunCorrect(g, start, goal, Lists([start], []));
    Run(g, start, goal, Lists([start], []))
  }

  // ---------------------------------------------------------------------
  // Invariants.
  // ---------------------------------------------------------------------

  /** No neighbour list repeats a node. */
  predicate DupFreeLists<N>(g: Graph<N>)
  {
    forall n :: n in g ==> NoDups(g[n])
  }

  ghost predicate Inv<N(!new)>(g: Graph<N>, start: N, goal: N, s: Lists<N>)
  {
    && Elems(s.open) + Elems(s.closed) <= Universe(g, start)
    && (|s.closed| == 0 ==> s.open == [start])
    && (|s.closed| > 0 ==> s.closed[0] == start)
    && goal !in s.closed
    && (forall u, x :: u in s.closed && x in Succ(g, u) ==> x in s.open || x in s.closed)
    && (forall x :: x in s.open || x in s.closed ==> Reachable(g, start, x))
    && (DupFreeLists(g) ==> Disjoint(s))
  }

  /** With duplicate-free neighbour lists, neither list repeats a node and no
      node is on both. */
  predicate Disjoint<N(==)>(s: Lists<N>)
  {
    NoDups(s.open) && NoDups(s.closed) && forall x :: x in s.open ==> x !in s.closed
  }

  lemma InitInv<N(!new)>(g: Graph<N>, start: N, goal: N)
    ensures Inv(g, start, goal, Lists([start], []))
  {
    StartReachable(g, start);
  }

  lemma StepPreservesInv<N(!new)>(g: Graph<N>, start: N, goal: N, s: Lists<N>)
    requires Inv(g, start, goal, s)
    requires |s.open| > 0 && s.open[0] != goal
    ensures Inv(g, start, goal, Step(g, s))
    ensures |Universe(g, start) - Elems(Step(g, s).closed)| < |Universe(g, start) - Elems(s.closed)|
      || (Elems(Step(g, s).closed) == Elems(s.closed) && |Step(g, s).open| < |s.open|)
  {
    StepClosure(g, start, goal, s);
    StepReachable(g, start, goal, s);
    if DupFreeLists(g) {
      StepDisjoint(g, start, goal, s);
    }
    StepShrinks(g, start, s);
  }

  /** After a pass every expanded node still has all its successors on one of
      the two lists, and both lists stay inside the universe. */
  lemma StepClosure<N(!new)>(g: Graph<N>, start: N, goal: N, s: Lists<N>)
    requires Inv(g, start, goal, s)
    requires |s.open| > 0 && s.open[0] != goal
    ensures var s' := Step(g, s);
      && Elems(s'.open) + Elems(s'.closed) <= Universe(g, start)
      && (forall u, y :: u in s'.closed && y in Succ(g, u) ==> y in s'.open || y in s'.closed)
  {
    var x := s.open[0];
    var open := s.open[1..];
    var closed := s.closed + [x];
    var kids := Children(Succ(g, x), open, closed);
    var s' := Step(g, s);
    assert s.open == [x] + open;
    forall y | y in s'.open
      ensures y in Universe(g, start)
    {
      if y in kids {
        SuccInNodes(g, x, y);
      } else {
        assert y in open;
      }
    }
    forall u, y | u in s'.closed && y in Succ(g, u)
      ensures y in s'.open || y in s'.closed
    {
      if u == x {
        if y !in open && y !in closed {
          assert y in kids;
        }
      } else {
        assert u in s.closed;
      }
    }
  }

  /** Every node on either list after a pass is reachable from the start. */
  lemma StepReachable<N(!new)>(g: Graph<N>, start: N, goal: N, s: Lists<N>)
    requires Inv(g, start, goal, s)
    requires |s.open| > 0 && s.open[0] != goal
    ensures forall y :: y in Step(g, s).open || y in Step(g, s).closed ==> Reachable(g, start, y)
  {
    var x := s.open[0];
    var open := s.open[1..];
    var closed := s.closed + [x];
    var kids := Children(Succ(g, x), open, closed);
    assert s.open == [x] + open;
    assert Reachable(g, start, x);
    var p :| PathFrom(g, start, p) && Last(p) == x;
    forall y | y in kids
      ensures Reachable(g, start, y)
    {
      PathExtend(g, start, p, y);
    }
  }

  lemma StepDisjoint<N(!new)>(g: Graph<N>, start: N, goal: N, s: Lists<N>)
    requires Inv(g, start, goal, s) && DupFreeLists(g)
    requires |s.open| > 0 && s.open[0] != goal
    ensures Disjoint(Step(g, s))
  {
    var x := s.open[0];
    var open := s.open[1..];
    var closed := s.closed + [x];
    var kids := Children(Succ(g, x), open, closed);
    assert s.open == [x] + open;
    assert NoDups(Succ(g, x));
    assert NoDups(open) by {
      forall i, j | 0 <= i < j < |open|
        ensures open[i] != open[j]
      {
        assert s.open[i + 1] != s.open[j + 1];
      }
    }
    assert x !in open by {
      forall k | 0 <= k < |open|
        ensures open[k] != x
      {
        assert s.open[0] != s.open[k + 1];
      }
    }
    NoDupsAppend(s.closed, x);
    NoDupsConcat(open, kids);
  }

  /** The loop's termination measure decreases: either a node is expanded for
      the first time, or a node expanded before is popped again and, since all
      its successors are already listed, adds nothing. */
  lemma StepShrinks<N>(g: Graph<N>, start: N, s: Lists<N>)
    requires |s.open| > 0
    requires Elems(Step(g, s).closed) <= Universe(g, start)
    requires s.open[0] in s.closed ==>
      forall y :: y in Succ(g, s.open[0]) ==> y in s.open || y in s.closed
    ensures |Universe(g, start) - Elems(Step(g, s).closed)| < |Universe(g, start) - Elems(s.closed)|
      || (Elems(Step(g, s).closed) == Elems(s.closed) && |Step(g, s).open| < |s.open|)
  {
    var x := s.open[0];
    var open := s.open[1..];
    var closed := s.closed + [x];
    var kids := Children(Succ(g, x), open, closed);
    assert s.open == [x] + open;
    ElemsAppend(s.closed, x);
    assert Step(g, s) == Lists(open + kids, closed);
    if x in s.closed {
      assert forall y :: y in Succ(g, x) ==> y in open || y in closed;
      assert kids == [];
      assert Elems(closed) == Elems(s.closed);
      assert |open + kids| < |s.open|;
    } else {
      DiffShrinks(Universe(g, start), Elems(s.closed), Elems(closed));
    }
  }

  // ---------------------------------------------------------------------
  // What the loop returns.
  // ---------------------------------------------------------------------

  lemma {:induction false} RunCorrect<N(!new)>(g: Graph<N>, start: N, goal: N, s: Lists<N>)
    requires Inv(g, start, goal, s)
    ensures var r := Run(g, start, goal, s);
      && (r.Success? ==> |r.closed| > 0 && r.closed[0] == start && Last(r.closed) == goal)
      && (r.Success? ==> forall x :: x in r.closed ==> Reachable(g, start, x))
      && (r.Fail? <==> !Reachable(g, start, goal))
      && (r.Success? && DupFreeLists(g) ==> NoDups(r.closed))
    decreases |Universe(g, start) - Elems(s.closed)|, |s.open|
  {
    if |s.open| == 0 {
      assert start in s.closed;
      if Reachable(g, start, goal) {
        var p :| PathFrom(g, start, p) && Last(p) == goal;
        ClosedSetHoldsReachable(g, start, Elems(s.closed), p);
        assert false;
      }
    } else if s.open[0] == goal {
      assert goal in s.open;
      if DupFreeLists(g) {
        NoDupsAppend(s.closed, goal);
      }
    } else {
      StepPreservesInv(g, start, goal, s);
      RunCorrect(g, start, goal, Step(g, s));
    }
  }
}

=== FILE: uniform_cost.dfy ===
/** `uniform_cost_search` (uninformed/uniform_cost_search.py): a priority
    queue of (g_cost, node, path) entries, a `best_cost` map relaxed only on
    strict improvement, stale entries skipped when popped, and an error on a
    negative edge cost met while expanding a node. */
module UniformCost {
  import opened Graphs
  import opened ExtInt

  /** A weighted adjacency list: each node maps to (neighbour, edge cost) pairs. */
  type WGraph<N> = map<N, seq<(N, int)>>

  /** `graph.get(node, [])`. */
  function Edges<N>(g: WGraph<N>, n: N): seq<(N, int)>
  {
    if n in g then g[n] else []
  }

  /** Every node the graph mentions, as a key or as an edge target. */
  function WNodes<N>(g: WGraph<N>): set<N>
  {
    g.Keys + (set n, k | n in g && 0 <= k < |g[n]| :: g[n][k].0)
  }

  function WUniverse<N>(g: WGraph<N>, start: N): set<N>
  {
    WNodes(g) + {start}
  }

  predicate NonNegative<N>(g: WGraph<N>)
  {
    forall n, k :: n in g && 0 <= k < |g[n]| ==> g[n][k].1 >= 0
  }

  /** `p` is a path whose consecutive nodes are joined by edges whose costs
      sum to `c` (with parallel edges, by some choice of them). */
  ghost predicate CostPath<N>(g: WGraph<N>, p: seq<N>, c: int)
    decreases |p|
  {
    if |p| <= 1 then |p| == 1 && c == 0
    else
      var u := p[|p| - 2];
      exists k :: 0 <= k < |Edges(g, u)| && Edges(g, u)[k].0 == Last(p)
        && CostPath(g, p[..|p| - 1], c - Edges(g, u)[k].1)
  }

  ghost predicate CostPathFrom<N>(g: WGraph<N>, start: N, p: seq<N>, c: int)
  {
    CostPath(g, p, c) && |p| > 0 && p[0] == start
  }

  ghost predicate Reaches<N(!new)>(g: WGraph<N>, start: N, n: N)
  {
    exists p, c :: CostPathFrom(g, start, p, c) && Last(p) == n
  }

  /** A queue element (g_cost, node, path). */
  datatype Entry<N> = Entry(cost: int, node: N, path: seq<N>)

  /** The loop's variables `p_queue` and `best_cost`. */
  datatype State<N> = State(queue: seq<Entry<N>>, best: map<N, int>)

  /** The three ways the function ends: (g_cost, path), (inf, None), and the
      ValueError for a negative edge cost. */
  datatype Answer<N> = Found(cost: int, path: seq<N>) | NotFound | NegativeCost

  /** `best_cost.get(n, inf)`. */
  function BestOf<N>(best: map<N, int>, n: N): EInt
  {
    if n in best then Fin(best[n]) else PosInf
  }

  /** `heappop` is modelled by a selector that returns the index of some entry
      of least cost; every property below holds whichever such entry it picks. */
  ghost predicate MinSelector<N(!new)>(sel: seq<Entry<N>> -> nat)
  {
    forall q: seq<Entry<N>> :: |q| > 0 ==>
      sel(q) < |q| && forall j :: 0 <= j < |q| ==> q[sel(q)].cost <= q[j].cost
  }

  /** The first least-cost index of a non-empty queue, 0 of an empty one. */
  function Cheapest<N>(q: seq<Entry<N>>): (i: nat)
    ensures |q| > 0 ==> i < |q| && forall j :: 0 <= j < |q| ==> q[i].cost <= q[j].cost
    decreases |q|
  {
    if |q| <= 1 then 0
    else
      var t := q[1..];
      var k := Cheapest(t);
      assert forall j :: 1 <= j < |q| ==> q[j] == t[j - 1];
      if t[k].cost < q[0].cost then k + 1 else 0
  }

  /** `MinSelector` can be met, so the results proved for every least-cost
      selector are about some heappop. */
  lemma MinSelectorExists<N(!new)>()
    ensures MinSelector<N>(Cheapest)
  {
  }

  // ---------------------------------------------------------------------
  // The algorithm.
  // ---------------------------------------------------------------------

  /** Whether the `for neighbor, h_cost in graph.get(node, [])` loop raises
      its ValueError: some edge cost is negative. The raise discards everything
      the loop relaxed before it, so the pass is modelled as this test followed
      by `Relax`. */
  predicate HasNegative<N>(edges: seq<(N, int)>)
  {
    exists j :: 0 <= j < |edges| && edges[j].1 < 0
  }

  /** The result of a relaxation pass: the new `best_cost` and the entries
      pushed, in order. */
  datatype Relaxation<N> = Relaxation(best: map<N, int>, pushed: seq<Entry<N>>)

  /** The loop body for a node popped with cost `c` and path `path`, over its
      edges in order. */
  function Relax<N>(edges: seq<(N, int)>, c: int, path: seq<N>, best: map<N, int>): Relaxation<N>
    decreases |edges|
  {
    if |edges| == 0 then Relaxation(best, [])
    else
      var x := edges[0].0;
      var f := c + edges[0].1;
      var r := Relax(edges[1..], c, path, Improve(best, x, f));
      Relaxation(r.best, Pushed(best, x, f, path) + r.pushed)
  }

  /** The `heappush` for `x` at cost `f`, made only on strict improvement. */
  function Pushed<N>(best: map<N, int>, x: N, f: int, path: seq<N>): (r: seq<Entry<N>>)
    ensures |r| <= 1
    ensures |r| == 1 <==> Lt(Fin(f), BestOf(best, x))
    ensures |r| == 1 ==> r[0] == Entry(f, x, path + [x])
  {
    if Lt(Fin(f), BestOf(best, x)) then [Entry(f, x, path + [x])] else []
  }

  /** `best_cost` after considering cost `f` for `x`: lowered only on strict
      improvement. */
  function Improve<N>(best: map<N, int>, x: N, f: int): (r: map<N, int>)
    ensures x in r && r[x] <= f
    ensures r[x] == f || (x in best && r[x] == best[x])
    ensures r.Keys == best.Keys + {x}
    ensures forall n :: n in best ==> r[n] <= best[n]
    ensures forall n :: n in r && n != x ==> n in best && r[n] == best[n]
    ensures x in best && best[x] <= f ==> r == best
  {
    if Lt(Fin(f), BestOf(best, x)) then best[x := f] else best
  }

  /** What one pass of the while loop does after popping the entry at `k`. */
  datatype Turn<N> = Continue(next: State<N>) | Stop(answer: Answer<N>)

  function Pop<N>(g: WGraph<N>, goal: N, s: State<N>, k: nat): Turn<N>
    requires k < |s.queue|
  {
    var e := s.queue[k];
    var rest := Remove(s.queue, k);
    if Lt(BestOf(s.best, e.node), Fin(e.cost)) then Continue(State(rest, s.best))
    else if e.node == goal then Stop(Found(e.cost, e.path))
    else
      var edges := Edges(g, e.node);
      if HasNegative(edges) then Stop(NegativeCost)
      else
        var r := Relax(edges, e.cost, e.path, s.best);
        Continue(State(rest + r.pushed, r.best))
  }

  function Run<N(!new)>(g: WGraph<N>, start: N, goal: N, sel: seq<Entry<N>> -> nat, s: State<N>): Answer<N>
    requires MinSelector(sel)
    requires Inv(g, start, goal, s)
    decreases |WUniverse(g, start) - s.best.Keys|, Pot(s.best, Enumerate(WUniverse(g, start))), |s.queue|
  {
    if |s.queue| == 0 then NotFound
    else
      match Pop(g, goal, s, sel(s.queue))
      case Stop(a) => a
      case Continue(t) =>
        PopPreservesInv(g, start, goal, s, sel(s.queue));
        PotNonNegative(s.best, Enumerate(WUniverse(g, start)));
        Run(g, start, goal, sel, t)
  }

  /** uniform_cost_search(graph, start, goal), for every least-cost choice of
      `heappop`. */
  function UniformCostSearch<N(!new)>(g: WGraph<N>, start: N, goal: N, sel: seq<Entry<N>> -> nat): (r: Answer<N>)
    requires MinSelector(sel)
    ensures r.Found? ==> CostPathFrom(g, start, r.path, r.cost) && Last(r.path) == goal
    ensures r.Found? && NonNegative(g) ==>
      forall p, c :: CostPathFrom(g, start, p, c) && Last(p) == goal ==> r.cost <= c
    ensures r.NotFound? ==> !Reaches(g, start, goal)
    ensures NonNegative(g) ==> (r.NotFound? <==> !Reaches(g, start, goal))
    ensures r.NegativeCost? ==>
      exists n, k :: Reaches(g, start, n) && 0 <= k < |Edges(g, n)| && Edges(g, n)[k].1 < 0
    ensures start == goal ==> r == Found(0, [start])
  {
    InitInv(g, start, goal);
    RunCorrect(g, start, goal, sel, Init(start));
    StartIsGoal(g, start, goal, sel);
    Run(g, start, goal, sel, Init(start))
  }

  function Init<N>(start: N): State<N>
  {
    State([Entry(0, start, [start])], map[start := 0])
  }

  /** The first entry popped is the start's, at cost zero. */
  lemma StartIsGoal<N(!new)>(g: WGraph<N>, start: N, goal: N, sel: seq<Entry<N>> -> nat)
    requires MinSelector(sel)
    ensures Inv(g, start, goal, Init(start))
      && (start == goal ==> Run(g, start, goal, sel, Init(start)) == Found(0, [start]))
  {
    InitInv(g, start, goal);
    var q := Init(start).queue;
    assert |q| > 0;
    assert sel(q) == 0;
  }

  // ---------------------------------------------------------------------
  // The termination measure: the sum of the best costs.
  // ---------------------------------------------------------------------

  /** Some fixed listing of a finite set. */
  ghost function Enumerate<T>(s: set<T>): (r: seq<T>)
    ensures Elems(r) == s
    decreases |s|
  {
    if s == {} then []
    else
      var x :| x in s;
      var r := Enumerate(s - {x});
      assert Elems([x] + r) == {x} + Elems(r);
      [x] + r
  }

  /** The sum of `best[n]` over the listed nodes that have an entry. */
  function Pot<N>(best: map<N, int>, us: seq<N>): int
    decreases |us|
  {
    if |us| == 0 then 0
    else (if us[0] in best then best[us[0]] else 0) + Pot(best, us[1..])
  }

  lemma {:induction false} PotNonNegative<N>(best: map<N, int>, us: seq<N>)
    requires forall n :: n in best ==> best[n] >= 0
    ensures Pot(best, us) >= 0
    decreases |us|
  {
    if |us| > 0 {
      PotNonNegative(best, us[1..]);
    }
  }

  /** Lowering some listed entry, and raising none, lowers the sum. */
  lemma {:induction false} PotDecreases<N>(b: map<N, int>, best: map<N, int>, us: seq<N>, n: N)
    requires b.Keys == best.Keys
    requires forall m :: m in best ==> b[m] <= best[m]
    requires n in best && b[n] < best[n]
    ensures n in us ==> Pot(b, us) < Pot(best, us)
    ensures Pot(b, us) <= Pot(best, us)
    decreases |us|
  {
    if |us| > 0 {
      PotDecreases(b, best, us[1..], n);
      if us[0] != n {
        assert n in us ==> n in us[1..];
      }
    }
  }

  /** The loop's measure, lexicographic: fewer nodes without a best cost, or a
      smaller sum of best costs, or the same costs and a shorter queue. */
  ghost predicate Smaller<N>(g: WGraph<N>, start: N, t: State<N>, s: State<N>)
  {
    var u := WUniverse(g, start);
    || |u - t.best.Keys| < |u - s.best.Keys|
    || (t.best.Keys == s.best.Keys && Pot(t.best, Enumerate(u)) < Pot(s.best, Enumerate(u)))
    || (t.best == s.best && |t.queue| < |s.queue|)
  }

  // ---------------------------------------------------------------------
  // What a relaxation pass does.
  // ---------------------------------------------------------------------

  /** Relaxation never raises a best cost, only adds edge targets, and leaves
      every target at most the popped cost plus the edge cost. */
  lemma {:induction false} RelaxBest<N>(edges: seq<(N, int)>, c: int, path: seq<N>, best: map<N, int>)
    ensures Lowered(best, Relax(edges, c, path, best).best)
    ensures FromEdges(edges, best, Relax(edges, c, path, best).best)
    ensures EdgesRelaxed(edges, c, Relax(edges, c, path, best).best)
    decreases |edges|
  {
    if |edges| == 0 {
      assert Relax(edges, c, path, best).best == best;
    } else {
      var best' := Improve(best, edges[0].0, c + edges[0].1);
      var b := Relax(edges[1..], c, path, best').best;
      assert Relax(edges, c, path, best).best == b;
      RelaxBest(edges[1..], c, path, best');
      assert forall j :: 1 <= j < |edges| ==> edges[j] == edges[1..][j - 1];
    }
  }

  /** `b` keeps every key of `best`, at no higher cost. */
  ghost predicate Lowered<N>(best: map<N, int>, b: map<N, int>)
  {
    best.Keys <= b.Keys && forall n :: n in best ==> b[n] <= best[n]
  }

  /** Every key of `b` is a key of `best` or an edge target. */
  ghost predicate FromEdges<N>(edges: seq<(N, int)>, best: map<N, int>, b: map<N, int>)
  {
    forall n :: n in b ==> n in best || exists j :: 0 <= j < |edges| && edges[j].0 == n
  }

  /** Every edge target has a best cost no more than `c` plus the edge cost. */
  ghost predicate EdgesRelaxed<N>(edges: seq<(N, int)>, c: int, b: map<N, int>)
  {
    forall j :: 0 <= j < |edges| ==> edges[j].0 in b && b[edges[j].0] <= c + edges[j].1
  }

  /** Every pushed entry carries `path` extended by its node, at a cost no
      less than that node's best. */
  ghost predicate PushedPaths<N>(path: seq<N>, r: Relaxation<N>)
  {
    forall k :: 0 <= k < |r.pushed| ==>
      r.pushed[k].path == path + [r.pushed[k].node] && r.pushed[k].node in r.best && r.best[r.pushed[k].node] <= r.pushed[k].cost
  }

  /** Every pushed entry is for an edge target at `c` plus that edge's cost. */
  ghost predicate PushedCosts<N>(edges: seq<(N, int)>, c: int, pushed: seq<Entry<N>>)
  {
    forall k :: 0 <= k < |pushed| ==>
      exists j :: 0 <= j < |edges| && edges[j].0 == pushed[k].node && pushed[k].cost == c + edges[j].1
  }

  /** Every pushed entry carries the popped path extended by its node, at a
      cost no less than that node's best. */
  lemma {:induction false} RelaxPushedPaths<N>(edges: seq<(N, int)>, c: int, path: seq<N>, best: map<N, int>)
    ensures PushedPaths(path, Relax(edges, c, path, best))
    decreases |edges|
  {
    if |edges| == 0 {
      assert Relax(edges, c, path, best).pushed == [];
    } else {
      var x := edges[0].0;
      var best' := Improve(best, x, c + edges[0].1);
      var head := Pushed(best, x, c + edges[0].1, path);
      var r' := Relax(edges[1..], c, path, best');
      var r := Relaxation(r'.best, head + r'.pushed);
      assert Relax(edges, c, path, best) == r;
      RelaxPushedPaths(edges[1..], c, path, best');
      RelaxBest(edges[1..], c, path, best');
      assert PushedPaths(path, r') && Lowered(best', r'.best);
      forall k | 0 <= k < |r.pushed|
        ensures r.pushed[k].path == path + [r.pushed[k].node] && r.pushed[k].node in r.best && r.best[r.pushed[k].node] <= r.pushed[k].cost
      {
        if k >= |head| {
          assert r.pushed[k] == r'.pushed[k - |head|];
        }
      }
    }
  }

  /** Every pushed entry is for an edge target, at the popped cost plus that
      edge's cost. */
  lemma {:induction false} RelaxPushedCosts<N>(edges: seq<(N, int)>, c: int, path: seq<N>, best: map<N, int>)
    ensures PushedCosts(edges, c, Relax(edges, c, path, best).pushed)
    decreases |edges|
  {
    if |edges| > 0 {
      var x := edges[0].0;
      var best' := Improve(best, x, c + edges[0].1);
      var head := Pushed(best, x, c + edges[0].1, path);
      var tail := Relax(edges[1..], c, path, best').pushed;
      var pushed := head + tail;
      RelaxPushedCosts(edges[1..], c, path, best');
      assert Relax(edges, c, path, best).pushed == pushed;
      assert PushedCosts(edges[1..], c, tail);
      forall k | 0 <= k < |pushed|
        ensures exists j :: 0 <= j < |edges| && edges[j].0 == pushed[k].node && pushed[k].cost == c + edges[j].1
      {
        if k < |head| {
          assert pushed[k] == head[0];
        } else {
          var t := k - |head|;
          assert pushed[k] == tail[t];
          var j :| 0 <= j < |edges[1..]| && edges[1..][j].0 == tail[t].node && tail[t].cost == c + edges[1..][j].1;
          assert edges[j + 1] == edges[1..][j];
        }
      }
    } else {
      assert Relax(edges, c, path, best).pushed == [];
    }
  }

  /** Every node whose best cost differs from `best` in `r` has a pushed entry
      at its new cost. */
  ghost predicate ChangesPushed<N>(best: map<N, int>, r: Relaxation<N>)
  {
    forall n :: n in r.best && (n !in best || r.best[n] != best[n]) ==>
      exists k :: 0 <= k < |r.pushed| && r.pushed[k].node == n && r.pushed[k].cost == r.best[n]
  }

  /** Every node whose best cost changed has a pushed entry at its new cost,
      so no best cost changes without a push. */
  lemma {:induction false} RelaxChanged<N>(edges: seq<(N, int)>, c: int, path: seq<N>, best: map<N, int>)
    ensures ChangesPushed(best, Relax(edges, c, path, best))
    decreases |edges|
  {
    if |edges| == 0 {
      assert Relax(edges, c, path, best).best == best;
    } else {
      var x := edges[0].0;
      var f := c + edges[0].1;
      var best' := Improve(best, x, f);
      var head := Pushed(best, x, f, path);
      var r' := Relax(edges[1..], c, path, best');
      var b := r'.best;
      var pushed := head + r'.pushed;
      assert Relax(edges, c, path, best) == Relaxation(b, pushed);
      RelaxChanged(edges[1..], c, path, best');
      assert ChangesPushed(best', r');
      forall n | n in b && (n !in best || b[n] != best[n])
        ensures exists k :: 0 <= k < |pushed| && pushed[k].node == n && pushed[k].cost == b[n]
      {
        if n in best' && b[n] == best'[n] {
          assert |head| == 1 && n == x;
          assert pushed[0].node == n && pushed[0].cost == b[n];
        } else {
          var k' :| 0 <= k' < |r'.pushed| && r'.pushed[k'].node == n && r'.pushed[k'].cost == b[n];
          assert pushed[|head| + k'] == r'.pushed[k'];
        }
      }
    }
  }

  /** A pass pushes nothing exactly when it changes no best cost. */
  lemma {:induction false} RelaxQuiet<N>(edges: seq<(N, int)>, c: int, path: seq<N>, best: map<N, int>)
    ensures var r := Relax(edges, c, path, best); r.pushed == [] <==> r.best == best
    decreases |edges|
  {
    if |edges| > 0 {
      var x := edges[0].0;
      var f := c + edges[0].1;
      var best' := Improve(best, x, f);
      var r' := Relax(edges[1..], c, path, best');
      var r := Relax(edges, c, path, best);
      assert r.best == r'.best && r.pushed == Pushed(best, x, f, path) + r'.pushed;
      RelaxQuiet(edges[1..], c, path, best');
      if Lt(Fin(f), BestOf(best, x)) {
        RelaxBest(edges[1..], c, path, best');
        assert x in r.best && r.best[x] <= f;
        assert r.best != best;
      } else {
        assert best' == best;
      }
    }
  }

  /** With no negative edge, a non-negative popped cost and non-negative best
      costs, the best costs stay non-negative. */
  lemma {:induction false} RelaxNonNegative<N>(edges: seq<(N, int)>, c: int, path: seq<N>, best: map<N, int>)
    requires !HasNegative(edges)
    requires c >= 0 && forall n :: n in best ==> best[n] >= 0
    ensures var b := Relax(edges, c, path, best).best; forall n :: n in b ==> b[n] >= 0
    decreases |edges|
  {
    if |edges| > 0 {
      assert edges[0].1 >= 0;
      assert forall j :: 1 <= j < |edges| ==> edges[j] == edges[1..][j - 1];
      var best' := Improve(best, edges[0].0, c + edges[0].1);
      assert forall n :: n in best' ==> best'[n] >= 0;
      RelaxNonNegative(edges[1..], c, path, best');
      assert Relax(edges, c, path, best).best == Relax(edges[1..], c, path, best').best;
    }
  }

  // ---------------------------------------------------------------------
  // The loop invariant.
  // ---------------------------------------------------------------------

  /** Every out-edge of `w` is already relaxed: its target has a best cost no
      more than `best[w]` plus the edge cost. */
  ghost predicate Relaxed<N>(g: WGraph<N>, best: map<N, int>, w: N)
    requires w in best
  {
    forall k :: 0 <= k < |Edges(g, w)| ==>
      Edges(g, w)[k].0 in best && best[Edges(g, w)[k].0] <= best[w] + Edges(g, w)[k].1
  }

  /** The queue holds an entry for `w` at its best cost. */
  ghost predicate Pending<N>(q: seq<Entry<N>>, best: map<N, int>, w: N)
    requires w in best
  {
    exists k :: 0 <= k < |q| && q[k].node == w && q[k].cost == best[w]
  }

  /** The start keeps cost zero and every best cost is a non-negative cost of
      a node the search can meet. */
  ghost predicate BestOk<N>(g: WGraph<N>, start: N, best: map<N, int>)
  {
    && start in best && best[start] == 0
    && forall n :: n in best ==> best[n] >= 0 && n in WUniverse(g, start)
  }

  /** A queued entry's path runs from the start to its node, costs its cost,
      and costs no less than the node's best. */
  ghost predicate EntryOk<N>(g: WGraph<N>, start: N, best: map<N, int>, e: Entry<N>)
  {
    e.node in best && best[e.node] <= e.cost
    && CostPathFrom(g, start, e.path, e.cost) && Last(e.path) == e.node
  }

  ghost predicate EntriesOk<N>(g: WGraph<N>, start: N, best: map<N, int>, q: seq<Entry<N>>)
  {
    forall k :: 0 <= k < |q| ==> EntryOk(g, start, best, q[k])
  }

  /** Every node with a best cost was expanded at that cost (and is not the
      goal) or still waits in the queue at that cost. */
  ghost predicate Settled<N>(g: WGraph<N>, goal: N, best: map<N, int>, q: seq<Entry<N>>)
  {
    forall w :: w in best ==> (w != goal && Relaxed(g, best, w)) || Pending(q, best, w)
  }

  ghost predicate Inv<N>(g: WGraph<N>, start: N, goal: N, s: State<N>)
  {
    BestOk(g, start, s.best) && EntriesOk(g, start, s.best, s.queue) && Settled(g, goal, s.best, s.queue)
  }

  lemma InitInv<N>(g: WGraph<N>, start: N, goal: N)
    ensures Inv(g, start, goal, Init(start))
  {
    var s := Init(start);
    assert CostPath(g, [start], 0);
    assert s.queue[0].node == start && s.queue[0].cost == s.best[start];
    assert Pending(s.queue, s.best, start);
  }

  /** A pass that continues keeps the invariant and shrinks the measure. */
  lemma PopPreservesInv<N>(g: WGraph<N>, start: N, goal: N, s: State<N>, k: nat)
    requires Inv(g, start, goal, s) && k < |s.queue|
    requires Pop(g, goal, s, k).Continue?
    ensures Inv(g, start, goal, Pop(g, goal, s, k).next)
    ensures Smaller(g, start, Pop(g, goal, s, k).next, s)
  {
    var e := s.queue[k];
    assert EntryOk(g, start, s.best, e);
    if Lt(BestOf(s.best, e.node), Fin(e.cost)) {
      StaleStep(g, start, goal, s, k);
    } else {
      assert e.cost == s.best[e.node];
      ExpandBest(g, start, s.best, e);
      ExpandEntries(g, start, s.best, s.queue, k);
      ExpandSettled(g, goal, s.best, s.queue, k);
      ExpandMeasure(g, start, s, k);
    }
  }

  /** Popping a stale entry keeps the invariant. */
  lemma StaleStep<N>(g: WGraph<N>, start: N, goal: N, s: State<N>, k: nat)
    requires Inv(g, start, goal, s)
    requires k < |s.queue| && Lt(BestOf(s.best, s.queue[k].node), Fin(s.queue[k].cost))
    ensures Inv(g, start, goal, State(Remove(s.queue, k), s.best))
  {
    var rest := Remove(s.queue, k);
    forall i | 0 <= i < |rest|
      ensures EntryOk(g, start, s.best, rest[i])
    {
      assert rest[i] == s.queue[if i < k then i else i + 1];
    }
    forall w | w in s.best && !(w != goal && Relaxed(g, s.best, w))
      ensures Pending(rest, s.best, w)
    {
      var j :| 0 <= j < |s.queue| && s.queue[j].node == w && s.queue[j].cost == s.best[w];
      if j < k {
        assert rest[j] == s.queue[j];
      } else if j > k {
        assert rest[j - 1] == s.queue[j];
      }
    }
  }

  /** After a relaxation pass the best costs still satisfy `BestOk`. */
  lemma ExpandBest<N>(g: WGraph<N>, start: N, best: map<N, int>, e: Entry<N>)
    requires BestOk(g, start, best)
    requires e.node in best && e.cost == best[e.node] && !HasNegative(Edges(g, e.node))
    ensures BestOk(g, start, Relax(Edges(g, e.node), e.cost, e.path, best).best)
  {
    var edges := Edges(g, e.node);
    var b := Relax(edges, e.cost, e.path, best).best;
    RelaxBest(edges, e.cost, e.path, best);
    RelaxNonNegative(edges, e.cost, e.path, best);
    forall n | n in b && n !in best
      ensures n in WUniverse(g, start)
    {
      var j :| 0 <= j < |edges| && edges[j].0 == n;
      assert e.node in g;
    }
  }

  /** After a relaxation pass every queued entry is still well formed. */
  lemma ExpandEntries<N>(g: WGraph<N>, start: N, best: map<N, int>, q: seq<Entry<N>>, k: nat)
    requires EntriesOk(g, start, best, q) && k < |q|
    ensures var r := Relax(Edges(g, q[k].node), q[k].cost, q[k].path, best);
      EntriesOk(g, start, r.best, Remove(q, k) + r.pushed)
  {
    var e := q[k];
    var edges := Edges(g, e.node);
    var r := Relax(edges, e.cost, e.path, best);
    RelaxBest(edges, e.cost, e.path, best);
    RelaxPushedPaths(edges, e.cost, e.path, best);
    RelaxPushedCosts(edges, e.cost, e.path, best);
    EntriesAfter(g, start, best, q, k, r.best, r.pushed);
  }

  /** The argument of `ExpandEntries`, for any new best costs and pushed
      entries with the properties a relaxation pass guarantees. */
  lemma EntriesAfter<N>(g: WGraph<N>, start: N, best: map<N, int>, q: seq<Entry<N>>, k: nat, b: map<N, int>, pushed: seq<Entry<N>>)
    requires EntriesOk(g, start, best, q) && k < |q|
    requires Lowered(best, b)
    requires PushedPaths(q[k].path, Relaxation(b, pushed))
    requires PushedCosts(Edges(g, q[k].node), q[k].cost, pushed)
    ensures EntriesOk(g, start, b, Remove(q, k) + pushed)
  {
    var e := q[k];
    var edges := Edges(g, e.node);
    var rest := Remove(q, k);
    var q' := rest + pushed;
    assert EntryOk(g, start, best, e);
    forall i | 0 <= i < |q'|
      ensures EntryOk(g, start, b, q'[i])
    {
      if i < |rest| {
        assert q'[i] == q[if i < k then i else i + 1];
        assert EntryOk(g, start, best, q'[i]);
      } else {
        var p := q'[i];
        assert p == pushed[i - |rest|];
        var j :| 0 <= j < |edges| && edges[j].0 == p.node && p.cost == e.cost + edges[j].1;
        ExtendCostPath(g, start, e.path, e.cost, j);
      }
    }
  }

  /** Extending a costed path by one of its last node's edges. */
  lemma ExtendCostPath<N>(g: WGraph<N>, start: N, p: seq<N>, c: int, j: nat)
    requires CostPathFrom(g, start, p, c) && j < |Edges(g, Last(p))|
    ensures CostPathFrom(g, start, p + [Edges(g, Last(p))[j].0], c + Edges(g, Last(p))[j].1)
  {
    var x := Edges(g, Last(p))[j].0;
    var q := p + [x];
    assert q[..|q| - 1] == p;
    assert q[|q| - 2] == Last(p);
  }

  /** After a relaxation pass every node is relaxed (and not the goal) or has an
      entry at its best cost. */
  lemma ExpandSettled<N>(g: WGraph<N>, goal: N, best: map<N, int>, q: seq<Entry<N>>, k: nat)
    requires Settled(g, goal, best, q) && k < |q|
    requires q[k].node in best && q[k].cost == best[q[k].node] && q[k].node != goal
    ensures var r := Relax(Edges(g, q[k].node), q[k].cost, q[k].path, best);
      Settled(g, goal, r.best, Remove(q, k) + r.pushed)
  {
    var e := q[k];
    var edges := Edges(g, e.node);
    var r := Relax(edges, e.cost, e.path, best);
    RelaxBest(edges, e.cost, e.path, best);
    RelaxChanged(edges, e.cost, e.path, best);
    SettledAfter(g, goal, best, q, k, r.best, r.pushed);
  }

  /** The argument of `ExpandSettled`, for any new best costs and pushed
      entries with the properties a relaxation pass guarantees. */
  lemma SettledAfter<N>(g: WGraph<N>, goal: N, best: map<N, int>, q: seq<Entry<N>>, k: nat, b: map<N, int>, pushed: seq<Entry<N>>)
    requires Settled(g, goal, best, q) && k < |q|
    requires q[k].node in best && q[k].cost == best[q[k].node] && q[k].node != goal
    requires Lowered(best, b) && EdgesRelaxed(Edges(g, q[k].node), q[k].cost, b)
    requires ChangesPushed(best, Relaxation(b, pushed))
    ensures Settled(g, goal, b, Remove(q, k) + pushed)
  {
    var e := q[k];
    var rest := Remove(q, k);
    var q' := rest + pushed;
    forall w | w in b
      ensures (w != goal && Relaxed(g, b, w)) || Pending(q', b, w)
    {
      if w !in best || b[w] != best[w] {
        var i :| 0 <= i < |pushed| && pushed[i].node == w && pushed[i].cost == b[w];
        assert q'[|rest| + i] == pushed[i];
      } else if w == e.node {
        assert Relaxed(g, b, w);
      } else if w != goal && Relaxed(g, best, w) {
        RelaxedKept(g, best, b, w);
      } else {
        PendingKept(q, k, best, b, w, pushed);
      }
    }
  }

  /** A relaxed node stays relaxed while best costs only drop and its own
      stays put. */
  lemma RelaxedKept<N>(g: WGraph<N>, best: map<N, int>, b: map<N, int>, w: N)
    requires w in best && Relaxed(g, best, w)
    requires best.Keys <= b.Keys && (forall n :: n in best ==> b[n] <= best[n]) && b[w] == best[w]
    ensures Relaxed(g, b, w)
  {
  }

  /** A pending entry for a node other than the popped one survives the pop. */
  lemma PendingKept<N>(q: seq<Entry<N>>, k: nat, best: map<N, int>, b: map<N, int>, w: N, extra: seq<Entry<N>>)
    requires k < |q| && w in best && w in b && Pending(q, best, w)
    requires b[w] == best[w] && w != q[k].node
    ensures Pending(Remove(q, k) + extra, b, w)
  {
    var j :| 0 <= j < |q| && q[j].node == w && q[j].cost == best[w];
    assert (Remove(q, k) + extra)[if j < k then j else j - 1] == q[j];
  }

  /** The measure shrinks across a relaxation pass: a new node gets a best
      cost, or some best cost drops, or nothing changes and the queue is one
      entry shorter. */
  lemma ExpandMeasure<N>(g: WGraph<N>, start: N, s: State<N>, k: nat)
    requires k < |s.queue|
    requires BestOk(g, start, Relax(Edges(g, s.queue[k].node), s.queue[k].cost, s.queue[k].path, s.best).best)
    ensures var r := Relax(Edges(g, s.queue[k].node), s.queue[k].cost, s.queue[k].path, s.best);
      Smaller(g, start, State(Remove(s.queue, k) + r.pushed, r.best), s)
  {
    var e := s.queue[k];
    var edges := Edges(g, e.node);
    var u := WUniverse(g, start);
    var r := Relax(edges, e.cost, e.path, s.best);
    var b := r.best;
    var t := State(Remove(s.queue, k) + r.pushed, b);
    RelaxBest(edges, e.cost, e.path, s.best);
    RelaxQuiet(edges, e.cost, e.path, s.best);
    if b.Keys != s.best.Keys {
      assert b.Keys <= u;
      DiffShrinks(u, s.best.Keys, b.Keys);
      assert |u - t.best.Keys| < |u - s.best.Keys|;
    } else if b != s.best {
      var n :| n in b && b[n] != s.best[n];
      assert n in Enumerate(u);
      PotDecreases(b, s.best, Enumerate(u), n);
      assert Pot(t.best, Enumerate(u)) < Pot(s.best, Enumerate(u));
    } else {
      assert r.pushed == [];
      assert |t.queue| < |s.queue|;
    }
  }

  // ---------------------------------------------------------------------
  // What the loop returns.
  // ---------------------------------------------------------------------

  /** Every costed path from the start ends at a node whose best cost is at
      most the path's cost, or the queue holds an entry no dearer than it. */
  lemma {:induction false} Reach<N>(g: WGraph<N>, start: N, goal: N, s: State<N>, p: seq<N>, c: int)
    requires Inv(g, start, goal, s) && NonNegative(g)
    requires CostPathFrom(g, start, p, c)
    ensures (Last(p) in s.best && s.best[Last(p)] <= c)
      || exists j :: 0 <= j < |s.queue| && s.queue[j].cost <= c
    decreases |p|
  {
    if |p| > 1 {
      var u := p[|p| - 2];
      var i :| 0 <= i < |Edges(g, u)| && Edges(g, u)[i].0 == Last(p)
        && CostPath(g, p[..|p| - 1], c - Edges(g, u)[i].1);
      assert u in g;
      assert Edges(g, u)[i].1 >= 0;
      Reach(g, start, goal, s, p[..|p| - 1], c - Edges(g, u)[i].1);
    }
  }

  /** With an empty queue every node reachable from the start has a best cost
      and is not the goal. */
  lemma {:induction false} ReachKeys<N>(g: WGraph<N>, start: N, goal: N, s: State<N>, p: seq<N>, c: int)
    requires Inv(g, start, goal, s) && |s.queue| == 0
    requires CostPathFrom(g, start, p, c)
    ensures Last(p) in s.best && Last(p) != goal
    decreases |p|
  {
    if |p| > 1 {
      var u := p[|p| - 2];
      var i :| 0 <= i < |Edges(g, u)| && Edges(g, u)[i].0 == Last(p)
        && CostPath(g, p[..|p| - 1], c - Edges(g, u)[i].1);
      ReachKeys(g, start, goal, s, p[..|p| - 1], c - Edges(g, u)[i].1);
    }
  }

  /** A fresh goal entry of least cost in the queue is an optimal path. */
  lemma FoundOptimal<N>(g: WGraph<N>, start: N, goal: N, s: State<N>, k: nat, p: seq<N>, c: int)
    requires Inv(g, start, goal, s) && NonNegative(g) && k < |s.queue|
    requires forall j :: 0 <= j < |s.queue| ==> s.queue[k].cost <= s.queue[j].cost
    requires s.queue[k].node == goal && !Lt(BestOf(s.best, goal), Fin(s.queue[k].cost))
    requires CostPathFrom(g, start, p, c) && Last(p) == goal
    ensures s.queue[k].cost <= c
  {
    assert EntryOk(g, start, s.best, s.queue[k]);
    Reach(g, start, goal, s, p, c);
  }

  /** The answer for an invariant state, as the top-level function promises it. */
  ghost predicate Sound<N(!new)>(g: WGraph<N>, start: N, goal: N, r: Answer<N>)
  {
    && (r.Found? ==> CostPathFrom(g, start, r.path, r.cost) && Last(r.path) == goal)
    && (r.Found? && NonNegative(g) ==>
          forall p, c :: CostPathFrom(g, start, p, c) && Last(p) == goal ==> r.cost <= c)
    && (r.NotFound? ==> !Reaches(g, start, goal))
    && (r.NegativeCost? ==>
          exists n, k :: Reaches(g, start, n) && 0 <= k < |Edges(g, n)| && Edges(g, n)[k].1 < 0)
    && (NonNegative(g) ==> !r.NegativeCost?)
  }

  /** A pass that stops answers soundly. */
  lemma StopSound<N(!new)>(g: WGraph<N>, start: N, goal: N, s: State<N>, k: nat)
    requires Inv(g, start, goal, s) && k < |s.queue|
    requires forall j :: 0 <= j < |s.queue| ==> s.queue[k].cost <= s.queue[j].cost
    requires Pop(g, goal, s, k).Stop?
    ensures Sound(g, start, goal, Pop(g, goal, s, k).answer)
  {
    var e := s.queue[k];
    assert EntryOk(g, start, s.best, e);
    if e.node == goal {
      if NonNegative(g) {
        forall p, c | CostPathFrom(g, start, p, c) && Last(p) == goal
          ensures e.cost <= c
        {
          FoundOptimal(g, start, goal, s, k, p, c);
        }
      }
    } else {
      var edges := Edges(g, e.node);
      assert HasNegative(edges);
      var j :| 0 <= j < |edges| && edges[j].1 < 0;
      assert Reaches(g, start, e.node);
      assert e.node in g;
    }
  }

  lemma {:induction false} RunCorrect<N(!new)>(g: WGraph<N>, start: N, goal: N, sel: seq<Entry<N>> -> nat, s: State<N>)
    requires MinSelector(sel)
    requires Inv(g, start, goal, s)
    ensures Sound(g, start, goal, Run(g, start, goal, sel, s))
    decreases |WUniverse(g, start) - s.best.Keys|, Pot(s.best, Enumerate(WUniverse(g, start))), |s.queue|
  {
    PotNonNegative(s.best, Enumerate(WUniverse(g, start)));
    if |s.queue| == 0 {
      assert Run(g, start, goal, sel, s) == NotFound;
      EmptySound(g, start, goal, s);
    } else {
      var k := sel(s.queue);
      var turn := Pop(g, goal, s, k);
      if turn.Stop? {
        assert Run(g, start, goal, sel, s) == turn.answer;
        StopSound(g, start, goal, s, k);
      } else {
        PopPreservesInv(g, start, goal, s, k);
        RunCorrect(g, start, goal, sel, turn.next);
        assert Run(g, start, goal, sel, s) == Run(g, start, goal, sel, turn.next);
      }
    }
  }

  /** An empty queue means the goal is unreachable. */
  lemma EmptySound<N(!new)>(g: WGraph<N>, start: N, goal: N, s: State<N>)
    requires Inv(g, start, goal, s) && |s.queue| == 0
    ensures Sound(g, start, goal, NotFound)
  {
    if Reaches(g, start, goal) {
      var p, c :| CostPathFrom(g, start, p, c) && Last(p) == goal;
      ReachKeys(g, start, goal, s, p, c);
    }
  }
}
